=== FILE: README.md ===
# College admission predictor: a Dafny model

This project models the computational core of a college-admission assistant
backend. It covers three pieces.

- **Rank prediction engine** (`backend/utils/rankPrediction.js`):
  - A student's rank is classified against each course's historical cutoff
    records into a band: safe, medium, reach, stretch or out.
  - Each band gets a bounded score.
  - Joined college/course/cutoff rows are grouped per (college, course).
  - The category-relevant latest cutoff is picked, and the results are
    ranked and split into tiers.
  - Cutoffs are compared on a chance ladder (high, medium, possible, low or
    very low).
  - Average-rank trends are analysed and next year's cutoff is forecast.
- **Chatbot helpers** (`backend/utils/intentHandler.js`):
  - keyword-based intent detection;
  - rank, category and course extraction;
  - search-filter building, where a city is taken from keywords and a fee
    ceiling from a regular expression;
  - statistics over stored chats.
- **Pure fragments lifted out of the prediction HTTP routes**
  (`backend/routes/predictionRoutes.js`):
  - ordering of college comparisons by probability;
  - parsing and validating a `minRank-maxRank` path parameter;
  - the recent-years window of a trend request.

## Modules

**Shared library modules**

- `Wrappers`: `Option` and `Result`.
- `Numbers`: `Math.round` as round-half-up, and `Number(x.toFixed(3))`.
- `Seqs`:
  - filtering;
  - ECMAScript `slice` with relative indices;
  - a stable descending insertion sort, used for every JavaScript `sort`.
- `Grouping`: first-seen-order grouping by key, used for the `reduce` into an object keyed by a template string.
- `Counting`: first-seen-order counting, used for `counts[k] = (counts[k] || 0) + 1`.
- `Text`: ASCII case mapping, substring search and decimal digit runs.
- `Patterns`: a deterministic matcher for the source's regular expressions, which have no backtracking choices that matter.

**Modules that model the source**

- `Cutoffs`: the cutoff record, latest-year selection, and year sorting.
- `Scoring`: `determineBand` and `computeScore`.
- `Aggregation`: `aggregatePredictions`.
- `Predictor`: `generateRankPredictions` and `categorizePredictions`.
- `Comparison`: `analyzeCutoffs` and `analyzeCollegeComparison`.
- `Trends`: `analyzeTrends` and `predictNextYearTrends`.
- `Intents`: `detectIntent`, `extractRank`, `extractCategory`, `extractCourseName` and `buildSearchFilters`.
- `ChatStats`: `analyzeChatPatterns`.
- `PredictionRoutes`: the three route fragments.

## How the model represents the source

**Numbers**

- Scores and percentages are Dafny `real`s.
- `Number(x.toFixed(3))` is `floor(1000x + 1/2) / 1000` on the non-negative values where it is used.
- `Math.round` is `floor(x + 1/2)`.
- Ranks and years are natural numbers.
- A missing year is 0, and 0 is falsy, as in the source.

**Inputs that the source gets from its environment**

- The current year (`new Date().getFullYear()`) is a parameter.
- Rows, cutoffs and chats are input sequences, because the source fetches them from the database.

**Sorting**

- JavaScript's `Array.prototype.sort` is stable. It is modelled by an insertion sort on a real-valued key.
- Stability is stated as: the subsequence of elements with any given key is unchanged.

**Other representation choices**

- Dividing by an average rank of 0 in `analyzeTrends` gives `+Infinity` or `NaN`. The model uses a three-way `Percent` datatype for this.
- A JavaScript object used as a counter or a group table keeps its keys in insertion order. It is modelled as a sequence of (key, value) pairs in first-seen order.
  - Group keys are strings of the form `${collegeId}-${courseId}`.
  - Counter keys are intents and ISO dates.
  - None of them is an array index, so insertion order is the order the source sees.

**Consequences of the code**

- *Interior example.* An interior medium rank, 100 against 63–284 with 2023 data evaluated in 2024, scores 0.554. `Scoring.InteriorScoreExample` states the value the code computes.
- *Forecast variance.* The forecast confidence uses population variance (dividing by the number of changes).
- *Standard-deviation thresholds.* The thresholds 50 and 200 are compared as variance against 2500 and 40000. This is the same test without a square root.
- *Zero-scoring bands.* Every reach or stretch entry scores exactly 0, as does a medium rank equal to `maxRank`. The `score > 0` filter therefore keeps only safe entries and medium entries strictly inside the range.

## Model

| member | source | states |
|---|---|---|
| Scoring.DetermineBand | backend/utils/rankPrediction.js:8-16 | Each of the five bands holds exactly when its rank condition holds: safe iff rank ≤ minRank; medium iff inside (minRank, maxRank]; reach, stretch and out by an overshoot over maxRank of at most 2000, at most 5000, or more. |
| Scoring.BandMonotone | backend/utils/rankPrediction.js:8-16 | For a fixed cutoff range, a worse (larger) rank never gets a better band. |
| Scoring.ComputeScore | backend/utils/rankPrediction.js:18-43 | The band is the classifier's band, the label is the band's label, and an out rank scores 0 whatever the years. |
| Scoring.RecencyWeightBounds | backend/utils/rankPrediction.js:26-28 | The recency weight is 1 when either year is falsy. It lies in [0.7, 1] for past or current data and exceeds 1 for future-dated data. It is never below 0.7. |
| Scoring.SafeScoreIsRecencyWeight | backend/utils/rankPrediction.js:22-30 | A safe rank's score is exactly the recency weight, because the position is 0 and the bonus is 1. |
| Scoring.ZeroScoreFromMaxRank | backend/utils/rankPrediction.js:22-24 | A rank at or beyond maxRank (and above minRank) scores 0, because the position clamps to 1. This covers every reach and stretch rank and a medium rank equal to maxRank. |
| Scoring.PositiveScoreBands | backend/utils/rankPrediction.js:18-43 | A positive score only comes from a safe rank or a medium rank strictly below maxRank, and every safe rank scores above 0. |
| Scoring.ScoreInUnitInterval | backend/utils/rankPrediction.js:22-39 | When the cutoff is not dated after the current year, the score lies in [0, 1]. |
| Scoring.FutureSafeScoreExceedsOne | backend/utils/rankPrediction.js:26-30 | A safe rank against future-dated data scores above 1. |
| Scoring.MediumScoreAtMostSevenTenths | backend/utils/rankPrediction.js:1-30 | A medium score is at most 0.7 when the data is not future-dated. |
| Scoring.SafeOutranksMedium | backend/utils/rankPrediction.js:22-42 | For one rank, a safe cutoff scores at least as high as any medium cutoff that is not future-dated. |
| Scoring.InteriorScoreExample | backend/utils/rankPrediction.js:18-43 | Rank 100 against 63–284 (2023 data, evaluated in 2024) scores 0.554, medium. |
| Cutoffs.LatestIndex | backend/utils/rankPrediction.js:78 | The chosen record has the maximal year, and every earlier record has a strictly smaller year. So ties keep the first. |
| Cutoffs.Latest | backend/utils/rankPrediction.js:78 | The latest cutoff is one of the records, no record has a later year, and it is the first of the records sharing its year. |
| Cutoffs.ByYearDesc | backend/utils/rankPrediction.js:101 | The descending year sort is a permutation of its input (same multiset, same length), ordered newest first. |
| Cutoffs.ByYearDescStable | backend/utils/rankPrediction.js:101 | For every year, the records of that year keep their input order after the descending sort. |
| Cutoffs.ByYearAsc | backend/utils/rankPrediction.js:301 | The ascending year sort is a permutation of its input (same multiset, same length), ordered oldest first. |
| Cutoffs.ByYearAscStable | backend/utils/rankPrediction.js:301 | For every year, the records of that year keep their input order after the ascending sort. |
| Cutoffs.AscendingIsSorted | backend/utils/rankPrediction.js:301 | A history already in ascending year order comes out of the ascending sort unchanged. |
| Cutoffs.SuffixOfAscIsNewest | backend/utils/rankPrediction.js:301-302 | Any tail of the ascending sort is ascending, a sub-multiset of the history, leaves out only records no newer than its first, and within each year is the tail of that year's records in input order. |
| Cutoffs.LatestHeadsByYearDesc | backend/utils/rankPrediction.js:78-101 | Sorting by year descending (stably) puts exactly the selected latest record first. |
| Grouping.GroupBy | backend/utils/rankPrediction.js:46-70 | Grouping yields distinct keys, each occurring in the input. Every input key gets a bucket. Each bucket holds exactly that key's elements in input order. Buckets are in first-seen order. |
| Aggregation.AggregateOneGroupPerKey | backend/utils/rankPrediction.js:46-72 | There is exactly one entry per distinct (collegeId, courseId): keys are pairwise distinct, every row's key has an entry, and every entry's key occurs among the rows. |
| Aggregation.AggregateGroupContents | backend/utils/rankPrediction.js:47-68 | An entry's descriptive fields come from the first row of its key. Its cutoff list is that key's rows' cutoffs in input order. |
| Aggregation.AggregateFirstSeenOrder | backend/utils/rankPrediction.js:46-72 | Entries come out in the order their keys are first seen among the rows. |
| Aggregation.AggregateKeepsEveryRow | backend/utils/rankPrediction.js:62-68 | The group cutoff lists together hold exactly as many cutoffs as there are rows. |
| Aggregation.RelevantCutoffsChoice | backend/utils/rankPrediction.js:73-77 | With a case-insensitive category match, the relevant cutoffs are exactly the matching ones, each with its multiplicity, as a subsequence of the input in input order. With none, all cutoffs are relevant. Either way a non-empty list stays non-empty. |
| Seqs.FilterExact | backend/utils/rankPrediction.js:73-75 | `filter` keeps every element that passes the test as often as it occurs, drops every other, and keeps the input order (the result is a subsequence). |
| Aggregation.AggregatePredictions | backend/utils/rankPrediction.js:72-103 | There is one prediction per aggregated group, in group order, and each carries its group's descriptive fields. |
| Aggregation.AggregatePredictionsEntries | backend/utils/rankPrediction.js:72-103 | Each prediction keeps its group's fields. Its latest cutoff is the relevant record at the index of the first maximal year. Its cutoff list is the relevant set sorted by year descending, headed by the latest cutoff, with each year's records in their relevant-list order. Its score, band and label come from the latest cutoff. |
| Predictor.GenerateRankPredictions | backend/utils/rankPrediction.js:106-109 | An empty row list gives the bare empty result, not the tiered object, and only an empty one does. |
| Predictor.RankedMembers | backend/utils/rankPrediction.js:111-112 | Every ranked entry has a positive score and is one of the aggregated predictions. |
| Predictor.RankedSorted | backend/utils/rankPrediction.js:113 | The ranked list is non-increasing by score. |
| Predictor.RankedStable | backend/utils/rankPrediction.js:113-114 | For every score value, the ranked entries with that score appear in their original relative order. |
| Predictor.RankedLength | backend/utils/rankPrediction.js:114 | The list is truncated to `limit` with `slice(0, limit)` semantics. A negative limit drops entries from the end. |
| Predictor.RankedIsTop | backend/utils/rankPrediction.js:111-114 | The ranked list takes each positive-score entry at most as often as it occurs. Any positive entry it leaves out, or keeps fewer copies of, scores no higher than every entry it keeps: `slice(0, limit)` of the best-first sort keeps the best entries. |
| Predictor.RankedBands | backend/utils/rankPrediction.js:112 | Every entry surviving the positive-score filter is safe or medium. |
| Predictor.TiersPartitionAll | backend/utils/rankPrediction.js:116-146 | The tiers are the order-preserving band filters of `all`. Their sizes add up to `|all|`. The reach and stretch tiers are always empty. |
| Predictor.OfBandCount | backend/utils/rankPrediction.js:121-138 | The five band filters of a list partition it: their lengths add up to its length. |
| Predictor.SafeScoresDominate | backend/utils/rankPrediction.js:111-146 | Every safe entry scores at least as high as any medium entry whose data is not future-dated. |
| Predictor.CategorizePredictions | backend/utils/rankPrediction.js:199-215 | A missing or empty `all` gives four empty lists. Otherwise the safe, medium, reach and all lists pass through and stretch is dropped. |
| Predictor.CategorizeKeepsEveryEntry | backend/utils/rankPrediction.js:199-215 | After categorising generated predictions, the safe, medium and reach lists together account for every entry of `all`. |
| Comparison.AnalyzeCutoffs | backend/utils/rankPrediction.js:217-248 | With no exactly-equal category it is unable to predict. Otherwise it uses the first newest record of the category. The chance is high, medium, possible or low by the minRank/avgRank/maxRank ladder, each both ways. The gap is max(0, rank − maxRank). |
| Comparison.AnalyzeCutoffsPicksFirstNewest | backend/utils/rankPrediction.js:228-229 | The analysed record is the first record of maximal year among the category's records. |
| Comparison.OvershootProbability | backend/utils/rankPrediction.js:278-279 | The very-low probability lies in [0, 0.1) and is 0 exactly when the overshoot is at least 1000. |
| Comparison.AnalyzeCollegeComparison | backend/utils/rankPrediction.js:250-290 | "No data" (probability 0, no gap) holds exactly when no category matches. Otherwise probability 0.9, 0.6 or 0.3 holds exactly for high, medium and possible, and very low stays below 0.1. |
| Comparison.AnalysesAgree | backend/utils/rankPrediction.js:217-290 | The two analyses agree on missing data and on the gap. They give the same chance except that low is called very low. |
| Comparison.CutoffChanceMonotone | backend/utils/rankPrediction.js:232-245 | A worse rank never gets a better chance or a smaller gap. |
| Comparison.ProbabilityMonotone | backend/utils/rankPrediction.js:265-281 | A worse rank never gets a higher comparison probability. |
| Trends.AnalyzeTrends | backend/utils/rankPrediction.js:292-331 | Empty input alone gives no data. A trend is reported exactly when the input is non-empty and the trailing window of the ascending year sort holds at least two records. Its start and end years and average ranks are those of the first and last window records. |
| Trends.WindowIsNewest | backend/utils/rankPrediction.js:301-302 | The trend window is the newest part of the history, oldest first: ascending by year, a sub-multiset of the history, leaving out only records no newer than its first, and keeping each year's records in input order. |
| Trends.TrendDirectionRule | backend/utils/rankPrediction.js:315-321 | The direction is increasing iff 10·(end − start) > start, and decreasing iff 10·(start − end) > start. This is the "more than 10 percent" rule, both ways. A zero start is increasing iff the end is positive. |
| Trends.TrendSpansHistory | backend/utils/rankPrediction.js:301-313 | The reported end year is the newest year in the whole history and is not before the start year. |
| Trends.WindowSize | backend/utils/rankPrediction.js:302 | The window holds the last `years` records, or all of them when `years` is 0 or exceeds the history. |
| Trends.TrendExample | backend/utils/rankPrediction.js:312-330 | Average ranks 300, 310, 340 over 2021–2023 are an increasing trend of 13.3 percent. |
| Trends.DeltasTelescope | backend/utils/rankPrediction.js:354-360 | The year-over-year changes add up to the last value minus the first. |
| Trends.PredictNextYearTrends | backend/utils/rankPrediction.js:333-351 | Fewer than two records alone give the insufficient result. Otherwise the forecast uses 2 or 3 data points. |
| Trends.ForecastWindow | backend/utils/rankPrediction.js:342-343 | The forecast window holds the newest three records (all of them when there are fewer), oldest first, leaving out only records no newer than its first and keeping each year's records in input order. |
| Trends.ForecastOfSortedHistory | backend/utils/rankPrediction.js:333-343 | For a history of at least two records already in year order, the forecast is the extrapolation of its last three (or two) average ranks. |
| Trends.Extrapolate | backend/utils/rankPrediction.js:353-381 | Two or more average ranks always give a forecast, whose data-point count is the number of ranks. |
| Trends.ExtrapolateIsLinear | backend/utils/rankPrediction.js:354-380 | The mean change is (last − first)/(n − 1). The next-year rank is the last rank plus that mean, rounded. The direction is increasing or decreasing exactly as the last average rank exceeds or falls below the first. |
| Trends.TwoPointsAreConfident | backend/utils/rankPrediction.js:365-373 | With two data points there is a single change with zero variance, so confidence is always high. |
| Trends.ThreePointConfidence | backend/utils/rankPrediction.js:365-373 | With three points and bend a0 − 2a1 + a2: confidence is high iff \|bend\| < 100 (standard deviation below 50), and low iff \|bend\| > 400 (standard deviation above 200). |
| Trends.ForecastExample | backend/utils/rankPrediction.js:333-382 | A window of 300, 310, 340 forecasts 360, increasing, with mean change 20 and high confidence. |
| Patterns.Search | backend/utils/intentHandler.js:28 | The search finds a match iff one starts somewhere, and returns the match at the leftmost starting position (JavaScript `match` without the global flag). |
| Patterns.SearchCaptureLength | backend/utils/intentHandler.js:28 | A match of a pattern with one `\d{m,n}` group captures between m and n digits. |
| Intents.DetectIntent | backend/utils/intentHandler.js:3-25 | The result is "general" iff no keyword of any row occurs in the lower-cased message. Otherwise it is the intent of the first row in table order with an occurring keyword. |
| Intents.GeneralRowIsLast | backend/utils/intentHandler.js:3-15 | "general" is only the last table row, and that row has no keywords, so it is reached only as the fallback. |
| Intents.DetectIntentIgnoresCase | backend/utils/intentHandler.js:18 | Upper-casing the message does not change the detected intent. |
| Intents.GreetingHidesInWords | backend/utils/intentHandler.js:4-20 | "Is this college good?" is a greeting, because "hi" occurs inside "this": substring matching outranks the later college row. |
| Intents.ExtractRank | backend/utils/intentHandler.js:27-33 | No rank iff neither pattern matches. A rank-then-number match wins and gives its digits' value; otherwise a number-then-rank match gives its digits' value. The value is at most 999999. |
| Intents.ExtractRankIsCaseSensitive | backend/utils/intentHandler.js:28 | An upper-cased message never yields a rank, because both patterns need lower-case "rank". |
| Intents.RankAfterWordExample | backend/utils/intentHandler.js:28-30 | "my rank is 4500" yields 4500. |
| Intents.RankBeforeWordExample | backend/utils/intentHandler.js:28-30 | "1234567 rank" yields 234567, the leftmost place where six digits can stand before "rank". |
| Intents.ExtractCategory | backend/utils/intentHandler.js:35-43 | No category iff no keyword occurs in the lower-cased message. Otherwise it is the upper-cased first keyword in list order that occurs. |
| Intents.ExtractCategoryIgnoresCase | backend/utils/intentHandler.js:36 | Upper-casing the message does not change the extracted category. |
| Intents.CategoryHidesInWords | backend/utils/intentHandler.js:36-39 | "best college" yields category ST, found inside "best". |
| Intents.ExtractCourseName | backend/utils/intentHandler.js:45-54 | No course iff no course keyword occurs in the lower-cased message. Otherwise it is the first course keyword in list order that occurs. |
| Intents.ExtractCourseNameIgnoresCase | backend/utils/intentHandler.js:47 | Upper-casing the message does not change the course found. |
| Intents.EngineeringComesFirst | backend/utils/intentHandler.js:46-50 | Any message mentioning "engineering" yields "engineering", whatever else it mentions. |
| Intents.BuildSearchFiltersAsWritten | backend/utils/intentHandler.js:64-79 | There is no location iff no city key occurs. Otherwise the location is the name of the last city in the list that occurs. The fee ceiling is the reading of the fee patterns exactly as written. |
| Intents.BuildSearchFilters | backend/utils/intentHandler.js:64-79 | The same location, with the fee ceiling read by the corrected fee pattern (optional rupee sign). |
| Intents.FiltersDifferOnPlainCeiling | backend/utils/intentHandler.js:64-79 | "below 50000" gives no filter at all as written, and a ceiling of 50000 once corrected. |
| Intents.LaterCityWins | backend/utils/intentHandler.js:68-71 | A message naming Pune and Mumbai, but not Bangalore or Hyderabad, is located in Pune. |
| Intents.FeeLimit | backend/utils/intentHandler.js:73-76 | No ceiling iff neither fee pattern (optional rupee sign) matches. A "below" match wins and gives its digits' value; otherwise a "less than" match does. The value has at most six digits. |
| Intents.FeeLimitAsWritten | backend/utils/intentHandler.js:73-76 | The fee ceiling with the patterns exactly as written: absent iff neither matches; a "below" match wins, else a "less than" match; the value is the captured digits' value, at most six digits. |
| Intents.AsWrittenNeedsStraySign | backend/utils/intentHandler.js:73 | As written, no message without the stray character U+201A ever yields a fee ceiling. |
| Intents.FeeRegexCounterexample | backend/utils/intentHandler.js:73 | "below 50000" yields no ceiling as written and 50000 once corrected. |
| Intents.PlainCeilingRead | backend/utils/intentHandler.js:73-75 | For every 2-to-6-digit amount d, "below d" reads d with the corrected pattern and nothing as written. |
| Counting.Tally | backend/utils/intentHandler.js:265-270 | Counting gives one entry per distinct value, in first-seen order, with count equal to the value's number of occurrences. |
| Counting.TallyFirstSeenOrder | backend/utils/intentHandler.js:265-270 | A key listed before another was seen before every occurrence of the other: keys are in order of first occurrence, as object keys are in insertion order. |
| Counting.TallyTotal | backend/utils/intentHandler.js:265-270 | The counts add up to the number of counted items. |
| ChatStats.DatePart | backend/utils/intentHandler.js:268 | `split('T')[0]`: the result is a prefix of the stamp with no 'T' in it, and it ends at the first 'T' when there is one. |
| ChatStats.DatePartOfStamp | backend/utils/intentHandler.js:268 | Splitting a timestamp rendered as date "T" time at the first 'T' gives back the date. |
| ChatStats.MostCommonIndex | backend/utils/intentHandler.js:277 | The chosen key has a maximal count, and every later key's count is strictly smaller. So ties go to the later key. |
| ChatStats.AnalyzeChatPatterns | backend/utils/intentHandler.js:261-278 | It fails iff there are no chats. Otherwise the total is the chat count, the per-intent and per-day distributions are the occurrence counts of intents and dates, and the most common intent is one of the counted intents. |
| ChatStats.MostCommonIsMostFrequent | backend/utils/intentHandler.js:265-277 | The most common intent is some chat's intent and occurs at least as often as any chat's intent. Every intent first seen after it occurs strictly less often, so only an intent seen earlier can tie with it. |
| ChatStats.DistributionsAddUp | backend/utils/intentHandler.js:265-273 | The intent counts and the daily counts each add up to the total number of chats. |
| ChatStats.TieGoesToLaterIntent | backend/utils/intentHandler.js:277 | With "greeting" and "fees" seen once each, in that order, the most common intent is "fees". |
| PredictionRoutes.Analyses | backend/routes/predictionRoutes.js:154-184 | Results are produced in order, one per college that exists, each being that college's comparison analysis. Missing colleges are skipped. |
| PredictionRoutes.SortByProbability | backend/routes/predictionRoutes.js:187 | The sort gives a permutation of the results that is non-increasing by probability. |
| PredictionRoutes.SortByProbabilityStable | backend/routes/predictionRoutes.js:187 | Results with equal probability keep their relative order. |
| PredictionRoutes.CompareColleges | backend/routes/predictionRoutes.js:154-187 | The response lists one analysis per found college. It is a permutation of the in-order analyses, non-increasing by probability, and stable among equal probabilities. |
| PredictionRoutes.Split | backend/routes/predictionRoutes.js:288 | `split('-')` gives at least one field, and no field contains '-'. Joining the fields with '-' gives back the input. |
| PredictionRoutes.SplitJoin | backend/routes/predictionRoutes.js:288 | Splitting the join of '-'-free fields gives back the fields. |
| PredictionRoutes.ParseInt | backend/routes/predictionRoutes.js:288 | An empty string is NaN, and a string without '-' never parses to a negative number. |
| PredictionRoutes.ParseIntDecimal | backend/routes/predictionRoutes.js:288 | A string of decimal digits parses to its decimal value. |
| PredictionRoutes.ParseIntNumeral | backend/routes/predictionRoutes.js:288 | White space, at most one sign, decimal digits, then anything that does not continue them (and, after a lone "0", no "x") parse to the digits' value, negated after "-". |
| PredictionRoutes.ParseIntHex | backend/routes/predictionRoutes.js:288 | White space, at most one sign, "0x" or "0X", hexadecimal digits, then anything that does not continue them parse to the hexadecimal value, negated after "-". |
| PredictionRoutes.ParseIntNaN | backend/routes/predictionRoutes.js:288 | With no digit after the white space and the sign, the result is NaN. |
| PredictionRoutes.ParseRankRange | backend/routes/predictionRoutes.js:288-298 | A rejection carries the 400 message. An accepted range has 0 < min < avg ≤ max, with avg the rounded-half-up midpoint. The category is the given one or "General". |
| PredictionRoutes.RangeOf | backend/routes/predictionRoutes.js:290-298 | Two parsed endpoints are accepted iff both are numbers, neither is 0, and the first is below the second. An accepted query keeps them as its bounds, takes the half-up rounded midpoint as its average, and defaults the category to "General". Every rejection carries the 400 message. |
| PredictionRoutes.RangeFromFields | backend/routes/predictionRoutes.js:288-295 | When the first two fields parse to a and b, the range is accepted iff 0 < a < b, and then its bounds are a and b. |
| PredictionRoutes.RangeOfNumerals | backend/routes/predictionRoutes.js:288-297 | "a-b" with decimal numerals is accepted iff 0 < a < b, with those bounds. |
| PredictionRoutes.ExtraFieldsIgnored | backend/routes/predictionRoutes.js:288 | Fields after the second change nothing. |
| PredictionRoutes.HexMaximumAccepted | backend/routes/predictionRoutes.js:288-298 | "1-0x10" is accepted as the range 1–16 with average 9 and category "General", because `parseInt` reads hexadecimal. |
| PredictionRoutes.MidpointRounding | backend/routes/predictionRoutes.js:297 | Rounding half of an integer sum half-up is (sum + 1) div 2. |
| PredictionRoutes.TrendWindow | backend/routes/predictionRoutes.js:249-251 | The window keeps exactly the cutoffs whose year is at least currentYear − years + 1, each as often as it occurs, in input order (a subsequence). |
| PredictionRoutes.TrendWindowKeepsOrder | backend/routes/predictionRoutes.js:251 | A year-ascending history stays year-ascending after the window filter. |
| PredictionRoutes.TrendWindowExtremes | backend/routes/predictionRoutes.js:249-251 | If all records are recent, the window keeps them all. If none is, it is empty. |

## Left out

- **Database and framework code.**
  - The database part of `getPredictions` (backend/utils/rankPrediction.js:149-197) is left out: Sequelize queries, includes and the row projection. The rows are an input sequence instead.
  - Express request handling, validation middleware and JSON responses are left out. Only the three pure route fragments are modelled, and a missing college is an absent entry of the input.
- **Clock.** `new Date().getFullYear()` is a parameter `currentYear` everywhere.
- **Message text.** The human-readable `analysis` message strings of `analyzeCutoffs` and `analyzeCollegeComparison` are not modelled.
- **Unmodelled fields.** The `trend: 'insufficient_data'` field of the unable-to-predict analysis is not modelled, and neither is the constant `changePercent: 0` of the empty trend results.
- **Floating point.**
  - IEEE-754 rounding is not modelled: scores are exact reals, and `toFixed(3)` and `Math.round` are exact round-half-up.
  - Very large numbers that lose precision are not modelled.
  - A `null` average rank from the database is modelled as 0, the value JavaScript arithmetic and comparison give it.
- **Case mapping.** `toLowerCase`/`toUpperCase` are modelled on ASCII letters only. Full Unicode case mapping is a table this model does not include.
- **Regular expressions.** They are modelled as a fixed sequence of literal, optional-literal, whitespace-run and digit-run tokens, matched greedily. For the patterns here, greedy matching without backtracking finds the same leftmost match as the JavaScript engine.
  - The whitespace class `\s` is the full ECMAScript white-space and line-terminator set, listed in `Text.IsSpace`.
- **Timestamps.** The chat timestamp is given as its `toISOString()` rendering; date formatting is left out.
- **Other intentHandler functions.** `extractCollegeName`, `extractEntities`, the `format*` response builders and `getSuggestedQuestions` are left out. They are not part of this model: display strings or random choice.
- **PredictionRoutes.ParseInt.** It models `parseInt` with the radix omitted: white space, one sign, an optional `0x`/`0X` prefix and the longest digit run. Its own ensures only state the empty and sign cases; the value of every accepted form is stated by `ParseIntNumeral`, `ParseIntHex` and `ParseIntNaN`. Precision loss beyond 2^53 is not modelled.
- **Trends.AnalyzeTrends.** Its ensures states the shape and endpoints of the result. The direction rule and rounding are stated by `Trends.TrendDirectionRule` and `Trends.TrendExample` rather than in one contract.
- **Predictor.GenerateRankPredictions.** Its own contract only separates the empty case. The tiered result's properties are stated by separate lemmas: `RankedMembers`, `RankedSorted`, `RankedStable`, `RankedLength`, `RankedBands`, `RankedIsTop`, `TiersPartitionAll` and `SafeScoresDominate`. Together they say the ranked list holds the best positive-score entries, best first and truncated by `slice(0, limit)`.

## Findings

| source | as written | input that shows it | evidently intended | confidence | as-written member | corrected member |
|---|---|---|---|---|---|---|
| backend/utils/intentHandler.js:73 | The fee patterns read `below\s*â‚¹?\s*(\d{2,6})` and `less than\s*â‚¹?\s*(\d{2,6})`. The rupee sign was saved in a mis-decoded form, so the characters "â‚" are required and only the last one is optional. | "below 50000" gives no fee ceiling. Any message without U+201A gives none. | An optional rupee sign, `below\s*₹?\s*(\d{2,6})`, so "below 50000" gives 50000. | not executed | Intents.FeeLimitAsWritten, Intents.BuildSearchFiltersAsWritten, Intents.FeeRegexCounterexample, Intents.FiltersDifferOnPlainCeiling, Intents.AsWrittenNeedsStraySign | Intents.FeeLimit, Intents.BuildSearchFilters, Intents.PlainCeilingRead |

=== FILE: aggregation.dfy ===
/** The record aggregator of the prediction engine (`aggregatePredictions`):
    joined rows are grouped by (college, course), each group's
    category-relevant cutoffs are resolved, and the group is scored from its
    latest record. */
module Aggregation {
  import opened Cutoffs
  import opened Scoring
  import Grouping
  import Seqs

  /** The descriptive attributes of a college's course carried by a joined row. */
  datatype Info = Info(collegeId: int, collegeName: string, courseId: int, courseName: string,
                       location: string, fees: int, accreditation: string, ranking: int)

  /** A cutoff record joined with its college's and course's attributes. */
  datatype Row = Row(info: Info, cutoff: Cutoff)

  /** The group key `${collegeId}-${courseId}`. Distinct pairs of integers
      give distinct strings, so the pair stands for the string. */
  datatype Key = Key(collegeId: int, courseId: int)

  function RowKey(r: Row): Key
  {
    Key(r.info.collegeId, r.info.courseId)
  }

  function InfoKey(info: Info): Key
  {
    Key(info.collegeId, info.courseId)
  }

  /** One (college, course) with its cutoff records in input order. */
  datatype Group = Group(info: Info, cutoffs: seq<Cutoff>)

  function CutoffsOf(rows: seq<Row>): (cs: seq<Cutoff>)
    ensures |cs| == |rows| && forall i :: 0 <= i < |rows| ==> cs[i] == rows[i].cutoff
  {
    seq(|rows|, i requires 0 <= i < |rows| => rows[i].cutoff)
  }

  /** The grouping `reduce`: the first row of a key supplies the descriptive
      fields and every row of the key appends its cutoff. */
  function Aggregate(rows: seq<Row>): (gs: seq<Group>)
    ensures forall i :: 0 <= i < |gs| ==> |gs[i].cutoffs| > 0
  {
    var bs := Grouping.GroupBy(rows, RowKey);
    seq(|bs|, i requires 0 <= i < |bs| => Group(bs[i].members[0].info, CutoffsOf(bs[i].members)))
  }

  /** Each group is built from the bucket of the same position. */
  lemma AggregateBuckets(rows: seq<Row>)
    ensures var bs := Grouping.GroupBy(rows, RowKey); var gs := Aggregate(rows);
      && |gs| == |bs|
      && forall i :: 0 <= i < |gs| ==>
           && InfoKey(gs[i].info) == bs[i].key
           && gs[i].info == bs[i].members[0].info
           && gs[i].cutoffs == CutoffsOf(bs[i].members)
  {
    var bs := Grouping.GroupBy(rows, RowKey);
    forall i | 0 <= i < |bs| ensures RowKey(bs[i].members[0]) == bs[i].key {
      var p := Grouping.FirstSeen(rows, RowKey, bs[i].key);
    }
  }

  /** No two groups share a (college, course) key. */
  ghost predicate KeysDistinct(gs: seq<Group>)
  {
    forall i, j :: 0 <= i < j < |gs| ==> InfoKey(gs[i].info) != InfoKey(gs[j].info)
  }

  /** Every row's key has a group. */
  ghost predicate CoversRows(rows: seq<Row>, gs: seq<Group>)
  {
    forall j :: 0 <= j < |rows| ==> exists i :: 0 <= i < |gs| && InfoKey(gs[i].info) == RowKey(rows[j])
  }

  /** Every group's key is the key of some row. */
  ghost predicate KeysFromRows(rows: seq<Row>, gs: seq<Group>)
  {
    forall i :: 0 <= i < |gs| ==> Grouping.Occurs(rows, RowKey, InfoKey(gs[i].info))
  }

  /** Exactly one group per distinct (college, course) key: no key twice,
      every row's key has its group, and no group is made up. */
  lemma AggregateOneGroupPerKey(rows: seq<Row>)
    ensures KeysDistinct(Aggregate(rows))
    ensures CoversRows(rows, Aggregate(rows))
    ensures KeysFromRows(rows, Aggregate(rows))
  {
    AggregateKeysDistinct(rows);
    AggregateCoversRows(rows);
    AggregateKeysOccur(rows);
  }

  lemma AggregateKeysDistinct(rows: seq<Row>)
    ensures KeysDistinct(Aggregate(rows))
  {
    AggregateBuckets(rows);
    assert Grouping.DistinctKeys(Grouping.GroupBy(rows, RowKey));
  }

  lemma AggregateCoversRows(rows: seq<Row>)
    ensures CoversRows(rows, Aggregate(rows))
  {
    AggregateBuckets(rows);
    var bs := Grouping.GroupBy(rows, RowKey);
    var gs := Aggregate(rows);
    forall j | 0 <= j < |rows| ensures exists i :: 0 <= i < |gs| && InfoKey(gs[i].info) == RowKey(rows[j]) {
      var i := Grouping.BucketOf(rows, RowKey, bs, j);
      assert InfoKey(gs[i].info) == RowKey(rows[j]);
    }
  }

  lemma AggregateKeysOccur(rows: seq<Row>)
    ensures KeysFromRows(rows, Aggregate(rows))
  {
    AggregateBuckets(rows);
    assert Grouping.KeysOccur(rows, RowKey, Grouping.GroupBy(rows, RowKey));
  }

  /** A group's descriptive fields are those of the first row of its key, and
      its cutoffs are those of every row of its key, in input order. */
  lemma AggregateGroupContents(rows: seq<Row>)
    ensures var gs := Aggregate(rows);
      forall i :: 0 <= i < |gs| ==>
        && Grouping.Occurs(rows, RowKey, InfoKey(gs[i].info))
        && gs[i].info == rows[Grouping.FirstSeen(rows, RowKey, InfoKey(gs[i].info))].info
        && gs[i].cutoffs == CutoffsOf(Grouping.Members(rows, RowKey, InfoKey(gs[i].info)))
  {
    AggregateBuckets(rows);
  }

  /** Groups come in the order their keys first appear in the input. */
  lemma AggregateFirstSeenOrder(rows: seq<Row>)
    ensures var gs := Aggregate(rows);
      && (forall i :: 0 <= i < |gs| ==> Grouping.Occurs(rows, RowKey, InfoKey(gs[i].info)))
      && (forall i, j :: 0 <= i < j < |gs| ==>
            Grouping.FirstSeen(rows, RowKey, InfoKey(gs[i].info))
            < Grouping.FirstSeen(rows, RowKey, InfoKey(gs[j].info)))
  {
    AggregateBuckets(rows);
  }

  /** Conservation: the groups hold one cutoff per input row. */
  lemma AggregateKeepsEveryRow(rows: seq<Row>)
    ensures SumCutoffs(Aggregate(rows)) == |rows|
  {
    var bs := Grouping.GroupBy(rows, RowKey);
    Grouping.GroupBySizes(rows, RowKey);
    SumCutoffsOfBuckets(bs);
  }

  function SumCutoffs(gs: seq<Group>): nat
  {
    if |gs| == 0 then 0 else |gs[0].cutoffs| + SumCutoffs(gs[1..])
  }

  lemma SumCutoffsOfBuckets(bs: seq<Grouping.Bucket<Key, Row>>)
    requires forall i :: 0 <= i < |bs| ==> |bs[i].members| > 0
    ensures SumCutoffs(seq(|bs|, i requires 0 <= i < |bs| => Group(bs[i].members[0].info, CutoffsOf(bs[i].members))))
         == Grouping.SumSizes(bs)
  {
    if |bs| > 0 {
      SumCutoffsOfBuckets(bs[1..]);
      var gs := seq(|bs|, i requires 0 <= i < |bs| => Group(bs[i].members[0].info, CutoffsOf(bs[i].members)));
      var tl := seq(|bs[1..]|, i requires 0 <= i < |bs[1..]| => Group(bs[1..][i].members[0].info, CutoffsOf(bs[1..][i].members)));
      assert gs[1..] == tl;
    }
  }

  /** The cutoffs used for a group: those whose category equals the student's
      ignoring case, or all of them when none does. */
  function RelevantCutoffs(cs: seq<Cutoff>, category: string): seq<Cutoff>
  {
    var matches := Seqs.Filter(cs, c => SameCategoryIgnoringCase(c, category));
    if |matches| > 0 then matches else cs
  }

  /** Category resolution with its fallback: when some record matches, the
      relevant set is exactly the matching records in their order; otherwise
      it is the whole list. */
  lemma RelevantCutoffsChoice(cs: seq<Cutoff>, category: string)
    ensures var r := RelevantCutoffs(cs, category);
      && (|cs| > 0 ==> |r| > 0)
      && ((exists i :: 0 <= i < |cs| && SameCategoryIgnoringCase(cs[i], category)) ==>
            (forall i :: 0 <= i < |r| ==> SameCategoryIgnoringCase(r[i], category) && r[i] in cs)
            && (forall i :: 0 <= i < |cs| && SameCategoryIgnoringCase(cs[i], category) ==> cs[i] in r)
            && (forall c :: multiset(r)[c] == if SameCategoryIgnoringCase(c, category) then multiset(cs)[c] else 0)
            && Seqs.IsSubsequence(r, cs))
      && ((forall i :: 0 <= i < |cs| ==> !SameCategoryIgnoringCase(cs[i], category)) ==> r == cs)
  {
    if exists i :: 0 <= i < |cs| && SameCategoryIgnoringCase(cs[i], category) {
      RelevantWhenMatched(cs, category);
      Seqs.FilterExact(cs, c => SameCategoryIgnoringCase(c, category));
    } else {
      Seqs.FilterKeepsNone(cs, c => SameCategoryIgnoringCase(c, category));
    }
  }

  lemma RelevantWhenMatched(cs: seq<Cutoff>, category: string)
    requires exists i :: 0 <= i < |cs| && SameCategoryIgnoringCase(cs[i], category)
    ensures var r := RelevantCutoffs(cs, category);
      && r == Seqs.Filter(cs, c => SameCategoryIgnoringCase(c, category))
      && (forall i :: 0 <= i < |r| ==> SameCategoryIgnoringCase(r[i], category) && r[i] in cs)
      && (forall i :: 0 <= i < |cs| && SameCategoryIgnoringCase(cs[i], category) ==> cs[i] in r)
  {
    var matches := Seqs.Filter(cs, c => SameCategoryIgnoringCase(c, category));
    var i :| 0 <= i < |cs| && SameCategoryIgnoringCase(cs[i], category);
    assert cs[i] in matches;
  }

  /** The output entry for one (college, course). */
  datatype Prediction = Prediction(info: Info, probability: string, score: real, band: Band,
                                   latestCutoff: Cutoff, allCutoffs: seq<Cutoff>)

  /** The `map` callback: resolve the relevant cutoffs, take the latest, score it. */
  function PredictGroup(g: Group, rank: int, category: string, currentYear: int): Prediction
    requires |g.cutoffs| > 0
  {
    var relevant := RelevantCutoffs(g.cutoffs, category);
    RelevantCutoffsChoice(g.cutoffs, category);
    var latest := Latest(relevant);
    var s := ComputeScore(rank, latest.minRank, latest.maxRank, latest.year, currentYear);
    Prediction(g.info, s.probability, s.score, s.band, latest, ByYearDesc(relevant))
  }

  /** `aggregatePredictions`: one scored entry per group, in group order. */
  function AggregatePredictions(rows: seq<Row>, rank: int, category: string, currentYear: int): (ps: seq<Prediction>)
    ensures |ps| == |Aggregate(rows)|
    ensures forall i :: 0 <= i < |ps| ==> ps[i].info == Aggregate(rows)[i].info
  {
    var gs := Aggregate(rows);
    seq(|gs|, i requires 0 <= i < |gs| => PredictGroup(gs[i], rank, category, currentYear))
  }

  /** The entry carries the score, band and label that the score calculator
      gives for its own latest cutoff. */
  ghost predicate ScoredFromLatest(p: Prediction, rank: int, currentYear: int)
  {
    var l := p.latestCutoff;
    var s := ComputeScore(rank, l.minRank, l.maxRank, l.year, currentYear);
    p.score == s.score && p.band == s.band && p.probability == s.probability
  }

  /** Each entry: its descriptive fields are its group's; its latest cutoff
      is the first record of the largest year among the relevant ones and
      heads `allCutoffs`, which is the relevant set newest first with each
      year's records in their relevant order; its score is computed from
      that latest record. */
  lemma AggregatePredictionsEntries(rows: seq<Row>, rank: int, category: string, currentYear: int)
    ensures var gs := Aggregate(rows); var ps := AggregatePredictions(rows, rank, category, currentYear);
      forall i :: 0 <= i < |ps| ==>
        var relevant := RelevantCutoffs(gs[i].cutoffs, category);
        && |relevant| > 0
        && ps[i].info == gs[i].info
        && ps[i].latestCutoff == relevant[LatestIndex(relevant)]
        && (forall c :: c in relevant ==> c.year <= ps[i].latestCutoff.year)
        && multiset(ps[i].allCutoffs) == multiset(relevant)
        && Seqs.SortedDesc(ps[i].allCutoffs, YearKey)
        && (forall y :: Seqs.WithKey(ps[i].allCutoffs, YearKey, y) == Seqs.WithKey(relevant, YearKey, y))
        && ps[i].allCutoffs[0] == ps[i].latestCutoff
        && ScoredFromLatest(ps[i], rank, currentYear)
  {
    var ps := AggregatePredictions(rows, rank, category, currentYear);
    forall i | 0 <= i < |ps|
      ensures var gs := Aggregate(rows); var relevant := RelevantCutoffs(gs[i].cutoffs, category);
        && |relevant| > 0
        && ps[i].info == gs[i].info
        && ps[i].latestCutoff == relevant[LatestIndex(relevant)]
        && (forall c :: c in relevant ==> c.year <= ps[i].latestCutoff.year)
        && multiset(ps[i].allCutoffs) == multiset(relevant)
        && Seqs.SortedDesc(ps[i].allCutoffs, YearKey)
        && (forall y :: Seqs.WithKey(ps[i].allCutoffs, YearKey, y) == Seqs.WithKey(relevant, YearKey, y))
        && ps[i].allCutoffs[0] == ps[i].latestCutoff
        && ScoredFromLatest(ps[i], rank, currentYear)
    {
      PredictionEntry(Aggregate(rows)[i], rank, category, currentYear);
    }
  }

  /** One entry, in terms of its group. */
  lemma PredictionEntry(g: Group, rank: int, category: string, currentYear: int)
    requires |g.cutoffs| > 0
    ensures var p := PredictGroup(g, rank, category, currentYear);
      var relevant := RelevantCutoffs(g.cutoffs, category);
        && |relevant| > 0
        && p.info == g.info
        && p.latestCutoff == relevant[LatestIndex(relevant)]
        && (forall c :: c in relevant ==> c.year <= p.latestCutoff.year)
        && multiset(p.allCutoffs) == multiset(relevant)
        && Seqs.SortedDesc(p.allCutoffs, YearKey)
        && (forall y :: Seqs.WithKey(p.allCutoffs, YearKey, y) == Seqs.WithKey(relevant, YearKey, y))
        && p.allCutoffs[0] == p.latestCutoff
        && ScoredFromLatest(p, rank, currentYear)
  {
    var relevant := RelevantCutoffs(g.cutoffs, category);
    RelevantCutoffsChoice(g.cutoffs, category);
    LatestHeadsByYearDesc(relevant);
    ByYearDescStable(relevant);
  }

  /** Every entry of the aggregation is scored from its latest cutoff. */
  lemma AllScoredFromLatest(rows: seq<Row>, rank: int, category: string, currentYear: int)
    ensures forall p :: p in AggregatePredictions(rows, rank, category, currentYear) ==>
      ScoredFromLatest(p, rank, currentYear)
  {
    AggregatePredictionsEntries(rows, rank, category, currentYear);
  }
}

=== FILE: chatstats.dfy ===
/** Statistics over stored chats (`analyzeChatPatterns`): how many chats
    there are, how often each intent and each calendar day occurs, and the
    most common intent. */
module ChatStats {
  import opened Wrappers
  import opened Counting

  /** A stored chat: the intent it was classified with and the ISO-8601
      rendering of its timestamp ("2024-05-01T10:20:30.000Z"). */
  datatype Chat = Chat(intent: string, isoTimestamp: string)

  datatype ChatPatterns = ChatPatterns(
    totalChats: nat,
    intentDistribution: seq<Count<string>>,
    dailyChatVolume: seq<Count<string>>,
    mostCommonIntent: string)

  /** `split('T')[0]`: the text before the first 'T' (all of it when there
      is none), which for an ISO timestamp is its date. */
  function DatePart(iso: string): (d: string)
    ensures d <= iso
    ensures forall i :: 0 <= i < |d| ==> d[i] != 'T'
    ensures |d| < |iso| ==> iso[|d|] == 'T'
    decreases |iso|
  {
    if |iso| == 0 || iso[0] == 'T' then []
    else [iso[0]] + DatePart(iso[1..])
  }

  /** The date before a 'T' is read back whole, whatever the time after it. */
  lemma {:induction false} DatePartOfStamp(date: string, time: string)
    requires forall i :: 0 <= i < |date| ==> date[i] != 'T'
    ensures DatePart(date + "T" + time) == date
    decreases |date|
  {
    if |date| > 0 {
      assert (date + "T" + time)[1..] == date[1..] + "T" + time;
      DatePartOfStamp(date[1..], time);
    }
  }

  function IntentOf(c: Chat): string { c.intent }

  function DayOf(c: Chat): string { DatePart(c.isoTimestamp) }

  function Intents(chats: seq<Chat>): (r: seq<string>)
    ensures |r| == |chats| && forall i :: 0 <= i < |r| ==> r[i] == chats[i].intent
  {
    seq(|chats|, i requires 0 <= i < |chats| => IntentOf(chats[i]))
  }

  function Days(chats: seq<Chat>): (r: seq<string>)
    ensures |r| == |chats| && forall i :: 0 <= i < |r| ==> r[i] == DayOf(chats[i])
  {
    seq(|chats|, i requires 0 <= i < |chats| => DayOf(chats[i]))
  }

  /** `Object.keys(counts).reduce((a, b) => counts[a] > counts[b] ? a : b)`:
      the position of the last entry whose count is maximal, since a later
      key replaces the running winner unless the winner is strictly ahead. */
  function MostCommonIndex(cs: seq<Count<string>>): (r: nat)
    requires |cs| > 0
    ensures r < |cs|
    ensures forall i :: 0 <= i < |cs| ==> cs[i].count <= cs[r].count
    ensures forall i :: r < i < |cs| ==> cs[i].count < cs[r].count
    decreases |cs|
  {
    if |cs| == 1 then 0
    else
      var a := MostCommonIndex(cs[..|cs| - 1]);
      var b := |cs| - 1;
      if cs[a].count > cs[b].count then a else b
  }

  /** The summary of a list of chats; with no chats the source's `reduce`
      has no initial value and throws, which is the failure here. */
  function AnalyzeChatPatterns(chats: seq<Chat>): (r: Result<ChatPatterns, string>)
    ensures r.Failure? <==> |chats| == 0
    ensures r.Success? ==> r.value.totalChats == |chats|
    ensures r.Success? ==> r.value.intentDistribution == Tally(Intents(chats))
    ensures r.Success? ==> r.value.dailyChatVolume == Tally(Days(chats))
    ensures r.Success? ==>
              exists i :: 0 <= i < |r.value.intentDistribution| &&
                r.value.intentDistribution[i].key == r.value.mostCommonIntent
  {
    if |chats| == 0 then Failure("Reduce of empty array with no initial value")
    else
      var intents := Tally(Intents(chats));
      assert |intents| > 0 by {
        var i :| 0 <= i < |intents| && intents[i].key == Intents(chats)[0];
      }
      var m := MostCommonIndex(intents);
      Success(ChatPatterns(|chats|, intents, Tally(Days(chats)), intents[m].key))
  }

  /** The most common intent occurs at least as often as any chat's intent,
      and every intent first seen after it (at a chat with no earlier chat of
      that intent, but with an earlier chat of the winner) occurs strictly
      less often. */
  lemma MostCommonIsMostFrequent(chats: seq<Chat>)
    requires |chats| > 0
    ensures var m := AnalyzeChatPatterns(chats).value.mostCommonIntent;
      && m in Intents(chats)
      && forall q :: 0 <= q < |chats| ==>
           multiset(Intents(chats))[chats[q].intent] <= multiset(Intents(chats))[m]
    ensures var m := AnalyzeChatPatterns(chats).value.mostCommonIntent;
      forall q :: 0 <= q < |chats| && m in Intents(chats)[..q] &&
                  chats[q].intent !in Intents(chats)[..q] ==>
        multiset(Intents(chats))[chats[q].intent] < multiset(Intents(chats))[m]
  {
    MostCommonAtLeastAny(chats);
    LaterIntentsRarer(chats);
  }

  /** The winner is some chat's intent and no intent occurs more often. */
  lemma MostCommonAtLeastAny(chats: seq<Chat>)
    requires |chats| > 0
    ensures var m := AnalyzeChatPatterns(chats).value.mostCommonIntent;
      && m in Intents(chats)
      && forall q :: 0 <= q < |chats| ==>
           multiset(Intents(chats))[chats[q].intent] <= multiset(Intents(chats))[m]
  {
    var xs := Intents(chats);
    var t := Tally(xs);
    var m := t[MostCommonIndex(t)].key;
    assert AnalyzeChatPatterns(chats).value.mostCommonIntent == m;
    assert multiset(xs)[m] > 0;
    forall q | 0 <= q < |chats|
      ensures multiset(xs)[chats[q].intent] <= multiset(xs)[m]
    {
      var i :| 0 <= i < |t| && t[i].key == xs[q];
    }
  }

  /** Only an intent first seen before the winner can tie with it. */
  lemma LaterIntentsRarer(chats: seq<Chat>)
    requires |chats| > 0
    ensures var m := AnalyzeChatPatterns(chats).value.mostCommonIntent;
      forall q :: 0 <= q < |chats| && m in Intents(chats)[..q] &&
                  chats[q].intent !in Intents(chats)[..q] ==>
        multiset(Intents(chats))[chats[q].intent] < multiset(Intents(chats))[m]
  {
    var xs := Intents(chats);
    var t := Tally(xs);
    var w := MostCommonIndex(t);
    assert AnalyzeChatPatterns(chats).value.mostCommonIntent == t[w].key;
    TallyFirstSeenOrder(xs);
    RarerAfterWinner(xs, t, w);
  }

  /** In counts kept in first-seen order, if every entry after w counts
      less than w's, then so does every key first seen after w's key. */
  lemma RarerAfterWinner<K>(xs: seq<K>, cs: seq<Count<K>>, w: nat)
    requires Counted(xs, cs) && FirstSeenOrdered(xs, cs)
    requires w < |cs| && forall i :: w < i < |cs| ==> cs[i].count < cs[w].count
    ensures forall q :: 0 <= q < |xs| && cs[w].key in xs[..q] && xs[q] !in xs[..q] ==>
              multiset(xs)[xs[q]] < multiset(xs)[cs[w].key]
  {
    forall q | 0 <= q < |xs| && cs[w].key in xs[..q] && xs[q] !in xs[..q]
      ensures multiset(xs)[xs[q]] < multiset(xs)[cs[w].key]
    {
      var k :| 0 <= k < |cs| && cs[k].key == xs[q];
      var p :| 0 <= p < q && xs[..q][p] == cs[w].key;
      FirstSeenLater(xs, cs, w, k, p, q);
    }
  }

  /** The entry of a key first seen at q comes after the entry of a key
      already seen at p < q, in counts kept in first-seen order. */
  lemma FirstSeenLater<K>(xs: seq<K>, cs: seq<Count<K>>, w: nat, k: nat, p: nat, q: nat)
    requires FirstSeenOrdered(xs, cs)
    requires w < |cs| && k < |cs| && p < q < |xs|
    requires xs[p] == cs[w].key && xs[q] == cs[k].key
    requires xs[q] !in xs[..q]
    ensures w < k
  {
    assert xs[q] !in xs[..p] by { assert xs[..p] == xs[..q][..p]; }
    assert xs[p] in xs[..q] by { assert xs[..q][p] == xs[p]; }
  }

  /** The per-intent and per-day counts each add up to the number of chats. */
  lemma DistributionsAddUp(chats: seq<Chat>)
    requires |chats| > 0
    ensures SumCounts(AnalyzeChatPatterns(chats).value.intentDistribution) == |chats|
    ensures SumCounts(AnalyzeChatPatterns(chats).value.dailyChatVolume) == |chats|
  {
    TallyTotal(Intents(chats));
    TallyTotal(Days(chats));
  }

  /** Ties go to the intent seen later: with "greeting" and "fees" seen once
      each, in that order, the most common intent is "fees". */
  lemma TieGoesToLaterIntent(cs: seq<Count<string>>)
    requires cs == [Count("greeting", 1), Count("fees", 1)]
    ensures cs[MostCommonIndex(cs)].key == "fees"
  {
  }
}

=== FILE: comparison.dfy ===
/** The single-college cutoff analysis (`analyzeCutoffs`) and the
    comparison entry (`analyzeCollegeComparison`). Both look only at the
    records whose category equals the requested one exactly. */
module Comparison {
  import opened Wrappers
  import opened Cutoffs
  import Seqs

  /** The chance labels: `high`, `medium`, `possible`, `low`, `very_low`
      and `no_data`. */
  datatype Chance = High | Medium | Possible | Low | VeryLow | NoData

  /** Position of a chance on the ladder, best first; the two worst labels
      share a step because each analysis uses only one of them. */
  function Step(c: Chance): nat
  {
    match c
    case High => 0
    case Medium => 1
    case Possible => 2
    case Low => 3
    case VeryLow => 3
    case NoData => 4
  }

  /** The exact, case-sensitive category test `c.category === category`. */
  function IsCategory(category: string): Cutoff -> bool
  {
    (c: Cutoff) => c.category == category
  }

  /** The records of exactly the requested category. */
  function OfCategory(cs: seq<Cutoff>, category: string): (r: seq<Cutoff>)
    ensures forall i :: 0 <= i < |r| ==> r[i] in cs && r[i].category == category
    ensures forall i :: 0 <= i < |cs| && cs[i].category == category ==> cs[i] in r
  {
    Seqs.Filter(cs, IsCategory(category))
  }

  /** The shared ladder: the first threshold the rank does not exceed decides. */
  function Ladder(rank: int, c: Cutoff, worst: Chance): (ch: Chance)
  {
    if rank <= c.minRank then High
    else if rank <= c.avgRank then Medium
    else if rank <= c.maxRank then Possible
    else worst
  }

  /** How far the rank lies past the maximum, or 0 inside the range. */
  function Gap(rank: int, c: Cutoff): (g: nat)
    ensures g > 0 <==> rank > c.maxRank
    ensures g > 0 ==> c.maxRank + g == rank
  {
    if rank - c.maxRank > 0 then rank - c.maxRank else 0
  }

  /** The result of `analyzeCutoffs`: `unable_to_predict` when no record
      matches, otherwise the newest record, the chance and the gap. */
  datatype CutoffAnalysis =
    | UnableToPredict
    | Analysed(latestCutoff: Cutoff, chance: Chance, gap: nat)

  /** `analyzeCutoffs`; the human-readable `analysis` sentence is not modelled. */
  function AnalyzeCutoffs(cs: seq<Cutoff>, rank: int, category: string): (a: CutoffAnalysis)
    ensures a.UnableToPredict? <==> forall i :: 0 <= i < |cs| ==> cs[i].category != category
    ensures a.Analysed? ==> a.latestCutoff in cs && a.latestCutoff.category == category
    ensures a.Analysed? ==> forall i :: 0 <= i < |cs| && cs[i].category == category ==> cs[i].year <= a.latestCutoff.year
    ensures a.Analysed? ==> (a.chance == High <==> rank <= a.latestCutoff.minRank)
    ensures a.Analysed? ==> (a.chance == Medium <==> a.latestCutoff.minRank < rank <= a.latestCutoff.avgRank)
    ensures a.Analysed? ==> (a.chance == Possible <==>
              a.latestCutoff.minRank < rank && a.latestCutoff.avgRank < rank <= a.latestCutoff.maxRank)
    ensures a.Analysed? ==> (a.chance == Low <==>
              a.latestCutoff.minRank < rank && a.latestCutoff.avgRank < rank && a.latestCutoff.maxRank < rank)
    ensures a.Analysed? ==> a.chance != VeryLow && a.chance != NoData
    ensures a.Analysed? ==> a.gap == if rank > a.latestCutoff.maxRank then rank - a.latestCutoff.maxRank else 0
  {
    var matching := OfCategory(cs, category);
    if |matching| == 0 then
      Seqs.FilterKeepsNone(cs, IsCategory(category));
      UnableToPredict
    else
      var latest := Latest(matching);
      Analysed(latest, Ladder(rank, latest, Low), Gap(rank, latest))
  }

  /** The record `analyzeCutoffs` settles on is the first record of the
      category carrying the category's newest year. */
  lemma AnalyzeCutoffsPicksFirstNewest(cs: seq<Cutoff>, rank: int, category: string)
    requires AnalyzeCutoffs(cs, rank, category).Analysed?
    ensures var m := OfCategory(cs, category);
      |m| > 0 && AnalyzeCutoffs(cs, rank, category).latestCutoff == m[LatestIndex(m)]
      && forall j :: 0 <= j < LatestIndex(m) ==> m[j].year < m[LatestIndex(m)].year
  {
  }

  /** The result of `analyzeCollegeComparison`; `gap` is absent for `no_data`. */
  datatype CollegeComparison =
    CollegeComparison(collegeName: string, probability: real, chance: Chance, gap: Option<nat>)

  /** The admission probability of a rank past the maximum: 0.1 less a
      hundred-thousandth per rank of overshoot, floored at 0. */
  function OvershootProbability(overshoot: int): (p: real)
    requires overshoot > 0
    ensures 0.0 <= p < 0.1
    ensures p == 0.0 <==> overshoot >= 1000
  {
    var raw := 0.1 - overshoot as real / 10000.0;
    if raw >= 0.0 then raw else 0.0
  }

  /** The probability of each chance label. */
  function Probability(rank: int, c: Cutoff): real
  {
    if rank <= c.minRank then 0.9
    else if rank <= c.avgRank then 0.6
    else if rank <= c.maxRank then 0.3
    else OvershootProbability(rank - c.maxRank)
  }

  /** `analyzeCollegeComparison`; the `analysis` sentence is not modelled. */
  function AnalyzeCollegeComparison(collegeName: string, cs: seq<Cutoff>, rank: int, category: string): (r: CollegeComparison)
    ensures r.collegeName == collegeName
    ensures r.chance == NoData <==> forall i :: 0 <= i < |cs| ==> cs[i].category != category
    ensures r.chance == NoData <==> r.gap.None?
    ensures r.chance == NoData ==> r.probability == 0.0
    ensures r.chance != Low
    ensures 0.0 <= r.probability <= 0.9
    ensures r.chance == High <==> r.probability == 0.9
    ensures r.chance == Medium <==> r.probability == 0.6
    ensures r.chance == Possible <==> r.probability == 0.3
    ensures r.chance == VeryLow ==> r.probability < 0.1
  {
    var matching := OfCategory(cs, category);
    if |matching| == 0 then
      Seqs.FilterKeepsNone(cs, IsCategory(category));
      CollegeComparison(collegeName, 0.0, NoData, None)
    else
      var latest := Latest(matching);
      CollegeComparison(collegeName, Probability(rank, latest), Ladder(rank, latest, VeryLow), Some(Gap(rank, latest)))
  }

  /** The two analyses agree: the same record decides, the same gap is
      reported, and the chance labels coincide except that the comparison
      says `very_low` where the cutoff analysis says `low`, and `no_data`
      where it cannot predict. */
  lemma AnalysesAgree(collegeName: string, cs: seq<Cutoff>, rank: int, category: string)
    ensures var a := AnalyzeCutoffs(cs, rank, category);
      var r := AnalyzeCollegeComparison(collegeName, cs, rank, category);
      && (a.UnableToPredict? <==> r.chance == NoData)
      && (a.Analysed? ==> r.gap == Some(a.gap))
      && (a.Analysed? ==> (r.chance == VeryLow <==> a.chance == Low))
      && (a.Analysed? && a.chance != Low ==> r.chance == a.chance)
  {
  }

  /** A worse rank never gets a better chance label from the cutoff analysis. */
  lemma CutoffChanceMonotone(cs: seq<Cutoff>, rank1: int, rank2: int, category: string)
    requires rank1 <= rank2
    ensures var a1 := AnalyzeCutoffs(cs, rank1, category);
      var a2 := AnalyzeCutoffs(cs, rank2, category);
      a1.Analysed? ==> a2.Analysed? && Step(a1.chance) <= Step(a2.chance) && a1.gap <= a2.gap
  {
  }

  /** A worse rank never gets a higher comparison probability. */
  lemma ProbabilityMonotone(collegeName: string, cs: seq<Cutoff>, rank1: int, rank2: int, category: string)
    requires rank1 <= rank2
    ensures AnalyzeCollegeComparison(collegeName, cs, rank2, category).probability
         <= AnalyzeCollegeComparison(collegeName, cs, rank1, category).probability
  {
  }

  /** The overshoot probability vanishes from 1000 ranks past the maximum on. */
  lemma VeryLowVanishes(collegeName: string, cs: seq<Cutoff>, rank: int, category: string)
    ensures var r := AnalyzeCollegeComparison(collegeName, cs, rank, category);
      r.chance == VeryLow ==> (r.probability == 0.0 <==> r.gap.value >= 1000)
  {
  }
}

=== FILE: counting.dfy ===
/** Counting occurrences into a plain object: the
    `counts[k] = (counts[k] || 0) + 1` loop that tallies chats by intent and
    by day. Entries stay in the order their keys were first counted, which
    is the enumeration order of such an object's (non-index) keys. */
module Counting {
  import opened Wrappers

  /** One entry of a counting object: a key and how often it was seen. */
  datatype Count<K> = Count(key: K, count: nat)

  /** Lookup of the entry for key k (the `counts[k]` of the source). */
  function FindCount<K(==)>(cs: seq<Count<K>>, k: K): (r: Option<nat>)
    ensures r.Some? ==> r.value < |cs| && cs[r.value].key == k
    ensures r.None? ==> forall i :: 0 <= i < |cs| ==> cs[i].key != k
    decreases |cs|
  {
    if |cs| == 0 then None
    else if cs[0].key == k then Some(0)
    else match FindCount(cs[1..], k)
      case None => None
      case Some(i) => Some(i + 1)
  }

  /** One step: add one to k's entry, opening it at 1 on first sight. */
  function Bump<K(==)>(cs: seq<Count<K>>, k: K): seq<Count<K>>
  {
    match FindCount(cs, k)
    case Some(i) => cs[i := Count(k, cs[i].count + 1)]
    case None => cs + [Count(k, 1)]
  }

  /** cs counts xs: keys are distinct, every value of xs has an entry, and
      each entry holds its key's multiplicity in xs. */
  ghost predicate Counted<K>(xs: seq<K>, cs: seq<Count<K>>)
  {
    DistinctKeys(cs) && Multiplicities(xs, cs) && Covers(xs, cs)
  }

  predicate DistinctKeys<K(==)>(cs: seq<Count<K>>)
  {
    forall i, j :: 0 <= i < j < |cs| ==> cs[i].key != cs[j].key
  }

  /** Each entry holds the (positive) multiplicity of its key in xs. */
  ghost predicate Multiplicities<K>(xs: seq<K>, cs: seq<Count<K>>)
  {
    forall i :: 0 <= i < |cs| ==> cs[i].count == multiset(xs)[cs[i].key] > 0
  }

  /** Every value of xs has an entry. */
  ghost predicate Covers<K>(xs: seq<K>, cs: seq<Count<K>>)
  {
    forall q :: 0 <= q < |xs| ==> exists i :: 0 <= i < |cs| && cs[i].key == xs[q]
  }

  /** Every occurrence of a later entry's key is preceded by an occurrence of
      each earlier entry's key: entries are in first-seen order. */
  ghost predicate FirstSeenOrdered<K>(xs: seq<K>, cs: seq<Count<K>>)
  {
    forall i, j, q :: 0 <= i < j < |cs| && 0 <= q < |xs| && xs[q] == cs[j].key ==>
      cs[i].key in xs[..q]
  }

  /** The counting loop over xs. */
  function Tally<K(==)>(xs: seq<K>): (r: seq<Count<K>>)
    ensures Counted(xs, r)
    decreases |xs|
  {
    if |xs| == 0 then []
    else
      var pre := xs[..|xs| - 1];
      var x := xs[|xs| - 1];
      assert xs == pre + [x];
      var cs := Tally(pre);
      BumpCounts(pre, x, cs);
      Bump(cs, x)
  }

  lemma BumpCounts<K>(pre: seq<K>, x: K, cs: seq<Count<K>>)
    requires Counted(pre, cs)
    ensures Counted(pre + [x], Bump(cs, x))
  {
    BumpDistinct(cs, x);
    BumpMultiplicity(pre, x, cs);
    BumpCovers(pre, x, cs);
  }

  lemma BumpDistinct<K>(cs: seq<Count<K>>, x: K)
    requires DistinctKeys(cs)
    ensures DistinctKeys(Bump(cs, x))
  {
    var r := Bump(cs, x);
    match FindCount(cs, x)
    case Some(b) =>
      assert forall i :: 0 <= i < |r| ==> r[i].key == cs[i].key;
    case None =>
      assert forall i :: 0 <= i < |cs| ==> r[i] == cs[i];
  }

  lemma BumpMultiplicity<K>(pre: seq<K>, x: K, cs: seq<Count<K>>)
    requires DistinctKeys(cs) && Multiplicities(pre, cs) && Covers(pre, cs)
    ensures Multiplicities(pre + [x], Bump(cs, x))
  {
    var r := Bump(cs, x);
    var m := multiset(pre + [x]);
    assert m == multiset(pre) + multiset{x};
    match FindCount(cs, x)
    case Some(b) =>
      forall i | 0 <= i < |r|
        ensures r[i].count == m[r[i].key] > 0
      {
        if i != b {
          assert r[i] == cs[i];
        } else {
          assert r[b] == Count(x, cs[b].count + 1) && cs[b].key == x;
        }
      }
    case None =>
      forall q | 0 <= q < |pre|
        ensures pre[q] != x
      {
        var e :| 0 <= e < |cs| && cs[e].key == pre[q];
      }
      assert multiset(pre)[x] == 0;
      forall i | 0 <= i < |r|
        ensures r[i].count == m[r[i].key] > 0
      {
        if i < |cs| {
          assert r[i] == cs[i] && cs[i].key != x;
        } else {
          assert r[i] == Count(x, 1);
        }
      }
  }

  lemma BumpCovers<K>(pre: seq<K>, x: K, cs: seq<Count<K>>)
    requires Covers(pre, cs)
    ensures Covers(pre + [x], Bump(cs, x))
  {
    var xs := pre + [x];
    var r := Bump(cs, x);
    assert forall i :: 0 <= i < |cs| ==> r[i].key == cs[i].key;
    var last := match FindCount(cs, x) case Some(b) => b case None => |cs|;
    assert last < |r| && r[last].key == x;
    forall q | 0 <= q < |xs|
      ensures exists i :: 0 <= i < |r| && r[i].key == xs[q]
    {
      if q < |pre| {
        assert xs[q] == pre[q];
        var i :| 0 <= i < |cs| && cs[i].key == pre[q];
        assert r[i].key == xs[q];
      } else {
        assert r[last].key == xs[q];
      }
    }
  }

  /** Entries come in the order their keys are first seen: every occurrence
      of a later entry's key is preceded by an occurrence of each earlier
      entry's key. */
  lemma {:induction false} TallyFirstSeenOrder<K>(xs: seq<K>)
    ensures FirstSeenOrdered(xs, Tally(xs))
    decreases |xs|
  {
    if |xs| > 0 {
      var pre := xs[..|xs| - 1];
      var x := xs[|xs| - 1];
      assert xs == pre + [x];
      var cs := Tally(pre);
      var r := Tally(xs);
      assert r == Bump(cs, x);
      TallyFirstSeenOrder(pre);
      forall i, j, q | 0 <= i < j < |r| && 0 <= q < |xs| && xs[q] == r[j].key
        ensures r[i].key in xs[..q]
      {
        OrderStep(pre, x, cs, i, j, q);
      }
    }
  }

  lemma OrderStep<K>(pre: seq<K>, x: K, cs: seq<Count<K>>, i: nat, j: nat, q: nat)
    requires Counted(pre, cs)
    requires FirstSeenOrdered(pre, cs)
    requires i < j < |Bump(cs, x)| && q <= |pre|
    requires (pre + [x])[q] == Bump(cs, x)[j].key
    ensures Bump(cs, x)[i].key in (pre + [x])[..q]
  {
    var xs := pre + [x];
    var r := Bump(cs, x);
    assert xs[..|pre|] == pre;
    match FindCount(cs, x)
    case Some(b) =>
      assert r[i].key == cs[i].key && r[j].key == cs[j].key;
      if q < |pre| {
        assert xs[..q] == pre[..q];
      } else {
        PresentKey(pre, cs, i);
      }
    case None =>
      assert r[i] == cs[i];
      if j < |cs| {
        assert r[j] == cs[j];
        if q < |pre| {
          assert xs[..q] == pre[..q];
        } else {
          assert false;
        }
      } else {
        assert r[j].key == x;
        if q < |pre| {
          assert false;
        } else {
          PresentKey(pre, cs, i);
        }
      }
  }

  /** Every counted key occurs in the counted values. */
  lemma PresentKey<K>(xs: seq<K>, cs: seq<Count<K>>, i: nat)
    requires Counted(xs, cs) && i < |cs|
    ensures cs[i].key in xs
  {
    assert multiset(xs)[cs[i].key] > 0;
  }

  function SumCounts<K>(cs: seq<Count<K>>): nat
    decreases |cs|
  {
    if |cs| == 0 then 0 else cs[0].count + SumCounts(cs[1..])
  }

  lemma {:induction false} SumCountsUpdate<K>(cs: seq<Count<K>>, i: nat, c: Count<K>)
    requires i < |cs|
    ensures SumCounts(cs[i := c]) == SumCounts(cs) - cs[i].count + c.count
    decreases |cs|
  {
    if i > 0 {
      SumCountsUpdate(cs[1..], i - 1, c);
      assert cs[i := c][1..] == cs[1..][i - 1 := c];
    }
  }

  lemma {:induction false} SumCountsAppend<K>(cs: seq<Count<K>>, c: Count<K>)
    ensures SumCounts(cs + [c]) == SumCounts(cs) + c.count
    decreases |cs|
  {
    if |cs| > 0 {
      SumCountsAppend(cs[1..], c);
      assert (cs + [c])[1..] == cs[1..] + [c];
    } else {
      assert ([] + [c])[1..] == [];
    }
  }

  /** The counts of a tally add up to the number of values counted. */
  lemma {:induction false} TallyTotal<K>(xs: seq<K>)
    ensures SumCounts(Tally(xs)) == |xs|
    decreases |xs|
  {
    if |xs| > 0 {
      var pre := xs[..|xs| - 1];
      var x := xs[|xs| - 1];
      var cs := Tally(pre);
      TallyTotal(pre);
      match FindCount(cs, x)
      case Some(b) =>
        SumCountsUpdate(cs, b, Count(x, cs[b].count + 1));
      case None =>
        SumCountsAppend(cs, Count(x, 1));
    }
  }
}

=== FILE: cutoffs.dfy ===
/** Historical cutoff records and the selections made over them: the
    latest-year record, year orderings, and category matching. */
module Cutoffs {
  import opened Text
  import Seqs

  /** One year's admission statistics for one category of a college's course.
      The fields are unsigned integers in the store; a missing average rank
      reads as 0. */
  datatype Cutoff = Cutoff(year: nat, category: string, minRank: nat, maxRank: nat, avgRank: nat)

  function Year(c: Cutoff): int { c.year }

  function YearKey(c: Cutoff): real { c.year as real }

  function NegatedYearKey(c: Cutoff): real { -(c.year as real) }

  /** The fold `cs.reduce((prev, curr) => curr.year > prev.year ? curr : prev, cs[0])`,
      as the index it settles on: the first record of the largest year,
      since a later record of an equal year does not replace it. */
  function LatestIndex(cs: seq<Cutoff>): (i: nat)
    requires |cs| > 0
    ensures i < |cs|
    ensures forall j :: 0 <= j < |cs| ==> cs[j].year <= cs[i].year
    ensures forall j :: 0 <= j < i ==> cs[j].year < cs[i].year
    decreases |cs|
  {
    if |cs| == 1 then 0
    else
      var p := LatestIndex(cs[..|cs| - 1]);
      if cs[|cs| - 1].year > cs[p].year then |cs| - 1 else p
  }

  /** The record the fold settles on: of the largest year, and the first
      record of that year. */
  function Latest(cs: seq<Cutoff>): (l: Cutoff)
    requires |cs| > 0
    ensures l in cs
    ensures forall j :: 0 <= j < |cs| ==> cs[j].year <= l.year
    ensures |Seqs.WithKey(cs, YearKey, YearKey(l))| > 0 && Seqs.WithKey(cs, YearKey, YearKey(l))[0] == l
  {
    var i := LatestIndex(cs);
    Seqs.WithKeyHead(cs, YearKey, YearKey(cs[i]), i);
    cs[i]
  }

  /** `cs.sort((a, b) => b.year - a.year)`: newest first, ties in input order
      (the tie order is `ByYearDescStable`). */
  function ByYearDesc(cs: seq<Cutoff>): (r: seq<Cutoff>)
    ensures Seqs.SortedDesc(r, YearKey)
    ensures multiset(r) == multiset(cs) && |r| == |cs|
  {
    Seqs.SortDesc(cs, YearKey)
  }

  /** `cs.sort((a, b) => a.year - b.year)`: oldest first, ties in input order
      (the tie order is `ByYearAscStable`). */
  function ByYearAsc(cs: seq<Cutoff>): (r: seq<Cutoff>)
    ensures Seqs.Ascending(r, Year)
    ensures multiset(r) == multiset(cs) && |r| == |cs|
  {
    AscendingSortOrdered(Seqs.SortDesc(cs, NegatedYearKey));
    Seqs.SortDesc(cs, NegatedYearKey)
  }

  /** The newest-first sort keeps each year's records in input order. */
  lemma ByYearDescStable(cs: seq<Cutoff>)
    ensures forall k :: Seqs.WithKey(ByYearDesc(cs), YearKey, k) == Seqs.WithKey(cs, YearKey, k)
  {
    Seqs.SortDescStableAll(cs, YearKey);
  }

  /** The oldest-first sort keeps each year's records in input order. */
  lemma ByYearAscStable(cs: seq<Cutoff>)
    ensures forall k :: Seqs.WithKey(ByYearAsc(cs), YearKey, k) == Seqs.WithKey(cs, YearKey, k)
  {
    forall k ensures Seqs.WithKey(ByYearAsc(cs), YearKey, k) == Seqs.WithKey(cs, YearKey, k) {
      AscendingSortStable(cs, k);
    }
  }

  lemma AscendingSortOrdered(r: seq<Cutoff>)
    requires Seqs.SortedDesc(r, NegatedYearKey)
    ensures Seqs.Ascending(r, Year)
  {
    forall i, j | 0 <= i < j < |r| ensures Year(r[i]) <= Year(r[j]) {
      assert NegatedYearKey(r[i]) >= NegatedYearKey(r[j]);
    }
  }

  lemma AscendingSortStable(cs: seq<Cutoff>, k: real)
    ensures Seqs.WithKey(Seqs.SortDesc(cs, NegatedYearKey), YearKey, k) == Seqs.WithKey(cs, YearKey, k)
  {
    Seqs.SortDescStable(cs, NegatedYearKey, -k);
    WithKeyNegated(Seqs.SortDesc(cs, NegatedYearKey), k);
    WithKeyNegated(cs, k);
  }

  /** Selecting the records of year k by the year or by its negation is the same. */
  lemma {:induction false} WithKeyNegated(cs: seq<Cutoff>, k: real)
    ensures Seqs.WithKey(cs, NegatedYearKey, -k) == Seqs.WithKey(cs, YearKey, k)
    decreases |cs|
  {
    if |cs| > 0 {
      WithKeyNegated(cs[1..], k);
      assert NegatedYearKey(cs[0]) == -k <==> YearKey(cs[0]) == k;
    }
  }

  /** The representative record is the head of the newest-first list: a
      stable descending sort puts the first record of the largest year in front. */
  lemma LatestHeadsByYearDesc(cs: seq<Cutoff>)
    requires |cs| > 0
    ensures |ByYearDesc(cs)| == |cs| && ByYearDesc(cs)[0] == Latest(cs)
  {
    var sorted := ByYearDesc(cs);
    var l := LatestIndex(cs);
    var top := YearKey(cs[l]);
    assert sorted[0] in multiset(cs);
    assert cs[l] in multiset(sorted);
    var j :| 0 <= j < |sorted| && sorted[j] == cs[l];
    assert YearKey(sorted[0]) == top;
    Seqs.SortDescStable(cs, YearKey, top);
    Seqs.WithKeyHead(cs, YearKey, top, l);
    Seqs.WithKeyHead(sorted, YearKey, top, 0);
  }

  /** w is the newest |w| records of cs, oldest first: ordered by year,
      drawn from cs, every record left out no newer than w's oldest, and
      within each year the last of that year's records in input order. */
  ghost predicate NewestOldestFirst(w: seq<Cutoff>, cs: seq<Cutoff>)
  {
    && Seqs.Ascending(w, Year)
    && multiset(w) <= multiset(cs)
    && (|w| > 0 ==> forall c :: multiset(w)[c] < multiset(cs)[c] ==> c.year <= w[0].year)
    && forall k :: Seqs.IsSuffix(Seqs.WithKey(w, YearKey, k), Seqs.WithKey(cs, YearKey, k))
  }

  /** Any `slice` from a start index to the end of the ascending sort is
      such a window. */
  lemma SuffixOfAscIsNewest(cs: seq<Cutoff>, m: nat)
    requires m <= |cs|
    ensures NewestOldestFirst(ByYearAsc(cs)[m..], cs)
  {
    var r := ByYearAsc(cs);
    SuffixAscending(r, m);
    SuffixCounts(r, m);
    if m < |r| {
      SuffixOnlyOlderLeftOut(r, m);
    }
    SuffixSameYearOrder(cs, m);
  }

  lemma SuffixAscending(r: seq<Cutoff>, m: nat)
    requires m <= |r| && Seqs.Ascending(r, Year)
    ensures Seqs.Ascending(r[m..], Year)
  {
    var w := r[m..];
    forall i, j | 0 <= i < j < |w| ensures Year(w[i]) <= Year(w[j]) {
      assert w[i] == r[m + i] && w[j] == r[m + j];
    }
  }

  lemma SuffixCounts(r: seq<Cutoff>, m: nat)
    requires m <= |r|
    ensures multiset(r[m..]) <= multiset(r)
    ensures multiset(r) == multiset(r[..m]) + multiset(r[m..])
  {
    assert r == r[..m] + r[m..];
  }

  lemma SuffixOnlyOlderLeftOut(r: seq<Cutoff>, m: nat)
    requires m < |r| && Seqs.Ascending(r, Year)
    ensures forall c :: multiset(r[m..])[c] < multiset(r)[c] ==> c.year <= r[m..][0].year
  {
    SuffixCounts(r, m);
    forall c | multiset(r[m..])[c] < multiset(r)[c] ensures c.year <= r[m..][0].year {
      assert multiset(r[..m])[c] > 0;
      var i :| 0 <= i < m && r[..m][i] == c;
      assert r[i] == c && r[m..][0] == r[m];
      assert Year(r[i]) <= Year(r[m]);
    }
  }

  lemma SuffixSameYearOrder(cs: seq<Cutoff>, m: nat)
    requires m <= |cs|
    ensures forall k :: Seqs.IsSuffix(Seqs.WithKey(ByYearAsc(cs)[m..], YearKey, k), Seqs.WithKey(cs, YearKey, k))
  {
    ByYearAscStable(cs);
    forall k ensures Seqs.IsSuffix(Seqs.WithKey(ByYearAsc(cs)[m..], YearKey, k), Seqs.WithKey(cs, YearKey, k)) {
      Seqs.WithKeyOfSuffix(ByYearAsc(cs), m, YearKey, k);
    }
  }

  /** A history already in year order is its own ascending sort. */
  lemma AscendingIsSorted(cs: seq<Cutoff>)
    requires Seqs.Ascending(cs, Year)
    ensures ByYearAsc(cs) == cs
  {
    forall i, j | 0 <= i < j < |cs| ensures NegatedYearKey(cs[i]) >= NegatedYearKey(cs[j]) {
      assert Year(cs[i]) <= Year(cs[j]);
    }
    Seqs.SortDescOfSorted(cs, NegatedYearKey);
  }

  /** The category test of the prediction path: equal after lower-casing. */
  predicate SameCategoryIgnoringCase(c: Cutoff, category: string)
  {
    ToLower(c.category) == ToLower(category)
  }
}

=== FILE: grouping.dfy ===
/** Grouping a sequence by a key into buckets kept in first-seen order: the
    `reduce` into a plain object keyed by a string that the source uses both
    to aggregate cutoff rows and to count chats. (Object keys that are never
    array indices are enumerated in insertion order, which is what the
    bucket order models.) */
module Grouping {
  import opened Wrappers

  datatype Bucket<K, V> = Bucket(key: K, members: seq<V>)

  /** The elements of xs whose key is k, in their input order. */
  function Members<K(==), V>(xs: seq<V>, key: V -> K, k: K): seq<V>
    decreases |xs|
  {
    if |xs| == 0 then []
    else Members(xs[..|xs| - 1], key, k) + (if key(xs[|xs| - 1]) == k then [xs[|xs| - 1]] else [])
  }

  predicate Occurs<K(==), V>(xs: seq<V>, key: V -> K, k: K)
  {
    exists j :: 0 <= j < |xs| && key(xs[j]) == k
  }

  /** The position of the first element of xs with key k. */
  function FirstSeen<K(==), V>(xs: seq<V>, key: V -> K, k: K): (p: nat)
    requires Occurs(xs, key, k)
    ensures p < |xs| && key(xs[p]) == k
    ensures forall j :: 0 <= j < p ==> key(xs[j]) != k
    decreases |xs|
  {
    if key(xs[0]) == k then 0
    else
      assert Occurs(xs[1..], key, k) by {
        var j :| 0 <= j < |xs| && key(xs[j]) == k;
        assert xs[1..][j - 1] == xs[j];
      }
      1 + FirstSeen(xs[1..], key, k)
  }

  predicate DistinctKeys<K(==), V>(bs: seq<Bucket<K, V>>)
  {
    forall i, j :: 0 <= i < j < |bs| ==> bs[i].key != bs[j].key
  }

  function SumSizes<K, V>(bs: seq<Bucket<K, V>>): nat
    decreases |bs|
  {
    if |bs| == 0 then 0 else |bs[0].members| + SumSizes(bs[1..])
  }

  /** Lookup of the bucket holding key k (the `acc[key]` of the source). */
  function FindBucket<K(==), V>(bs: seq<Bucket<K, V>>, k: K): (r: Option<nat>)
    ensures r.Some? ==> r.value < |bs| && bs[r.value].key == k
    ensures r.None? ==> forall i :: 0 <= i < |bs| ==> bs[i].key != k
    decreases |bs|
  {
    if |bs| == 0 then None
    else if bs[0].key == k then Some(0)
    else match FindBucket(bs[1..], k)
      case None => None
      case Some(i) => Some(i + 1)
  }

  /** One step of the fold: append v to k's bucket, opening it on first sight. */
  function AddTo<K(==), V>(bs: seq<Bucket<K, V>>, k: K, v: V): seq<Bucket<K, V>>
  {
    match FindBucket(bs, k)
    case Some(i) => bs[i := Bucket(k, bs[i].members + [v])]
    case None => bs + [Bucket(k, [v])]
  }

  ghost predicate KeysOccur<K, V>(xs: seq<V>, key: V -> K, bs: seq<Bucket<K, V>>)
  {
    forall i :: 0 <= i < |bs| ==> Occurs(xs, key, bs[i].key)
  }

  ghost predicate Covers<K, V>(xs: seq<V>, key: V -> K, bs: seq<Bucket<K, V>>)
  {
    forall j :: 0 <= j < |xs| ==> exists i :: 0 <= i < |bs| && bs[i].key == key(xs[j])
  }

  ghost predicate MembersExact<K, V>(xs: seq<V>, key: V -> K, bs: seq<Bucket<K, V>>)
  {
    forall i :: 0 <= i < |bs| ==> bs[i].members == Members(xs, key, bs[i].key)
  }

  ghost predicate HeadsFirstSeen<K, V>(xs: seq<V>, key: V -> K, bs: seq<Bucket<K, V>>)
    requires KeysOccur(xs, key, bs)
  {
    forall i :: 0 <= i < |bs| ==>
      |bs[i].members| > 0 && bs[i].members[0] == xs[FirstSeen(xs, key, bs[i].key)]
  }

  ghost predicate FirstSeenOrder<K, V>(xs: seq<V>, key: V -> K, bs: seq<Bucket<K, V>>)
    requires KeysOccur(xs, key, bs)
  {
    forall i, j :: 0 <= i < j < |bs| ==>
      FirstSeen(xs, key, bs[i].key) < FirstSeen(xs, key, bs[j].key)
  }

  /** bs is the grouping of xs by key: one bucket per distinct key, in the
      order keys are first seen, each holding every element with that key in
      input order and headed by the first such element. */
  ghost predicate Grouped<K, V>(xs: seq<V>, key: V -> K, bs: seq<Bucket<K, V>>)
  {
    && DistinctKeys(bs)
    && KeysOccur(xs, key, bs)
    && Covers(xs, key, bs)
    && MembersExact(xs, key, bs)
    && HeadsFirstSeen(xs, key, bs)
    && FirstSeenOrder(xs, key, bs)
  }

  /** The `reduce` over the input: buckets of xs by key. */
  function GroupBy<K(==), V>(xs: seq<V>, key: V -> K): (bs: seq<Bucket<K, V>>)
    ensures Grouped(xs, key, bs)
    decreases |xs|
  {
    if |xs| == 0 then []
    else
      var pre := xs[..|xs| - 1];
      var x := xs[|xs| - 1];
      assert xs == pre + [x];
      var acc := GroupBy(pre, key);
      AddToGrouped(pre, x, key, acc);
      AddTo(acc, key(x), x)
  }

  lemma OccursExtend<K, V>(xs: seq<V>, x: V, key: V -> K, k: K)
    ensures Occurs(xs + [x], key, k) <==> Occurs(xs, key, k) || key(x) == k
  {
    if Occurs(xs + [x], key, k) && key(x) != k {
      var j :| 0 <= j < |xs + [x]| && key((xs + [x])[j]) == k;
      assert j < |xs| && (xs + [x])[j] == xs[j];
    }
    if Occurs(xs, key, k) {
      var j :| 0 <= j < |xs| && key(xs[j]) == k;
      assert (xs + [x])[j] == xs[j];
    }
    if key(x) == k {
      assert (xs + [x])[|xs|] == x;
    }
  }

  lemma FirstSeenExtend<K, V>(xs: seq<V>, x: V, key: V -> K, k: K)
    requires Occurs(xs, key, k)
    ensures Occurs(xs + [x], key, k)
    ensures FirstSeen(xs + [x], key, k) == FirstSeen(xs, key, k)
  {
    OccursExtend(xs, x, key, k);
    var p := FirstSeen(xs, key, k);
    assert (xs + [x])[p] == xs[p];
    assert forall j :: 0 <= j < p ==> (xs + [x])[j] == xs[j];
  }

  lemma FirstSeenNew<K, V>(xs: seq<V>, x: V, key: V -> K)
    requires !Occurs(xs, key, key(x))
    ensures Occurs(xs + [x], key, key(x))
    ensures FirstSeen(xs + [x], key, key(x)) == |xs|
  {
    OccursExtend(xs, x, key, key(x));
    assert (xs + [x])[|xs|] == x;
    assert forall j :: 0 <= j < |xs| ==> (xs + [x])[j] == xs[j];
  }

  lemma MembersExtend<K, V>(xs: seq<V>, x: V, key: V -> K, k: K)
    ensures Members(xs + [x], key, k) == Members(xs, key, k) + (if key(x) == k then [x] else [])
  {
    assert (xs + [x])[..|xs|] == xs;
  }

  lemma NotCovered<K, V>(pre: seq<V>, key: V -> K, acc: seq<Bucket<K, V>>, k: K)
    requires Covers(pre, key, acc)
    requires forall i :: 0 <= i < |acc| ==> acc[i].key != k
    ensures !Occurs(pre, key, k)
  {
    forall j | 0 <= j < |pre| ensures key(pre[j]) != k {
      var i :| 0 <= i < |acc| && acc[i].key == key(pre[j]);
    }
  }

  lemma AddToDistinct<K, V>(acc: seq<Bucket<K, V>>, k: K, x: V)
    requires DistinctKeys(acc)
    ensures DistinctKeys(AddTo(acc, k, x))
  {
  }

  lemma AddToKeysOccur<K, V>(pre: seq<V>, x: V, key: V -> K, acc: seq<Bucket<K, V>>)
    requires KeysOccur(pre, key, acc)
    ensures KeysOccur(pre + [x], key, AddTo(acc, key(x), x))
  {
    forall i | 0 <= i < |acc| ensures Occurs(pre + [x], key, acc[i].key) {
      OccursExtend(pre, x, key, acc[i].key);
    }
    OccursExtend(pre, x, key, key(x));
  }

  lemma AddToCovers<K, V>(pre: seq<V>, x: V, key: V -> K, acc: seq<Bucket<K, V>>)
    requires Covers(pre, key, acc)
    ensures Covers(pre + [x], key, AddTo(acc, key(x), x))
  {
    var xs := pre + [x];
    var bs := AddTo(acc, key(x), x);
    assert |bs| >= |acc|;
    assert forall i :: 0 <= i < |acc| ==> bs[i].key == acc[i].key;
    forall j | 0 <= j < |xs| ensures exists i :: 0 <= i < |bs| && bs[i].key == key(xs[j]) {
      if j < |pre| {
        assert xs[j] == pre[j];
        var i :| 0 <= i < |acc| && acc[i].key == key(pre[j]);
        assert bs[i].key == key(xs[j]);
      } else {
        match FindBucket(acc, key(x))
        case Some(b) => assert bs[b].key == key(xs[j]);
        case None => assert bs[|acc|].key == key(xs[j]);
      }
    }
  }

  lemma AddToMembers<K, V>(pre: seq<V>, x: V, key: V -> K, acc: seq<Bucket<K, V>>)
    requires DistinctKeys(acc) && Covers(pre, key, acc) && MembersExact(pre, key, acc)
    ensures MembersExact(pre + [x], key, AddTo(acc, key(x), x))
  {
    var k := key(x);
    forall i | 0 <= i < |acc|
      ensures Members(pre + [x], key, acc[i].key) == Members(pre, key, acc[i].key) + (if k == acc[i].key then [x] else [])
    {
      MembersExtend(pre, x, key, acc[i].key);
    }
    match FindBucket(acc, k)
    case Some(b) =>
    case None =>
      MembersExtend(pre, x, key, k);
      NotCovered(pre, key, acc, k);
      MembersAbsent(pre, key, k);
  }

  lemma AddToHeads<K, V>(pre: seq<V>, x: V, key: V -> K, acc: seq<Bucket<K, V>>)
    requires KeysOccur(pre, key, acc) && Covers(pre, key, acc) && HeadsFirstSeen(pre, key, acc)
    ensures KeysOccur(pre + [x], key, AddTo(acc, key(x), x))
    ensures HeadsFirstSeen(pre + [x], key, AddTo(acc, key(x), x))
  {
    AddToKeysOccur(pre, x, key, acc);
    var xs := pre + [x];
    var bs := AddTo(acc, key(x), x);
    forall i | 0 <= i < |acc|
      ensures Occurs(xs, key, acc[i].key)
      ensures FirstSeen(xs, key, acc[i].key) == FirstSeen(pre, key, acc[i].key)
      ensures xs[FirstSeen(xs, key, acc[i].key)] == acc[i].members[0]
    {
      FirstSeenExtend(pre, x, key, acc[i].key);
      assert xs[FirstSeen(pre, key, acc[i].key)] == pre[FirstSeen(pre, key, acc[i].key)];
    }
    match FindBucket(acc, key(x))
    case Some(b) =>
      forall i | 0 <= i < |bs|
        ensures |bs[i].members| > 0 && bs[i].members[0] == xs[FirstSeen(xs, key, bs[i].key)]
      {
        if i == b {
          assert bs[i].members == acc[b].members + [x];
          assert bs[i].members[0] == acc[b].members[0];
        } else {
          assert bs[i] == acc[i];
        }
      }
    case None =>
      NotCovered(pre, key, acc, key(x));
      FirstSeenNew(pre, x, key);
      assert xs[|pre|] == x;
      forall i | 0 <= i < |bs|
        ensures |bs[i].members| > 0 && bs[i].members[0] == xs[FirstSeen(xs, key, bs[i].key)]
      {
        if i < |acc| {
          assert bs[i] == acc[i];
        } else {
          assert bs[i] == Bucket(key(x), [x]);
        }
      }
  }

  lemma FirstSeenKept<K, V>(pre: seq<V>, x: V, key: V -> K, acc: seq<Bucket<K, V>>)
    requires KeysOccur(pre, key, acc)
    ensures forall i :: 0 <= i < |acc| ==>
      Occurs(pre + [x], key, acc[i].key) &&
      FirstSeen(pre + [x], key, acc[i].key) == FirstSeen(pre, key, acc[i].key) < |pre|
  {
    forall i | 0 <= i < |acc|
      ensures Occurs(pre + [x], key, acc[i].key)
      ensures FirstSeen(pre + [x], key, acc[i].key) == FirstSeen(pre, key, acc[i].key) < |pre|
    {
      FirstSeenExtend(pre, x, key, acc[i].key);
    }
  }

  lemma AddToOrder<K, V>(pre: seq<V>, x: V, key: V -> K, acc: seq<Bucket<K, V>>)
    requires KeysOccur(pre, key, acc) && Covers(pre, key, acc) && FirstSeenOrder(pre, key, acc)
    ensures KeysOccur(pre + [x], key, AddTo(acc, key(x), x))
    ensures FirstSeenOrder(pre + [x], key, AddTo(acc, key(x), x))
  {
    AddToKeysOccur(pre, x, key, acc);
    FirstSeenKept(pre, x, key, acc);
    match FindBucket(acc, key(x))
    case Some(b) =>
      AddToOrderFound(pre, x, key, acc, b);
    case None =>
      NotCovered(pre, key, acc, key(x));
      AddToOrderNew(pre, x, key, acc);
  }

  lemma AddToOrderFound<K, V>(pre: seq<V>, x: V, key: V -> K, acc: seq<Bucket<K, V>>, b: nat)
    requires b < |acc| && acc[b].key == key(x)
    requires KeysOccur(pre, key, acc) && FirstSeenOrder(pre, key, acc)
    requires forall i :: 0 <= i < |acc| ==>
      Occurs(pre + [x], key, acc[i].key) &&
      FirstSeen(pre + [x], key, acc[i].key) == FirstSeen(pre, key, acc[i].key)
    ensures var bs := acc[b := Bucket(key(x), acc[b].members + [x])];
      KeysOccur(pre + [x], key, bs) && FirstSeenOrder(pre + [x], key, bs)
  {
    var bs := acc[b := Bucket(key(x), acc[b].members + [x])];
    assert forall i :: 0 <= i < |bs| ==> bs[i].key == acc[i].key;
  }

  lemma AddToOrderNew<K, V>(pre: seq<V>, x: V, key: V -> K, acc: seq<Bucket<K, V>>)
    requires KeysOccur(pre, key, acc) && FirstSeenOrder(pre, key, acc)
    requires !Occurs(pre, key, key(x))
    ensures KeysOccur(pre + [x], key, acc + [Bucket(key(x), [x])])
    ensures FirstSeenOrder(pre + [x], key, acc + [Bucket(key(x), [x])])
  {
    var xs := pre + [x];
    var bs := acc + [Bucket(key(x), [x])];
    forall i | 0 <= i < |bs| ensures Occurs(xs, key, bs[i].key) {
      NewPair(pre, x, key, acc, i, |acc|);
    }
    forall i, j | 0 <= i < j < |bs|
      ensures FirstSeen(xs, key, bs[i].key) < FirstSeen(xs, key, bs[j].key)
    {
      NewPair(pre, x, key, acc, i, j);
    }
  }

  /** Two buckets after a new key is opened: their first positions keep
      their order, and the new key comes after every old one. */
  lemma NewPair<K, V>(pre: seq<V>, x: V, key: V -> K, acc: seq<Bucket<K, V>>, i: nat, j: nat)
    requires KeysOccur(pre, key, acc) && FirstSeenOrder(pre, key, acc)
    requires !Occurs(pre, key, key(x))
    requires i <= j <= |acc|
    ensures Occurs(pre + [x], key, (acc + [Bucket(key(x), [x])])[i].key)
    ensures Occurs(pre + [x], key, (acc + [Bucket(key(x), [x])])[j].key)
    ensures i < j ==>
      FirstSeen(pre + [x], key, (acc + [Bucket(key(x), [x])])[i].key)
      < FirstSeen(pre + [x], key, (acc + [Bucket(key(x), [x])])[j].key)
  {
    var bs := acc + [Bucket(key(x), [x])];
    FirstSeenNew(pre, x, key);
    if i < |acc| {
      assert bs[i] == acc[i];
      FirstSeenExtend(pre, x, key, acc[i].key);
    } else {
      assert bs[i].key == key(x);
    }
    if j < |acc| {
      assert bs[j] == acc[j];
      FirstSeenExtend(pre, x, key, acc[j].key);
    } else {
      assert bs[j].key == key(x);
    }
  }

  /** One fold step keeps the grouping invariant. */
  lemma AddToGrouped<K, V>(pre: seq<V>, x: V, key: V -> K, acc: seq<Bucket<K, V>>)
    requires Grouped(pre, key, acc)
    ensures Grouped(pre + [x], key, AddTo(acc, key(x), x))
  {
    AddToDistinct(acc, key(x), x);
    AddToCovers(pre, x, key, acc);
    AddToMembers(pre, x, key, acc);
    AddToHeads(pre, x, key, acc);
    AddToOrder(pre, x, key, acc);
  }

  lemma {:induction false} MembersAbsent<K, V>(xs: seq<V>, key: V -> K, k: K)
    requires !Occurs(xs, key, k)
    ensures Members(xs, key, k) == []
    decreases |xs|
  {
    if |xs| > 0 {
      var pre := xs[..|xs| - 1];
      forall j | 0 <= j < |pre| ensures key(pre[j]) != k {
        assert xs[j] == pre[j];
      }
      MembersAbsent(pre, key, k);
    }
  }

  lemma SumSizesUpdate<K, V>(bs: seq<Bucket<K, V>>, i: nat, b: Bucket<K, V>)
    requires i < |bs|
    ensures SumSizes(bs[i := b]) + |bs[i].members| == SumSizes(bs) + |b.members|
    decreases |bs|
  {
    if i > 0 {
      SumSizesUpdate(bs[1..], i - 1, b);
      assert bs[i := b][1..] == bs[1..][i - 1 := b];
    }
  }

  lemma {:induction false} SumSizesAppend<K, V>(bs: seq<Bucket<K, V>>, b: Bucket<K, V>)
    ensures SumSizes(bs + [b]) == SumSizes(bs) + |b.members|
    decreases |bs|
  {
    if |bs| > 0 {
      SumSizesAppend(bs[1..], b);
      assert (bs + [b])[1..] == bs[1..] + [b];
    } else {
      assert ([] + [b])[1..] == [];
    }
  }

  /** Conservation: the buckets together hold exactly as many elements as xs. */
  lemma {:induction false} GroupBySizes<K, V>(xs: seq<V>, key: V -> K)
    ensures SumSizes(GroupBy(xs, key)) == |xs|
    decreases |xs|
  {
    if |xs| > 0 {
      var pre := xs[..|xs| - 1];
      var x := xs[|xs| - 1];
      var acc := GroupBy(pre, key);
      GroupBySizes(pre, key);
      match FindBucket(acc, key(x))
      case Some(b) =>
        SumSizesUpdate(acc, b, Bucket(key(x), acc[b].members + [x]));
      case None =>
        SumSizesAppend(acc, Bucket(key(x), [x]));
    }
  }

  /** The bucket holding the j-th element. */
  lemma BucketOf<K, V>(xs: seq<V>, key: V -> K, bs: seq<Bucket<K, V>>, j: nat) returns (i: nat)
    requires Covers(xs, key, bs) && j < |xs|
    ensures i < |bs| && bs[i].key == key(xs[j])
  {
    assert Covers(xs, key, bs);
    var x := xs[j];
    assert exists k :: 0 <= k < |bs| && bs[k].key == key(x);
    var k :| 0 <= k < |bs| && bs[k].key == key(x);
    i := k;
  }
}

=== FILE: intents.dfy ===
/** The rule-based chat helpers: intent detection, rank, category and course
    extraction, and the search filters read from a message. */
module Intents {
  import opened Wrappers
  import opened Text
  import opened Patterns

  /** `CATEGORY_KEYWORDS`, in the order they are tried. */
  const CategoryKeywords: seq<string> :=
    ["open", "obc", "sc", "st", "ews", "sebc", "nt-a", "nt-b", "nt-c", "nt-d", "vsp", "vjnt"]

  /** The course keywords of `extractCourseName`, in the order they are tried. */
  const CourseKeywords: seq<string> :=
    ["engineering", "computer science", "it", "mechanical", "civil", "electronics", "entc",
     "electrical", "mba", "pharmacy", "architecture"]

  datatype Intent =
    | Greeting | CollegeInfo | CourseInfo | Fees | Eligibility | Admission
    | CutoffQuestion | Exam | Scholarship | Comparison | General

  datatype IntentKeywords = IntentKeywords(intent: Intent, keywords: seq<string>)

  /** `INTENT_KEYWORDS`, in the order they are tried; `general` has no keywords. */
  const IntentTable: seq<IntentKeywords> := [
    IntentKeywords(Greeting, ["hello", "hi", "hey", "good morning", "good evening"]),
    IntentKeywords(CollegeInfo, ["college", "institute", "campus", "location"]),
    IntentKeywords(CourseInfo, ["course", "program", "branch", "specialization"]),
    IntentKeywords(Fees, ["fee", "fees", "tuition", "cost"]),
    IntentKeywords(Eligibility, ["eligibility", "criteria", "requirement", "qualification"]),
    IntentKeywords(Admission, ["admission", "apply", "application", "deadline"]),
    IntentKeywords(CutoffQuestion, ["cutoff", "rank", "cet", "closing", "opening"]),
    IntentKeywords(Exam, ["exam", "test", "schedule", "date", "registration"]),
    IntentKeywords(Scholarship, ["scholarship", "financial aid", "scholarships"]),
    IntentKeywords(Comparison, ["compare", "comparison", "vs"]),
    IntentKeywords(General, [])
  ]

  /** `kws.some(k => s.includes(k))`. */
  predicate ContainsAny(s: string, kws: seq<string>)
  {
    exists j :: 0 <= j < |kws| && Contains(s, kws[j])
  }

  /** The first keyword, from index `from` on, that s contains. */
  function FirstContainedFrom(s: string, kws: seq<string>, from: nat): (r: Option<nat>)
    requires from <= |kws|
    ensures r.Some? ==> from <= r.value < |kws| && Contains(s, kws[r.value])
                        && forall j :: from <= j < r.value ==> !Contains(s, kws[j])
    ensures r.None? ==> forall j :: from <= j < |kws| ==> !Contains(s, kws[j])
    decreases |kws| - from
  {
    if from == |kws| then None
    else if Contains(s, kws[from]) then Some(from)
    else FirstContainedFrom(s, kws, from + 1)
  }

  /** The first table row, from index `from` on, with a keyword s contains. */
  function FirstRowFrom(s: string, rows: seq<IntentKeywords>, from: nat): (r: Option<nat>)
    requires from <= |rows|
    ensures r.Some? ==> from <= r.value < |rows| && ContainsAny(s, rows[r.value].keywords)
                        && forall j :: from <= j < r.value ==> !ContainsAny(s, rows[j].keywords)
    ensures r.None? ==> forall j :: from <= j < |rows| ==> !ContainsAny(s, rows[j].keywords)
    decreases |rows| - from
  {
    if from == |rows| then None
    else if FirstContainedFrom(s, rows[from].keywords, 0).Some? then Some(from)
    else FirstRowFrom(s, rows, from + 1)
  }

  /** Row k of the intent table has a keyword in the normalised message s. */
  predicate RowHit(s: string, k: nat)
    requires k < |IntentTable|
  {
    ContainsAny(s, IntentTable[k].keywords)
  }

  /** `detectIntent`: the intent of the first row with a keyword in the
      lower-cased message; `general` when there is none. */
  function DetectIntent(message: string): (r: Intent)
    ensures r == General <==> forall k :: 0 <= k < |IntentTable| ==> !RowHit(ToLower(message), k)
    ensures r != General ==>
              exists k :: && 0 <= k < |IntentTable| && IntentTable[k].intent == r
                          && RowHit(ToLower(message), k)
                          && forall j :: 0 <= j < k ==> !RowHit(ToLower(message), j)
  {
    match FirstRowFrom(ToLower(message), IntentTable, 0)
    case Some(k) =>
      GeneralRowIsLast();
      assert RowHit(ToLower(message), k);
      assert k != |IntentTable| - 1;
      IntentTable[k].intent
    case None => General
  }

  /** Only the last row, which has no keywords, carries `general`. */
  lemma GeneralRowIsLast()
    ensures forall k :: 0 <= k < |IntentTable| ==> (IntentTable[k].intent == General <==> k == |IntentTable| - 1)
    ensures IntentTable[|IntentTable| - 1].keywords == []
  {
  }

  /** Detection ignores case: upper-casing a message does not change its intent. */
  lemma DetectIntentIgnoresCase(message: string)
    ensures DetectIntent(ToUpper(message)) == DetectIntent(message)
  {
    ToLowerOfUpper(message);
  }

  /** Keywords are matched as substrings, not words: "this" holds "hi", so a
      question about "this college" is taken for a greeting. */
  lemma GreetingHidesInWords()
    ensures DetectIntent("Is this college good?") == Greeting
  {
    var s := ToLower("Is this college good?");
    assert s == "is this college good?";
    assert OccursAt(s, "hi", 4);
    assert Contains(s, IntentTable[0].keywords[1]);
    assert RowHit(s, 0);
  }

  // ---------------------------------------------------------------------
  // Rank

  /** `/rank\s*(?:is|=)?\s*(\d{1,6})/` */
  const RankAfterWord: Pattern := Pattern([Lit("rank"), Spaces, Opt(["is", "="]), Spaces, Digits(1, 6)], false)

  /** `/(\d{1,6})\s*rank/` */
  const RankBeforeWord: Pattern := Pattern([Digits(1, 6), Spaces, Lit("rank")], false)

  /** `Number` of a capture of at most six digits. */
  function SixDigitNumber(h: Hit): (n: nat)
    requires AllDigits(h.digits) && |h.digits| <= 6
    ensures n <= 999999
  {
    SixDigitsBound(h.digits);
    DecimalValue(h.digits)
  }

  /** `Number` of the capture of `first`'s leftmost match, or failing that
      of `second`'s: the `a.match(p) || a.match(q)` idiom of the source. */
  function FirstNumber(message: string, first: Pattern, second: Pattern, least: nat): (r: Option<nat>)
    requires SingleCapture(first.tokens, least, 6) && SingleCapture(second.tokens, least, 6)
    ensures r.Some? ==> r.value <= 999999
    ensures r.None? <==> Search(message, first).None? && Search(message, second).None?
    ensures Search(message, first).Some? ==> r == Some(DecimalValue(Search(message, first).value.digits))
    ensures Search(message, first).None? && Search(message, second).Some? ==>
              r == Some(DecimalValue(Search(message, second).value.digits))
  {
    match Search(message, first)
    case Some(h) =>
      SearchCaptureLength(message, first, least, 6);
      Some(SixDigitNumber(h))
    case None =>
      match Search(message, second)
      case Some(h) =>
        SearchCaptureLength(message, second, least, 6);
        Some(SixDigitNumber(h))
      case None => None
  }

  lemma RankPatternsCaptureOnce()
    ensures SingleCapture(RankAfterWord.tokens, 1, 6) && SingleCapture(RankBeforeWord.tokens, 1, 6)
  {
    assert RankAfterWord.tokens[4] == Digits(1, 6);
    assert RankBeforeWord.tokens[0] == Digits(1, 6);
  }

  /** `extractRank`: the number after "rank" (optionally "is" or "="), or
      failing that the number before "rank"; case-sensitive. */
  function ExtractRank(message: string): (r: Option<nat>)
    ensures r.Some? ==> r.value <= 999999
    ensures r.None? <==> Search(message, RankAfterWord).None? && Search(message, RankBeforeWord).None?
    ensures Search(message, RankAfterWord).Some? ==>
              r == Some(DecimalValue(Search(message, RankAfterWord).value.digits))
    ensures Search(message, RankAfterWord).None? && Search(message, RankBeforeWord).Some? ==>
              r == Some(DecimalValue(Search(message, RankBeforeWord).value.digits))
  {
    RankPatternsCaptureOnce();
    FirstNumber(message, RankAfterWord, RankBeforeWord, 1)
  }

  /** The rank patterns are case-sensitive: an upper-cased message never
      yields a rank, because it cannot spell "rank". */
  lemma ExtractRankIsCaseSensitive(message: string)
    ensures ExtractRank(ToUpper(message)) == None
  {
    var u := ToUpper(message);
    assert "rank"[0] == 'r';
    UpperHasNoLowerCase(message, "rank");
    forall p | 0 <= p <= |u| ensures MatchAt(u, p, RankAfterWord).None? {
      if MatchAt(u, p, RankAfterWord).Some? {
        assert RankAfterWord.tokens[0] == Lit("rank");
        LiteralsOccur(u, p, RankAfterWord.tokens, "rank");
      }
    }
    forall p | 0 <= p <= |u| ensures MatchAt(u, p, RankBeforeWord).None? {
      if MatchAt(u, p, RankBeforeWord).Some? {
        assert RankBeforeWord.tokens[2] == Lit("rank");
        LiteralsOccur(u, p, RankBeforeWord.tokens, "rank");
      }
    }
  }

  /** The first rank pattern does not match "my rank is 4500" before "rank". */
  lemma RankIsNotEarlier(s: string)
    requires s == "my rank is 4500"
    ensures forall p :: 0 <= p < 3 ==> MatchAt(s, p, RankAfterWord).None?
  {
    forall p | 0 <= p < 3 ensures MatchAt(s, p, RankAfterWord).None? {
      assert !SameChar(s[p + 0], "rank"[0], false);
    }
  }

  /** The first rank pattern matches "my rank is 4500" at "rank". */
  lemma RankIsMatchAt(s: string)
    requires s == "my rank is 4500"
    ensures MatchAt(s, 3, RankAfterWord) == Some(Hit(15, "4500"))
  {
    var toks := RankAfterWord.tokens;
    RankIsDigitsAt(s);
    assert SkipSpaces(s, 10) == 11;
    assert MatchTokens(s, 10, toks[3..], false) == Some(Hit(15, "4500"));
    assert LitAt(s, 8, "is", false);
    assert OptEnd(s, 8, ["is", "="], false) == 10;
    assert MatchTokens(s, 8, toks[2..], false) == Some(Hit(15, "4500"));
    assert SkipSpaces(s, 7) == 8;
    assert LitAt(s, 3, "rank", false);
  }

  /** The tail of the first rank pattern reads "4500" at the end of "my rank is 4500". */
  lemma RankIsDigitsAt(s: string)
    requires s == "my rank is 4500"
    ensures MatchTokens(s, 11, RankAfterWord.tokens[4..], false) == Some(Hit(15, "4500"))
  {
    assert RankAfterWord.tokens[4..] == [Digits(1, 6)];
    assert DigitRun(s, 11, 6) == 4;
    assert s[11..15] == "4500";
  }

  /** Where the first rank pattern matches "my rank is 4500". */
  lemma RankIsMatch(s: string)
    requires s == "my rank is 4500"
    ensures Search(s, RankAfterWord) == Some(Hit(15, "4500"))
  {
    RankIsNotEarlier(s);
    RankIsMatchAt(s);
    SearchFindsFirst(s, RankAfterWord, 0, 3);
  }

  /** "my rank is 4500": the number after "rank is". */
  lemma RankAfterWordExample(s: string)
    requires s == "my rank is 4500"
    ensures ExtractRank(s) == Some(4500)
  {
    RankIsMatch(s);
    Decimal4500();
  }

  lemma Decimal4500()
    ensures DecimalValue("4500") == 4500
  {
    assert "4500"[..3] == "450" && "450"[..2] == "45" && "45"[..1] == "4" && "4"[..0] == "";
  }

  /** The first rank pattern matches nowhere in "1234567 rank": its only
      "rank" is followed by no digits. */
  lemma NoRankIsMatch(s: string)
    requires s == "1234567 rank"
    ensures forall p :: 0 <= p <= |s| ==> MatchAt(s, p, RankAfterWord).None?
  {
    forall p | 0 <= p <= |s| ensures MatchAt(s, p, RankAfterWord).None? {
      if p < 8 {
        assert !SameChar(s[p + 0], "rank"[0], false);
      } else if p == 8 {
        assert SkipSpaces(s, 12) == 12;
        assert OptEnd(s, 12, ["is", "="], false) == 12;
        assert DigitRun(s, 12, 6) == 0;
      }
    }
  }

  /** At 0 the second rank pattern takes six digits and then meets a
      seventh instead of "rank". */
  lemma DigitsRankNotAtStart(s: string)
    requires s == "1234567 rank"
    ensures MatchAt(s, 0, RankBeforeWord).None?
  {
    assert DigitRun(s, 0, 6) == 6;
    assert SkipSpaces(s, 6) == 6;
    assert !SameChar(s[6 + 0], "rank"[0], false);
  }

  /** At 1 the second rank pattern takes the six digits before "rank". */
  lemma DigitsRankAtOne(s: string)
    requires s == "1234567 rank"
    ensures MatchAt(s, 1, RankBeforeWord) == Some(Hit(12, "234567"))
  {
    assert DigitRun(s, 1, 6) == 6;
    assert SkipSpaces(s, 7) == 8;
    assert LitAt(s, 8, "rank", false);
    assert s[1..7] == "234567";
  }

  /** "1234567 rank": the leftmost match of the second pattern starts inside
      the digit run, so the first digit is dropped. */
  lemma RankBeforeWordExample(s: string)
    requires s == "1234567 rank"
    ensures ExtractRank(s) == Some(234567)
  {
    NoRankIsMatch(s);
    DigitsRankNotAtStart(s);
    DigitsRankAtOne(s);
    SearchFindsFirst(s, RankBeforeWord, 0, 1);
    Decimal234567();
  }

  lemma Decimal234567()
    ensures DecimalValue("234567") == 234567
  {
    assert "234567"[..5] == "23456" && "23456"[..4] == "2345" && "2345"[..3] == "234";
    assert "234"[..2] == "23" && "23"[..1] == "2" && "2"[..0] == "";
  }

  // ---------------------------------------------------------------------
  // Category and course

  /** `extractCategory`: the first category keyword in the lower-cased
      message, upper-cased. */
  function ExtractCategory(message: string): (r: Option<string>)
    ensures r.None? <==> forall k :: 0 <= k < |CategoryKeywords| ==> !Contains(ToLower(message), CategoryKeywords[k])
    ensures r.Some? ==>
              exists k :: && 0 <= k < |CategoryKeywords| && r.value == ToUpper(CategoryKeywords[k])
                          && Contains(ToLower(message), CategoryKeywords[k])
                          && forall j :: 0 <= j < k ==> !Contains(ToLower(message), CategoryKeywords[j])
  {
    match FirstContainedFrom(ToLower(message), CategoryKeywords, 0)
    case Some(k) => Some(ToUpper(CategoryKeywords[k]))
    case None => None
  }

  /** Category extraction ignores the message's case. */
  lemma ExtractCategoryIgnoresCase(message: string)
    ensures ExtractCategory(ToUpper(message)) == ExtractCategory(message)
  {
    ToLowerOfUpper(message);
  }

  /** A word whose first two letters never stand side by side in l does not occur in l. */
  lemma NoPairNoOccurrence(l: string, w: string)
    requires |w| >= 2
    requires forall i :: 0 <= i < |l| - 1 ==> l[i] != w[0] || l[i + 1] != w[1]
    ensures !Contains(l, w)
  {
    forall i | 0 <= i <= |l| ensures !OccursAt(l, w, i) {
      if i + |w| <= |l| {
        assert l[i..i + |w|][0] == l[i];
        assert l[i..i + |w|][1] == l[i + 1];
      }
    }
  }

  /** Keywords are substrings, not words: "best" holds "st". */
  lemma CategoryHidesInWords(s: string)
    requires s == "best college"
    ensures ExtractCategory(s) == Some("ST")
  {
    var l := ToLower(s);
    assert l == s;
    assert CategoryKeywords[0] == "open" && CategoryKeywords[1] == "obc" && CategoryKeywords[2] == "sc";
    NoPairNoOccurrence(l, "open");
    NoPairNoOccurrence(l, "obc");
    NoPairNoOccurrence(l, "sc");
    assert l[2] == 's' && l[3] == 't';
    assert l[2..4] == "st";
    assert OccursAt(l, "st", 2);
    assert ToUpper("st") == "ST";
  }

  /** `extractCourseName`: the first course keyword in the lower-cased message. */
  function ExtractCourseName(message: string): (r: Option<string>)
    ensures r.None? <==> forall k :: 0 <= k < |CourseKeywords| ==> !Contains(ToLower(message), CourseKeywords[k])
    ensures r.Some? ==>
              exists k :: && 0 <= k < |CourseKeywords| && r.value == CourseKeywords[k]
                          && Contains(ToLower(message), CourseKeywords[k])
                          && forall j :: 0 <= j < k ==> !Contains(ToLower(message), CourseKeywords[j])
  {
    match FirstContainedFrom(ToLower(message), CourseKeywords, 0)
    case Some(k) => Some(CourseKeywords[k])
    case None => None
  }

  /** Upper-casing the message does not change the course found. */
  lemma ExtractCourseNameIgnoresCase(message: string)
    ensures ExtractCourseName(ToUpper(message)) == ExtractCourseName(message)
  {
    ToLowerOfUpper(message);
  }

  /** "engineering" is tried first, so it wins over any other course named
      in the same message. */
  lemma EngineeringComesFirst(message: string)
    requires Contains(ToLower(message), "engineering")
    ensures ExtractCourseName(message) == Some("engineering")
  {
    assert CourseKeywords[0] == "engineering";
  }

  // ---------------------------------------------------------------------
  // Search filters

  /** The cities `buildSearchFilters` recognises, as matched and as reported. */
  const CityKeys: seq<string> := ["mumbai", "pune", "bangalore", "hyderabad"]
  const CityNames: seq<string> := ["Mumbai", "Pune", "Bangalore", "Hyderabad"]

  /** The last keyword, below index `upTo`, that s contains: the later
      `if` of the source overwrites an earlier one. */
  function LastContained(s: string, kws: seq<string>, upTo: nat): (r: Option<nat>)
    requires upTo <= |kws|
    ensures r.Some? ==> r.value < upTo && Contains(s, kws[r.value])
                        && forall j :: r.value < j < upTo ==> !Contains(s, kws[j])
    ensures r.None? ==> forall j :: 0 <= j < upTo ==> !Contains(s, kws[j])
    decreases upTo
  {
    if upTo == 0 then None
    else if Contains(s, kws[upTo - 1]) then Some(upTo - 1)
    else LastContained(s, kws, upTo - 1)
  }

  datatype Filters = Filters(location: Option<string>, maxFees: Option<nat>)

  /** `below\s*₹?\s*(\d{2,6})` with the `i` flag: the intended fee pattern. */
  const FeeBelow: Pattern := Pattern([Lit("below"), Spaces, Opt(["\U{20B9}"]), Spaces, Digits(2, 6)], true)
  const FeeLessThan: Pattern := Pattern([Lit("less than"), Spaces, Opt(["\U{20B9}"]), Spaces, Digits(2, 6)], true)

  /** The fee patterns as the source spells them: the rupee sign's UTF-8
      bytes read as Windows-1252 give the three characters U+00E2 U+201A
      U+00B9, and `?` makes only the last one optional. */
  const FeeBelowAsWritten: Pattern :=
    Pattern([Lit("below"), Spaces, Lit("\U{00E2}\U{201A}"), Opt(["\U{00B9}"]), Spaces, Digits(2, 6)], true)
  const FeeLessThanAsWritten: Pattern :=
    Pattern([Lit("less than"), Spaces, Lit("\U{00E2}\U{201A}"), Opt(["\U{00B9}"]), Spaces, Digits(2, 6)], true)

  lemma FeePatternsCaptureOnce()
    ensures SingleCapture(FeeBelow.tokens, 2, 6) && SingleCapture(FeeLessThan.tokens, 2, 6)
    ensures SingleCapture(FeeBelowAsWritten.tokens, 2, 6) && SingleCapture(FeeLessThanAsWritten.tokens, 2, 6)
  {
    assert FeeBelow.tokens[4] == Digits(2, 6);
    assert FeeLessThan.tokens[4] == Digits(2, 6);
    assert FeeBelowAsWritten.tokens[5] == Digits(2, 6);
    assert FeeLessThanAsWritten.tokens[5] == Digits(2, 6);
  }

  /** The fee ceiling of `buildSearchFilters` as intended: "below" or
      "less than", an optional rupee sign, two to six digits, any case. */
  function FeeLimit(message: string): (r: Option<nat>)
    ensures r.Some? ==> r.value <= 999999
    ensures r.None? <==> Search(message, FeeBelow).None? && Search(message, FeeLessThan).None?
    ensures Search(message, FeeBelow).Some? ==> r == Some(DecimalValue(Search(message, FeeBelow).value.digits))
    ensures Search(message, FeeBelow).None? && Search(message, FeeLessThan).Some? ==>
              r == Some(DecimalValue(Search(message, FeeLessThan).value.digits))
  {
    FeePatternsCaptureOnce();
    FirstNumber(message, FeeBelow, FeeLessThan, 2)
  }

  /** The fee ceiling as the source's patterns are spelled. */
  function FeeLimitAsWritten(message: string): (r: Option<nat>)
    ensures r.Some? ==> r.value <= 999999
    ensures r.None? <==> Search(message, FeeBelowAsWritten).None? && Search(message, FeeLessThanAsWritten).None?
    ensures Search(message, FeeBelowAsWritten).Some? ==>
              r == Some(DecimalValue(Search(message, FeeBelowAsWritten).value.digits))
    ensures Search(message, FeeBelowAsWritten).None? && Search(message, FeeLessThanAsWritten).Some? ==>
              r == Some(DecimalValue(Search(message, FeeLessThanAsWritten).value.digits))
  {
    FeePatternsCaptureOnce();
    FirstNumber(message, FeeBelowAsWritten, FeeLessThanAsWritten, 2)
  }

  /** As written, the fee patterns demand the character U+201A, which no
      other character matches even ignoring case: a message without it never
      yields a fee ceiling, whatever it says about fees. */
  lemma AsWrittenNeedsStraySign(message: string)
    requires forall i :: 0 <= i < |message| ==> message[i] != '\U{201A}'
    ensures FeeLimitAsWritten(message) == None
  {
    var w := "\U{00E2}\U{201A}";
    assert forall c :: Fold(c) == Fold(w[1]) ==> c == w[1];
    forall p | 0 <= p <= |message|
      ensures MatchAt(message, p, FeeBelowAsWritten).None? && MatchAt(message, p, FeeLessThanAsWritten).None?
    {
      if MatchAt(message, p, FeeBelowAsWritten).Some? {
        assert FeeBelowAsWritten.tokens[2] == Lit(w);
        FixedCharOccurs(message, p, FeeBelowAsWritten.tokens, true, w, 1);
      }
      if MatchAt(message, p, FeeLessThanAsWritten).Some? {
        assert FeeLessThanAsWritten.tokens[2] == Lit(w);
        FixedCharOccurs(message, p, FeeLessThanAsWritten.tokens, true, w, 1);
      }
    }
  }

  lemma Decimal50000()
    ensures DecimalValue("50000") == 50000
  {
    assert "50000"[..4] == "5000" && "5000"[..3] == "500" && "500"[..2] == "50";
    assert "50"[..1] == "5" && "5"[..0] == "";
  }

  /** "below 50000" states a fee ceiling the patterns as written miss and
      the intended pattern reads as 50000. */
  lemma FeeRegexCounterexample(s: string)
    requires s == "below 50000"
    ensures FeeLimitAsWritten(s) == None
    ensures FeeLimit(s) == Some(50000)
  {
    var ds := "50000";
    assert s == "below " + ds;
    assert AllDigits(ds);
    PlainCeilingRead(ds);
    Decimal50000();
  }

  /** The intended "below" pattern matches "below " + ds from its start. */
  lemma PlainCeilingMatch(s: string, ds: string)
    requires 2 <= |ds| <= 6 && AllDigits(ds) && s == "below " + ds
    ensures MatchAt(s, 0, FeeBelow) == Some(Hit(|s|, ds))
  {
    assert forall i :: 0 <= i < |ds| ==> s[6 + i] == ds[i];
    assert LitAt(s, 0, "below", true);
    assert SkipSpaces(s, 5) == 6;
    assert !SameChar(s[6 + 0], "\U{20B9}"[0], true);
    assert OptEnd(s, 6, ["\U{20B9}"], true) == 6;
    assert DigitRun(s, 6, 6) == |ds|;
    assert s[6..6 + |ds|] == ds;
  }

  /** "below " + ds holds no U+201A, so the patterns as written miss it. */
  lemma PlainCeilingMissed(s: string, ds: string)
    requires AllDigits(ds) && s == "below " + ds
    ensures FeeLimitAsWritten(s) == None
  {
    assert forall i :: 0 <= i < |ds| ==> s[6 + i] == ds[i];
    assert forall i :: 0 <= i < |s| ==> s[i] != '\U{201A}';
    AsWrittenNeedsStraySign(s);
  }

  /** The intended pattern reads any plain ceiling of two to six digits
      after "below ", which the patterns as written never do. */
  lemma PlainCeilingRead(ds: string)
    requires 2 <= |ds| <= 6 && AllDigits(ds)
    ensures FeeLimit("below " + ds) == Some(DecimalValue(ds))
    ensures FeeLimitAsWritten("below " + ds) == None
  {
    var s := "below " + ds;
    PlainCeilingMatch(s, ds);
    SearchFindsFirst(s, FeeBelow, 0, 0);
    PlainCeilingMissed(s, ds);
  }

  /** The `location` of `buildSearchFilters`: the name of the last of the
      four cities the lower-cased message contains. */
  function CityLocation(message: string): (loc: Option<string>)
    ensures loc.None? <==> forall k :: 0 <= k < |CityKeys| ==> !Contains(ToLower(message), CityKeys[k])
    ensures loc.Some? ==>
              exists k :: && 0 <= k < |CityKeys| && loc.value == CityNames[k]
                          && Contains(ToLower(message), CityKeys[k])
                          && forall j :: k < j < |CityKeys| ==> !Contains(ToLower(message), CityKeys[j])
  {
    match LastContained(ToLower(message), CityKeys, |CityKeys|)
    case Some(k) => Some(CityNames[k])
    case None => None
  }

  /** `buildSearchFilters` with the fee patterns as the source spells them:
      the last city named, and a fee ceiling only when a pattern carrying
      the stray characters matches. */
  function BuildSearchFiltersAsWritten(message: string): (f: Filters)
    ensures f.location.None? <==> forall k :: 0 <= k < |CityKeys| ==> !Contains(ToLower(message), CityKeys[k])
    ensures f.location.Some? ==>
              exists k :: && 0 <= k < |CityKeys| && f.location.value == CityNames[k]
                          && Contains(ToLower(message), CityKeys[k])
                          && forall j :: k < j < |CityKeys| ==> !Contains(ToLower(message), CityKeys[j])
    ensures f.maxFees.None? <==>
              Search(message, FeeBelowAsWritten).None? && Search(message, FeeLessThanAsWritten).None?
    ensures f.maxFees == FeeLimitAsWritten(message)
  {
    Filters(CityLocation(message), FeeLimitAsWritten(message))
  }

  /** `buildSearchFilters` as intended: the last city named, and the fee
      ceiling read with an optional rupee sign. */
  function BuildSearchFilters(message: string): (f: Filters)
    ensures f.location.None? <==> forall k :: 0 <= k < |CityKeys| ==> !Contains(ToLower(message), CityKeys[k])
    ensures f.location.Some? ==>
              exists k :: && 0 <= k < |CityKeys| && f.location.value == CityNames[k]
                          && Contains(ToLower(message), CityKeys[k])
                          && forall j :: k < j < |CityKeys| ==> !Contains(ToLower(message), CityKeys[j])
    ensures f.maxFees.None? <==> Search(message, FeeBelow).None? && Search(message, FeeLessThan).None?
    ensures f.maxFees == FeeLimit(message)
  {
    Filters(CityLocation(message), FeeLimit(message))
  }

  /** The two differ only in the fee: as written, "below 50000" filters on
      nothing, while the intended pattern sets a ceiling of 50000. */
  lemma FiltersDifferOnPlainCeiling(s: string)
    requires s == "below 50000"
    ensures BuildSearchFiltersAsWritten(s) == Filters(None, None)
    ensures BuildSearchFilters(s) == Filters(None, Some(50000))
  {
    FeeRegexCounterexample(s);
    CeilingNamesNoCity(s);
  }

  lemma CeilingNamesNoCity(s: string)
    requires s == "below 50000"
    ensures CityLocation(s) == None
  {
    var l := ToLower(s);
    assert l == s;
    forall k | 0 <= k < |CityKeys| ensures !Contains(l, CityKeys[k]) {
      NoCityKey(l, k);
    }
  }

  lemma NoCityKey(l: string, k: nat)
    requires l == "below 50000" && k < |CityKeys|
    ensures !Contains(l, CityKeys[k])
  {
    var w := CityKeys[k];
    assert w[0] in "mpbh" && w[1] in "uay";
    NoPairNoOccurrence(l, w);
  }

  /** A message naming two cities is filtered by the one later in the list:
      Pune over Mumbai, whatever their order in the message. */
  lemma LaterCityWins(message: string)
    requires Contains(ToLower(message), "pune") && !Contains(ToLower(message), "bangalore")
    requires !Contains(ToLower(message), "hyderabad")
    ensures BuildSearchFilters(message).location == Some("Pune")
  {
    var l := ToLower(message);
    assert CityKeys[1] == "pune" && CityKeys[2] == "bangalore" && CityKeys[3] == "hyderabad";
    assert LastContained(l, CityKeys, 2) == Some(1);
    assert LastContained(l, CityKeys, 4) == Some(1);
  }
}

=== FILE: numbers.dfy ===
/** Real-valued helpers standing in for JavaScript's number operations. Scores
    and percentages are exact reals here; IEEE rounding error is not modelled. */
module Numbers {

  function MaxR(a: real, b: real): real { if a >= b then a else b }

  function MinR(a: real, b: real): real { if a <= b then a else b }

  /** `Math.round(x)`: the nearest integer, halves rounded towards +infinity. */
  function RoundHalfUp(x: real): (n: int)
    ensures n as real <= x + 0.5 < n as real + 1.0
  {
    (x + 0.5).Floor
  }

  /** `Number(x.toFixed(3))` for a non-negative x: x rounded to three decimals. */
  function Round3(x: real): real
  {
    RoundHalfUp(x * 1000.0) as real / 1000.0
  }

  lemma RoundHalfUpMonotone(x: real, y: real)
    requires x <= y
    ensures RoundHalfUp(x) <= RoundHalfUp(y)
  {
  }

  lemma RoundHalfUpOfInt(n: int)
    ensures RoundHalfUp(n as real) == n
  {
  }

  /** Rounding to three decimals never inverts an order. */
  lemma Round3Monotone(x: real, y: real)
    requires x <= y
    ensures Round3(x) <= Round3(y)
  {
    RoundHalfUpMonotone(x * 1000.0, y * 1000.0);
  }

  /** A value that already has at most three decimals is left unchanged. */
  lemma Round3Exact(n: int)
    ensures Round3(n as real / 1000.0) == n as real / 1000.0
  {
    assert (n as real / 1000.0) * 1000.0 == n as real;
    RoundHalfUpOfInt(n);
  }

  /** Rounding keeps a value of [0, 1] inside [0, 1]. */
  lemma Round3UnitInterval(x: real)
    requires 0.0 <= x <= 1.0
    ensures 0.0 <= Round3(x) <= 1.0
  {
    RoundHalfUpMonotone(0.0, x * 1000.0);
    RoundHalfUpMonotone(x * 1000.0, 1000.0);
    RoundHalfUpOfInt(0);
    RoundHalfUpOfInt(1000);
  }
}

=== FILE: patterns.dfy ===
/** The few regular-expression shapes the chat handler uses, matched the way
    JavaScript's `String.prototype.match` does for them: the leftmost start
    position wins, and every `\s*`, optional group and `\d{m,n}` is greedy.
    In each of these patterns a repeated or optional piece is followed by
    something it cannot consume (a space run by a letter, digit or symbol; a
    digit run by a space or letter), so greedy matching never has to give
    anything back and the matcher below needs no backtracking. */
module Patterns {
  import opened Wrappers
  import opened Text

  /** One piece of a pattern. */
  datatype Token =
    | Lit(text: string)             // the characters themselves
    | Spaces                        // `\s*`
    | Opt(alts: seq<string>)        // `(?:a|b)?`: the first alternative present, else nothing
    | Digits(least: nat, most: nat) // the capture group `(\d{least,most})`

  /** A pattern and its `i` flag. */
  datatype Pattern = Pattern(tokens: seq<Token>, ignoreCase: bool)

  /** What a successful match yields: where it ends and the captured digits. */
  datatype Hit = Hit(end: nat, digits: string)

  /** Case folding as the `i` flag applies it to the characters these
      patterns contain: ASCII and Latin-1 letters. */
  function Fold(c: char): char
  {
    if 'A' <= c <= 'Z' || ('\U{00C0}' <= c <= '\U{00DE}' && c != '\U{00D7}')
    then ((c as int) + 32) as char
    else c
  }

  predicate SameChar(a: char, b: char, ignoreCase: bool)
  {
    if ignoreCase then Fold(a) == Fold(b) else a == b
  }

  /** `w` is spelled at position p of s. */
  predicate LitAt(s: string, p: nat, w: string, ignoreCase: bool)
  {
    p + |w| <= |s| && forall k :: 0 <= k < |w| ==> SameChar(s[p + k], w[k], ignoreCase)
  }

  /** Where an optional group leaves off: after the first alternative
      present at p, or at p itself. */
  function OptEnd(s: string, p: nat, alts: seq<string>, ignoreCase: bool): (q: nat)
    requires p <= |s|
    ensures p <= q <= |s|
    ensures q == p || exists k :: 0 <= k < |alts| && LitAt(s, p, alts[k], ignoreCase) && q == p + |alts[k]|
    decreases |alts|
  {
    if |alts| == 0 then p
    else if LitAt(s, p, alts[0], ignoreCase) then p + |alts[0]|
    else OptEnd(s, p, alts[1..], ignoreCase)
  }

  /** Matches `toks` at exactly position p. */
  function MatchTokens(s: string, p: nat, toks: seq<Token>, ignoreCase: bool): (r: Option<Hit>)
    requires p <= |s|
    ensures r.Some? ==> p <= r.value.end <= |s| && AllDigits(r.value.digits)
    decreases |toks|
  {
    if |toks| == 0 then Some(Hit(p, []))
    else
      match toks[0]
      case Lit(w) =>
        if LitAt(s, p, w, ignoreCase) then MatchTokens(s, p + |w|, toks[1..], ignoreCase) else None
      case Spaces => MatchTokens(s, SkipSpaces(s, p), toks[1..], ignoreCase)
      case Opt(alts) => MatchTokens(s, OptEnd(s, p, alts, ignoreCase), toks[1..], ignoreCase)
      case Digits(least, most) =>
        var k := DigitRun(s, p, most);
        if k < least then None
        else
          match MatchTokens(s, p + k, toks[1..], ignoreCase)
          case None => None
          case Some(h) => Some(Hit(h.end, s[p..p + k]))
  }

  function MatchAt(s: string, p: nat, pat: Pattern): Option<Hit>
    requires p <= |s|
  {
    MatchTokens(s, p, pat.tokens, pat.ignoreCase)
  }

  /** The leftmost match at or after `from`. */
  function SearchFrom(s: string, from: nat, pat: Pattern): (r: Option<Hit>)
    requires from <= |s|
    ensures r.None? <==> forall p :: from <= p <= |s| ==> MatchAt(s, p, pat).None?
    ensures r.Some? ==> exists p :: from <= p <= |s| && MatchAt(s, p, pat) == r
                           && forall q :: from <= q < p ==> MatchAt(s, q, pat).None?
    decreases |s| - from
  {
    match MatchAt(s, from, pat)
    case Some(h) => Some(h)
    case None => if from == |s| then None else SearchFrom(s, from + 1, pat)
  }

  /** `s.match(pat)` reduced to what the callers read: the capture of the
      leftmost match, or nothing. */
  function Search(s: string, pat: Pattern): (r: Option<Hit>)
    ensures r.None? <==> forall p :: 0 <= p <= |s| ==> MatchAt(s, p, pat).None?
    ensures r.Some? ==> exists p :: 0 <= p <= |s| && MatchAt(s, p, pat) == r
                           && forall q :: 0 <= q < p ==> MatchAt(s, q, pat).None?
  {
    SearchFrom(s, 0, pat)
  }

  /** The search settles on a match at p when no earlier position matches. */
  lemma {:induction false} SearchFindsFirst(s: string, pat: Pattern, from: nat, p: nat)
    requires from <= p <= |s|
    requires MatchAt(s, p, pat).Some?
    requires forall q :: from <= q < p ==> MatchAt(s, q, pat).None?
    ensures SearchFrom(s, from, pat) == MatchAt(s, p, pat)
    decreases p - from
  {
    if from < p {
      SearchFindsFirst(s, pat, from + 1, p);
    }
  }

  /** The pattern's only capture group is `Digits(least, most)`. */
  predicate SingleCapture(toks: seq<Token>, least: nat, most: nat)
  {
    && (exists k :: 0 <= k < |toks| && toks[k] == Digits(least, most))
    && (forall k :: 0 <= k < |toks| && toks[k].Digits? ==> toks[k] == Digits(least, most))
  }

  /** The capture of the leftmost match has between `least` and `most` digits. */
  lemma SearchCaptureLength(s: string, pat: Pattern, least: nat, most: nat)
    requires SingleCapture(pat.tokens, least, most)
    requires Search(s, pat).Some?
    ensures least <= |Search(s, pat).value.digits| <= most
  {
    var p :| 0 <= p <= |s| && MatchAt(s, p, pat) == Search(s, pat);
    CaptureLength(s, p, pat.tokens, pat.ignoreCase, least, most);
  }

  /** The capture of a match has between `least` and `most` digits when the
      pattern's only capture group is `Digits(least, most)`. */
  lemma {:induction false} CaptureLength(s: string, p: nat, toks: seq<Token>, ignoreCase: bool, least: nat, most: nat)
    requires p <= |s|
    requires SingleCapture(toks, least, most)
    requires MatchTokens(s, p, toks, ignoreCase).Some?
    ensures least <= |MatchTokens(s, p, toks, ignoreCase).value.digits| <= most
    decreases |toks|
  {
    var rest := toks[1..];
    if !toks[0].Digits? {
      var k :| 0 <= k < |toks| && toks[k] == Digits(least, most);
      assert rest[k - 1] == toks[k];
      var q :=
        match toks[0]
        case Lit(w) => p + |w|
        case Spaces => SkipSpaces(s, p)
        case Opt(alts) => OptEnd(s, p, alts, ignoreCase)
        case Digits(_, _) => p;
      assert forall j :: 0 <= j < |rest| ==> rest[j] == toks[j + 1];
      CaptureLength(s, q, rest, ignoreCase, least, most);
    }
  }

  /** A case-sensitive match spells every literal of the pattern somewhere in
      the subject. */
  lemma {:induction false} LiteralsOccur(s: string, p: nat, toks: seq<Token>, w: string)
    requires p <= |s|
    requires exists k :: 0 <= k < |toks| && toks[k] == Lit(w)
    requires MatchTokens(s, p, toks, false).Some?
    ensures Contains(s, w)
    decreases |toks|
  {
    if toks[0] == Lit(w) {
      var t := s[p..p + |w|];
      assert forall k :: 0 <= k < |w| ==> t[k] == s[p + k];
      assert OccursAt(s, w, p);
    } else {
      var rest := toks[1..];
      var k :| 0 <= k < |toks| && toks[k] == Lit(w);
      assert rest[k - 1] == toks[k];
      var q :=
        match toks[0]
        case Lit(v) => p + |v|
        case Spaces => SkipSpaces(s, p)
        case Opt(alts) => OptEnd(s, p, alts, false)
        case Digits(_, most) => p + DigitRun(s, p, most);
      LiteralsOccur(s, q, rest, w);
    }
  }

  /** A match of a pattern holding a literal character that case folding
      leaves alone, and that no other character folds to, has that character
      in the subject, with or without the `i` flag. */
  lemma {:induction false} FixedCharOccurs(s: string, p: nat, toks: seq<Token>, ignoreCase: bool, w: string, j: nat)
    requires p <= |s| && j < |w|
    requires forall c :: Fold(c) == Fold(w[j]) ==> c == w[j]
    requires exists k :: 0 <= k < |toks| && toks[k] == Lit(w)
    requires MatchTokens(s, p, toks, ignoreCase).Some?
    ensures exists i :: 0 <= i < |s| && s[i] == w[j]
    decreases |toks|
  {
    if toks[0] == Lit(w) {
      assert SameChar(s[p + j], w[j], ignoreCase);
    } else {
      var rest := toks[1..];
      var k :| 0 <= k < |toks| && toks[k] == Lit(w);
      assert rest[k - 1] == toks[k];
      var q :=
        match toks[0]
        case Lit(v) => p + |v|
        case Spaces => SkipSpaces(s, p)
        case Opt(alts) => OptEnd(s, p, alts, ignoreCase)
        case Digits(_, most) => p + DigitRun(s, p, most);
      FixedCharOccurs(s, q, rest, ignoreCase, w, j);
    }
  }
}

=== FILE: predictor.dfy ===
/** The predictor (`generateRankPredictions`) and the route-facing
    `categorizePredictions`. */
module Predictor {
  import opened Scoring
  import opened Aggregation
  import Seqs

  /** The predictor's two result shapes: the empty array returned for an
      empty input, or the tiered object. */
  datatype Predictions =
    | NoRows
    | Tiered(safe: seq<Prediction>, medium: seq<Prediction>, reach: seq<Prediction>,
             stretch: seq<Prediction>, all: seq<Prediction>)

  function ScoreKey(p: Prediction): real { p.score }

  predicate Positive(p: Prediction) { p.score > 0.0 }

  /** The entries of ps in band b, in order: the `forEach`/`switch` that
      pushes each entry onto its band's array. */
  function OfBand(ps: seq<Prediction>, b: Band): (r: seq<Prediction>)
    ensures forall i :: 0 <= i < |r| ==> r[i].band == b && r[i] in ps
    decreases |ps|
  {
    if |ps| == 0 then []
    else (if ps[0].band == b then [ps[0]] else []) + OfBand(ps[1..], b)
  }

  /** The scored entries kept for output: positive scores, best first (ties in
      aggregation order), at most `limit` of them (`slice(0, limit)`). */
  function Ranked(ps: seq<Prediction>, limit: int): seq<Prediction>
  {
    Seqs.SliceTo(Seqs.SortDesc(Seqs.Filter(ps, Positive), ScoreKey), limit)
  }

  /** `generateRankPredictions`; `currentYear` and `limit` are the values the
      caller passes or the defaults (the clock's year, 50). */
  function GenerateRankPredictions(rows: seq<Row>, rank: int, category: string, currentYear: int, limit: int): (r: Predictions)
    ensures r.NoRows? <==> |rows| == 0
  {
    if |rows| == 0 then NoRows
    else
      var all := Ranked(AggregatePredictions(rows, rank, category, currentYear), limit);
      Tiered(OfBand(all, Safe), OfBand(all, Medium), OfBand(all, Reach), OfBand(all, Stretch), all)
  }

  /** Every ranked entry is an aggregated entry with a positive score. */
  lemma RankedMembers(ps: seq<Prediction>, limit: int)
    ensures var all := Ranked(ps, limit);
      forall i :: 0 <= i < |all| ==> all[i].score > 0.0 && all[i] in ps
  {
    var kept := Seqs.Filter(ps, Positive);
    var sorted := Seqs.SortDesc(kept, ScoreKey);
    var all := Ranked(ps, limit);
    assert all == sorted[..Seqs.RelativeIndex(|sorted|, limit)];
    forall i | 0 <= i < |all| ensures all[i].score > 0.0 && all[i] in ps {
      assert all[i] in sorted;
      assert all[i] in multiset(sorted);
      assert all[i] in multiset(kept);
      assert all[i] in kept;
    }
  }

  /** Truncation keeps the best entries: the ranked list takes each
      positive-score entry at most as often as it occurs, and any positive
      entry it leaves out (or keeps fewer copies of) scores no higher than
      every entry it keeps. */
  lemma RankedIsTop(ps: seq<Prediction>, limit: int)
    ensures var all := Ranked(ps, limit);
      && multiset(all) <= multiset(Seqs.Filter(ps, Positive))
      && forall p :: multiset(all)[p] < multiset(Seqs.Filter(ps, Positive))[p] ==>
           forall i :: 0 <= i < |all| ==> p.score <= all[i].score
    ensures var all := Ranked(ps, limit);
      forall p: Prediction :: p.score > 0.0 && multiset(all)[p] < multiset(ps)[p] ==>
        forall i :: 0 <= i < |all| ==> p.score <= all[i].score
  {
    RankedTopOfPositive(ps, limit);
    var all := Ranked(ps, limit);
    var kept := Seqs.Filter(ps, Positive);
    Seqs.FilterExact(ps, Positive);
    forall p: Prediction | p.score > 0.0 && multiset(all)[p] < multiset(ps)[p]
      ensures forall i :: 0 <= i < |all| ==> p.score <= all[i].score
    {
      assert Positive(p);
      assert multiset(all)[p] < multiset(kept)[p];
    }
  }

  lemma RankedTopOfPositive(ps: seq<Prediction>, limit: int)
    ensures var all := Ranked(ps, limit);
      && multiset(all) <= multiset(Seqs.Filter(ps, Positive))
      && forall p :: multiset(all)[p] < multiset(Seqs.Filter(ps, Positive))[p] ==>
           forall i :: 0 <= i < |all| ==> p.score <= all[i].score
  {
    var kept := Seqs.Filter(ps, Positive);
    var sorted := Seqs.SortDesc(kept, ScoreKey);
    var n := Seqs.RelativeIndex(|sorted|, limit);
    assert Ranked(ps, limit) == sorted[..n];
    PrefixIsTop(kept, sorted, n);
  }

  lemma PrefixIsTop(kept: seq<Prediction>, sorted: seq<Prediction>, n: nat)
    requires Seqs.SortedDesc(sorted, ScoreKey) && multiset(sorted) == multiset(kept) && n <= |sorted|
    ensures multiset(sorted[..n]) <= multiset(kept)
    ensures forall p :: multiset(sorted[..n])[p] < multiset(kept)[p] ==>
              forall i :: 0 <= i < n ==> p.score <= sorted[..n][i].score
  {
    Seqs.SortedDescPrefixIsTop(sorted, n, ScoreKey);
  }

  /** Scores never increase along the ranked list. */
  lemma RankedSorted(ps: seq<Prediction>, limit: int)
    ensures Seqs.SortedDesc(Ranked(ps, limit), ScoreKey)
  {
    var sorted := Seqs.SortDesc(Seqs.Filter(ps, Positive), ScoreKey);
    Seqs.SortedDescPrefix(sorted, Seqs.RelativeIndex(|sorted|, limit), ScoreKey);
  }

  /** A non-negative limit caps the list at min(limit, number of positive
      entries); a negative one drops that many from the end. */
  lemma RankedLength(ps: seq<Prediction>, limit: int)
    ensures var n := |Seqs.Filter(ps, Positive)|;
      && (limit >= 0 ==> |Ranked(ps, limit)| == if limit <= n then limit else n)
      && (limit < 0 ==> |Ranked(ps, limit)| == if n + limit <= 0 then 0 else n + limit)
  {
  }

  /** Ties keep aggregation order: for every score value, the ranked entries
      carrying it are the first few of the aggregated entries carrying it. */
  lemma RankedStable(ps: seq<Prediction>, limit: int, k: real)
    ensures Seqs.WithKey(Ranked(ps, limit), ScoreKey, k) <= Seqs.WithKey(ps, ScoreKey, k)
  {
    var kept := Seqs.Filter(ps, Positive);
    var sorted := Seqs.SortDesc(kept, ScoreKey);
    var n := Seqs.RelativeIndex(|sorted|, limit);
    Seqs.WithKeyOfPrefix(sorted, n, ScoreKey, k);
    Seqs.SortDescStable(kept, ScoreKey, k);
    if k > 0.0 {
      Seqs.WithKeyOfFilter(ps, Positive, ScoreKey, k);
    } else {
      RankedMembers(ps, limit);
      WithKeyOfPositive(Ranked(ps, limit), k);
    }
  }

  lemma {:induction false} WithKeyOfPositive(s: seq<Prediction>, k: real)
    requires k <= 0.0
    requires forall i :: 0 <= i < |s| ==> s[i].score > 0.0
    ensures Seqs.WithKey(s, ScoreKey, k) == []
    decreases |s|
  {
    if |s| > 0 {
      WithKeyOfPositive(s[1..], k);
    }
  }

  lemma {:induction false} OfBandCount(ps: seq<Prediction>)
    ensures |OfBand(ps, Safe)| + |OfBand(ps, Medium)| + |OfBand(ps, Reach)|
          + |OfBand(ps, Stretch)| + |OfBand(ps, Out)| == |ps|
    decreases |ps|
  {
    if |ps| > 0 {
      OfBandCount(ps[1..]);
    }
  }

  lemma {:induction false} OfBandEmpty(ps: seq<Prediction>, b: Band)
    requires forall i :: 0 <= i < |ps| ==> ps[i].band != b
    ensures OfBand(ps, b) == []
    decreases |ps|
  {
    if |ps| > 0 {
      OfBandEmpty(ps[1..], b);
    }
  }

  /** With integer ranks every reach or stretch entry scores 0, so after the
      `score > 0` filter only safe and medium entries remain: the reach and
      stretch tiers are always empty. */
  lemma RankedBands(rows: seq<Row>, rank: int, category: string, currentYear: int, limit: int)
    ensures var all := Ranked(AggregatePredictions(rows, rank, category, currentYear), limit);
      forall i :: 0 <= i < |all| ==> all[i].band == Safe || all[i].band == Medium
  {
    var ps := AggregatePredictions(rows, rank, category, currentYear);
    var all := Ranked(ps, limit);
    RankedMembers(ps, limit);
    AllScoredFromLatest(rows, rank, category, currentYear);
    forall i | 0 <= i < |all| ensures all[i].band == Safe || all[i].band == Medium {
      var l := all[i].latestCutoff;
      PositiveScoreBands(rank, l.minRank, l.maxRank, l.year, currentYear);
    }
  }

  /** A list holding only safe and medium entries splits into its safe and
      medium entries, with nothing left for the other bands. */
  lemma TwoBandSplit(all: seq<Prediction>)
    requires forall i :: 0 <= i < |all| ==> all[i].band == Safe || all[i].band == Medium
    ensures |OfBand(all, Safe)| + |OfBand(all, Medium)| == |all|
    ensures OfBand(all, Reach) == [] && OfBand(all, Stretch) == []
  {
    OfBandCount(all);
    OfBandEmpty(all, Out);
    OfBandEmpty(all, Reach);
    OfBandEmpty(all, Stretch);
  }

  /** Tiered output: the four tiers are the entries of `all` of each band,
      in `all`'s order, their sizes add up to |all|, and reach and stretch
      are empty. */
  lemma TiersPartitionAll(rows: seq<Row>, rank: int, category: string, currentYear: int, limit: int)
    requires |rows| > 0
    ensures var r := GenerateRankPredictions(rows, rank, category, currentYear, limit);
      && r.Tiered?
      && r.safe == OfBand(r.all, Safe) && r.medium == OfBand(r.all, Medium)
      && |r.safe| + |r.medium| + |r.reach| + |r.stretch| == |r.all|
      && r.reach == [] && r.stretch == []
  {
    var all := Ranked(AggregatePredictions(rows, rank, category, currentYear), limit);
    assert GenerateRankPredictions(rows, rank, category, currentYear, limit)
      == Tiered(OfBand(all, Safe), OfBand(all, Medium), OfBand(all, Reach), OfBand(all, Stretch), all);
    RankedBands(rows, rank, category, currentYear, limit);
    TwoBandSplit(all);
  }

  /** Safe outranks medium in the output: when no medium entry's data is
      dated after the current year, every safe score is at least every
      medium score. */
  lemma SafeScoresDominate(rows: seq<Row>, rank: int, category: string, currentYear: int, limit: int)
    ensures var all := Ranked(AggregatePredictions(rows, rank, category, currentYear), limit);
      forall i, j :: 0 <= i < |all| && 0 <= j < |all|
        && all[i].band == Safe && all[j].band == Medium && all[j].latestCutoff.year <= currentYear
        ==> all[i].score >= all[j].score
  {
    var ps := AggregatePredictions(rows, rank, category, currentYear);
    var all := Ranked(ps, limit);
    RankedMembers(ps, limit);
    AllScoredFromLatest(rows, rank, category, currentYear);
    forall i, j | 0 <= i < |all| && 0 <= j < |all|
      && all[i].band == Safe && all[j].band == Medium && all[j].latestCutoff.year <= currentYear
      ensures all[i].score >= all[j].score
    {
      var a := all[i].latestCutoff;
      var b := all[j].latestCutoff;
      SafeOutranksMedium(rank, a.minRank, a.maxRank, a.year, b.minRank, b.maxRank, b.year, currentYear);
    }
  }

  /** The route's view of the predictions: the stretch tier is dropped, and
      a missing or empty `all` gives four empty arrays. */
  datatype Categorized = Categorized(safe: seq<Prediction>, medium: seq<Prediction>,
                                     reach: seq<Prediction>, all: seq<Prediction>)

  /** `categorizePredictions`. */
  function CategorizePredictions(p: Predictions): (c: Categorized)
    ensures p.NoRows? ==> c == Categorized([], [], [], [])
    ensures p.Tiered? && |p.all| == 0 ==> c == Categorized([], [], [], [])
    ensures p.Tiered? && |p.all| > 0 ==> c == Categorized(p.safe, p.medium, p.reach, p.all)
  {
    match p
    case NoRows => Categorized([], [], [], [])
    case Tiered(safe, medium, reach, _, all) =>
      if |all| == 0 then Categorized([], [], [], []) else Categorized(safe, medium, reach, all)
  }

  /** Dropping the stretch tier loses nothing: the three remaining tiers
      still account for every entry of `all`. */
  lemma CategorizeKeepsEveryEntry(rows: seq<Row>, rank: int, category: string, currentYear: int, limit: int)
    ensures var c := CategorizePredictions(GenerateRankPredictions(rows, rank, category, currentYear, limit));
      |c.safe| + |c.medium| + |c.reach| == |c.all|
  {
    if |rows| > 0 {
      TiersPartitionAll(rows, rank, category, currentYear, limit);
    }
  }
}

=== FILE: routes.dfy ===
/** The pure steps of three prediction endpoints: ordering a college
    comparison by probability, reading a `minRank-maxRank` path parameter,
    and keeping the recent years of a cutoff history. The database queries
    around them become inputs. */
module PredictionRoutes {
  import opened Wrappers
  import opened Text
  import opened Numbers
  import opened Cutoffs
  import opened Comparison
  import Seqs

  // ---------------------------------------------------------------------
  // Comparing colleges
  // ---------------------------------------------------------------------

  /** A college looked up by its id, with the cutoff records fetched for it
      (those of the requested category, and course when one was given). */
  datatype Found = Found(collegeName: string, cutoffs: seq<Cutoff>)

  predicate IsFound(f: Option<Found>) { f.Some? }

  function Analyze(f: Option<Found>, rank: int, category: string): CollegeComparison
    requires f.Some?
  {
    AnalyzeCollegeComparison(f.value.collegeName, f.value.cutoffs, rank, category)
  }

  /** The analyses of the colleges that were found, in request order; a
      college that is not found is skipped (`continue`). */
  function Analyses(found: seq<Option<Found>>, rank: int, category: string): (r: seq<CollegeComparison>)
    ensures |r| == |Seqs.Filter(found, IsFound)|
    ensures forall i :: 0 <= i < |r| ==> r[i] == Analyze(Seqs.Filter(found, IsFound)[i], rank, category)
  {
    var present := Seqs.Filter(found, IsFound);
    seq(|present|, i requires 0 <= i < |present| => Analyze(present[i], rank, category))
  }

  lemma AnalysesSnoc(found: seq<Option<Found>>, f: Option<Found>, rank: int, category: string)
    ensures Analyses(found + [f], rank, category) ==
            Analyses(found, rank, category) + (if f.Some? then [Analyze(f, rank, category)] else [])
  {
    Seqs.FilterAppend(found, [f], IsFound);
    assert Seqs.Filter([f], IsFound) == if f.Some? then [f] else [];
  }

  function ProbabilityKey(c: CollegeComparison): real { c.probability }

  /** `results.sort((a, b) => (b.probability || 0) - (a.probability || 0))`:
      a stable sort, highest probability first. Every modelled probability is
      a number, so `|| 0` only maps 0 to itself. */
  function SortByProbability(rs: seq<CollegeComparison>): (r: seq<CollegeComparison>)
    ensures forall i, j :: 0 <= i < j < |r| ==> r[i].probability >= r[j].probability
    ensures multiset(r) == multiset(rs) && |r| == |rs|
  {
    var r := Seqs.SortDesc(rs, ProbabilityKey);
    assert Seqs.SortedDesc(r, ProbabilityKey);
    r
  }

  /** Colleges of equal probability keep their request order. */
  lemma SortByProbabilityStable(rs: seq<CollegeComparison>, p: real)
    ensures Seqs.WithKey(SortByProbability(rs), ProbabilityKey, p) == Seqs.WithKey(rs, ProbabilityKey, p)
  {
    Seqs.SortDescStable(rs, ProbabilityKey, p);
  }

  /** The comparison loop: analyse every college that is found, then order
      the analyses by probability. */
  method CompareColleges(found: seq<Option<Found>>, rank: int, category: string)
    returns (r: seq<CollegeComparison>)
    ensures |r| == |Seqs.Filter(found, IsFound)|
    ensures forall i, j :: 0 <= i < j < |r| ==> r[i].probability >= r[j].probability
    ensures multiset(r) == multiset(Analyses(found, rank, category))
    ensures forall p: real :: Seqs.WithKey(r, ProbabilityKey, p) ==
                              Seqs.WithKey(Analyses(found, rank, category), ProbabilityKey, p)
  {
    var results: seq<CollegeComparison> := [];
    for i := 0 to |found|
      invariant results == Analyses(found[..i], rank, category)
    {
      assert found[..i + 1] == found[..i] + [found[i]];
      AnalysesSnoc(found[..i], found[i], rank, category);
      match found[i]
      case None =>
      case Some(f) =>
        results := results + [AnalyzeCollegeComparison(f.collegeName, f.cutoffs, rank, category)];
    }
    assert found[..|found|] == found;
    r := SortByProbability(results);
    forall p: real
      ensures Seqs.WithKey(r, ProbabilityKey, p) == Seqs.WithKey(results, ProbabilityKey, p)
    {
      SortByProbabilityStable(results, p);
    }
  }

  // ---------------------------------------------------------------------
  // Reading a rank range
  // ---------------------------------------------------------------------

  /** `s.split(sep)` for a one-character separator: the fields between the
      separators, an empty field where two separators meet or at either end. */
  function Split(s: string, sep: char): (fields: seq<string>)
    ensures |fields| >= 1
    ensures forall i, j :: 0 <= i < |fields| && 0 <= j < |fields[i]| ==> fields[i][j] != sep
    ensures Join(fields, sep) == s
    decreases |s|
  {
    if |s| == 0 then [""]
    else
      var rest := Split(s[1..], sep);
      assert s == [s[0]] + s[1..];
      if s[0] == sep then
        [""] + rest
      else
        JoinExtendsHead(s[0], rest, sep);
        [[s[0]] + rest[0]] + rest[1..]
  }

  /** `fields.join(sep)`. */
  function Join(fields: seq<string>, sep: char): string
    requires |fields| >= 1
    decreases |fields|
  {
    if |fields| == 1 then fields[0] else fields[0] + [sep] + Join(fields[1..], sep)
  }

  lemma JoinExtendsHead(c: char, fields: seq<string>, sep: char)
    requires |fields| >= 1
    ensures Join([[c] + fields[0]] + fields[1..], sep) == [c] + Join(fields, sep)
  {
    var g := [[c] + fields[0]] + fields[1..];
    assert g[1..] == fields[1..];
  }

  /** A field free of the separator is read back whole up to the next one. */
  lemma {:induction false} SplitField(f: string, t: string, sep: char)
    requires forall j :: 0 <= j < |f| ==> f[j] != sep
    ensures Split(f + [sep] + t, sep) == [f] + Split(t, sep)
    decreases |f|
  {
    if |f| > 0 {
      assert (f + [sep] + t)[1..] == f[1..] + [sep] + t;
      SplitField(f[1..], t, sep);
      assert [f[0]] + f[1..] == f;
    } else {
      assert (f + [sep] + t)[1..] == t;
    }
  }

  lemma {:induction false} SplitLast(f: string, sep: char)
    requires forall j :: 0 <= j < |f| ==> f[j] != sep
    ensures Split(f, sep) == [f]
    decreases |f|
  {
    if |f| > 0 {
      SplitLast(f[1..], sep);
      assert [f[0]] + f[1..] == f;
    }
  }

  /** Splitting undoes joining fields that hold no separator. */
  lemma {:induction false} SplitJoin(fields: seq<string>, sep: char)
    requires |fields| >= 1
    requires forall i, j :: 0 <= i < |fields| && 0 <= j < |fields[i]| ==> fields[i][j] != sep
    ensures Split(Join(fields, sep), sep) == fields
    decreases |fields|
  {
    if |fields| == 1 {
      SplitLast(fields[0], sep);
    } else {
      SplitJoin(fields[1..], sep);
      SplitField(fields[0], Join(fields[1..], sep), sep);
      assert [fields[0]] + fields[1..] == fields;
    }
  }

  predicate IsHexDigit(c: char)
  {
    IsDigit(c) || 'a' <= c <= 'f' || 'A' <= c <= 'F'
  }

  predicate IsRadixDigit(c: char, hex: bool)
  {
    if hex then IsHexDigit(c) else IsDigit(c)
  }

  function HexDigitValue(c: char): (d: nat)
    requires IsHexDigit(c)
    ensures d < 16
  {
    if IsDigit(c) then DigitValue(c)
    else if 'a' <= c <= 'f' then (c - 'a') as nat + 10
    else (c - 'A') as nat + 10
  }

  /** The length of the run of digits starting at p. */
  function RadixRun(s: string, p: nat, hex: bool): (k: nat)
    requires p <= |s|
    ensures p + k <= |s|
    ensures forall i :: p <= i < p + k ==> IsRadixDigit(s[i], hex)
    ensures p + k == |s| || !IsRadixDigit(s[p + k], hex)
    decreases |s| - p
  {
    if p == |s| || !IsRadixDigit(s[p], hex) then 0 else 1 + RadixRun(s, p + 1, hex)
  }

  /** The value of a run of decimal or hexadecimal digits. */
  function RadixValue(ds: string, hex: bool): nat
    requires forall i :: 0 <= i < |ds| ==> IsRadixDigit(ds[i], hex)
    decreases |ds|
  {
    if |ds| == 0 then 0
    else
      var c := ds[|ds| - 1];
      assert IsRadixDigit(c, hex);
      RadixValue(ds[..|ds| - 1], hex) * (if hex then 16 else 10) +
        (if hex then HexDigitValue(c) else DigitValue(c))
  }

  /** A decimal run has its decimal value. */
  lemma {:induction false} RadixValueDecimal(ds: string)
    requires AllDigits(ds)
    ensures RadixValue(ds, false) == DecimalValue(ds)
    decreases |ds|
  {
    if |ds| > 0 {
      RadixValueDecimal(ds[..|ds| - 1]);
    }
  }

  /** `parseInt(s)` without a radix; `None` is `NaN`. Leading white space is
      skipped and the rest is read as a signed magnitude. `-0` is 0 here. */
  function ParseInt(s: string): (r: Option<int>)
    ensures |s| == 0 ==> r.None?
    ensures (forall i :: 0 <= i < |s| ==> s[i] != '-') ==> r.None? || r.value >= 0
  {
    var p := SkipSpaces(s, 0);
    assert p < |s| ==> s[p..][0] == s[p];
    ParseSigned(s[p..])
  }

  /** What `parseInt` reads after the white space: at most one sign, then
      the magnitude, negated after '-'. */
  function ParseSigned(u: string): (r: Option<int>)
    ensures (|u| == 0 || u[0] != '-') ==> r.None? || r.value >= 0
  {
    if |u| > 0 && u[0] == '-' then
      match Magnitude(u[1..])
      case None => None
      case Some(v) => Some(-(v as int))
    else
      match Magnitude(if |u| > 0 && u[0] == '+' then u[1..] else u)
      case None => None
      case Some(v) => Some(v as int)
  }

  /** The unsigned part of `parseInt`: a "0x" or "0X" prefix selects
      hexadecimal, and the longest run of digits that follows is read;
      anything after it is ignored. No digits at all is `NaN`. */
  function Magnitude(t: string): (r: Option<nat>)
    ensures r.None? <==> RadixRun(t, HexStart(t), HexPrefixed(t)) == 0
  {
    var hex := HexPrefixed(t);
    var start := HexStart(t);
    var k := RadixRun(t, start, hex);
    if k == 0 then None
    else
      RunDigits(t, start, hex, t[start..start + k]);
      Some(RadixValue(t[start..start + k], hex))
  }

  predicate HexPrefixed(t: string)
  {
    2 <= |t| && t[0] == '0' && (t[1] == 'x' || t[1] == 'X')
  }

  function HexStart(t: string): (start: nat)
    ensures start <= |t|
  {
    if HexPrefixed(t) then 2 else 0
  }

  lemma RunDigits(s: string, p: nat, hex: bool, ds: string)
    requires p <= |s| && ds == s[p..p + RadixRun(s, p, hex)]
    ensures forall i :: 0 <= i < |ds| ==> IsRadixDigit(ds[i], hex)
  {
    forall i | 0 <= i < |ds| ensures IsRadixDigit(ds[i], hex) {
      assert ds[i] == s[p + i];
    }
  }

  /** A plain decimal numeral parses to its value. */
  lemma ParseIntDecimal(ds: string)
    requires |ds| > 0 && AllDigits(ds)
    ensures ParseInt(ds) == Some(DecimalValue(ds))
  {
    ParseIntNumeral(ds, "", "", ds, "");
  }

  /** `SkipSpaces` from 0 stops at the first character that is not white space. */
  lemma SpacesEndAt(s: string, p: nat)
    requires p <= |s| && (forall i :: 0 <= i < p ==> IsSpace(s[i]))
    requires p == |s| || !IsSpace(s[p])
    ensures SkipSpaces(s, 0) == p
  {
  }

  /** `RadixRun` is the longest run: it ends where the digits end. */
  lemma RunEndsAt(s: string, p: nat, k: nat, hex: bool)
    requires p + k <= |s| && (forall i :: p <= i < p + k ==> IsRadixDigit(s[i], hex))
    requires p + k == |s| || !IsRadixDigit(s[p + k], hex)
    ensures RadixRun(s, p, hex) == k
  {
  }

  /** Leading white space is skipped: `parseInt` of ws + u reads u. */
  lemma ParseIntAfterSpaces(ws: string, u: string)
    requires forall i :: 0 <= i < |ws| ==> IsSpace(ws[i])
    requires |u| == 0 || !IsSpace(u[0])
    ensures ParseInt(ws + u) == ParseSigned(u)
  {
    var s := ws + u;
    assert forall i :: 0 <= i < |ws| ==> s[i] == ws[i];
    assert |ws| < |s| ==> s[|ws|] == u[0];
    SpacesEndAt(s, |ws|);
    assert s[|ws|..] == u;
  }

  /** A sign sg in front of t: the magnitude of t, under that sign. */
  lemma ParseSignedSign(sg: string, t: string)
    requires sg == "" || sg == "+" || sg == "-"
    requires |t| == 0 || (t[0] != '+' && t[0] != '-')
    ensures ParseSigned(sg + t) ==
              match Magnitude(t)
              case None => None
              case Some(v) => Some(Signed(sg, v))
  {
    if sg == "" {
      assert sg + t == t;
    } else {
      assert (sg + t)[0] == sg[0] && (sg + t)[1..] == t;
      if sg == "-" { assert sg[0] == '-'; }
      if sg == "+" { assert sg[0] == '+'; }
    }
  }

  /** After white space and at most one sign, `parseInt` reads the
      magnitude of what follows, negated after a minus sign. */
  lemma ParseIntSigned(ws: string, sg: string, t: string)
    requires forall i :: 0 <= i < |ws| ==> IsSpace(ws[i])
    requires sg == "" || sg == "+" || sg == "-"
    requires |t| == 0 || (!IsSpace(t[0]) && t[0] != '+' && t[0] != '-')
    ensures ParseInt(ws + sg + t) ==
              match Magnitude(t)
              case None => None
              case Some(v) => Some(Signed(sg, v))
  {
    assert ws + sg + t == ws + (sg + t);
    assert |sg + t| > 0 ==> (sg + t)[0] == if |sg| > 0 then sg[0] else t[0];
    ParseIntAfterSpaces(ws, sg + t);
    ParseSignedSign(sg, t);
  }

  /** The magnitude of ds + rest is the decimal value of ds when rest does
      not continue the digits (and a lone "0" is not a "0x" prefix). */
  lemma MagnitudeDecimal(ds: string, rest: string)
    requires |ds| > 0 && AllDigits(ds)
    requires |rest| == 0 || !IsDigit(rest[0])
    requires ds == "0" && |rest| > 0 ==> rest[0] != 'x' && rest[0] != 'X'
    ensures Magnitude(ds + rest) == Some(DecimalValue(ds))
  {
    var t := ds + rest;
    assert forall i :: 0 <= i < |ds| ==> t[i] == ds[i];
    assert |ds| < |t| ==> t[|ds|] == rest[0];
    assert 1 < |t| ==> t[1] == if |ds| > 1 then ds[1] else rest[0];
    assert !HexPrefixed(t);
    RunEndsAt(t, 0, |ds|, false);
    assert t[0..|ds|] == ds;
    RadixValueDecimal(ds);
  }

  /** The magnitude of "0x" + hs + rest is the hexadecimal value of hs when
      rest does not continue the digits. */
  lemma MagnitudeHex(x: string, hs: string, rest: string)
    requires x == "x" || x == "X"
    requires |hs| > 0 && forall i :: 0 <= i < |hs| ==> IsRadixDigit(hs[i], true)
    requires |rest| == 0 || !IsHexDigit(rest[0])
    ensures Magnitude("0" + x + hs + rest) == Some(RadixValue(hs, true))
  {
    var t, u := "0" + x + hs + rest, hs + rest;
    Regroup("0", x, hs, rest);
    assert t == "0" + x + u;
    assert t[0] == '0' && t[1] == x[0];
    assert HexPrefixed(t);
    HexRun(t, u, hs, rest);
  }

  /** The hexadecimal run after a two-character prefix. */
  lemma HexRun(t: string, u: string, hs: string, rest: string)
    requires u == hs + rest && |t| == 2 + |u| && t[2..] == u
    requires |hs| > 0 && forall i :: 0 <= i < |hs| ==> IsRadixDigit(hs[i], true)
    requires |rest| == 0 || !IsHexDigit(rest[0])
    ensures RadixRun(t, 2, true) == |hs| && t[2..2 + |hs|] == hs
  {
    assert forall i :: 0 <= i < |hs| ==> t[2 + i] == u[i] == hs[i];
    assert 2 + |hs| < |t| ==> t[2 + |hs|] == u[|hs|] == rest[0];
    RunEndsAt(t, 2, |hs|, true);
    assert t[2..2 + |hs|] == u[..|hs|];
  }

  /** A magnitude under the sign sg. */
  function Signed(sg: string, v: nat): (r: int)
    ensures r == v || r == -(v as int)
    ensures r < 0 <==> sg == "-" && v > 0
  {
    if sg == "-" then -(v as int) else v as int
  }

  lemma Regroup<T>(a: seq<T>, b: seq<T>, c: seq<T>, d: seq<T>)
    ensures a + b + c + d == a + b + (c + d)
  {
  }

  /** Any numeral `parseInt` reads as decimal: white space, at most one sign,
      decimal digits, then anything that is not a digit (and, after a lone
      "0", not the "x" of a hexadecimal prefix). */
  lemma ParseIntNumeral(s: string, ws: string, sg: string, ds: string, rest: string)
    requires s == ws + sg + ds + rest
    requires forall i :: 0 <= i < |ws| ==> IsSpace(ws[i])
    requires sg == "" || sg == "+" || sg == "-"
    requires |ds| > 0 && AllDigits(ds)
    requires |rest| == 0 || !IsDigit(rest[0])
    requires ds == "0" && |rest| > 0 ==> rest[0] != 'x' && rest[0] != 'X'
    ensures ParseInt(s) == Some(Signed(sg, DecimalValue(ds)))
  {
    var t := ds + rest;
    Regroup(ws, sg, ds, rest);
    assert s == ws + sg + t;
    assert t[0] == ds[0];
    ParseIntSigned(ws, sg, t);
    MagnitudeDecimal(ds, rest);
  }

  /** Any numeral `parseInt` reads as hexadecimal: white space, at most one
      sign, "0x" or "0X", hexadecimal digits, then anything that is not one. */
  lemma ParseIntHex(s: string, ws: string, sg: string, x: string, hs: string, rest: string)
    requires s == ws + sg + ("0" + x + hs + rest)
    requires forall i :: 0 <= i < |ws| ==> IsSpace(ws[i])
    requires sg == "" || sg == "+" || sg == "-"
    requires x == "x" || x == "X"
    requires |hs| > 0 && forall i :: 0 <= i < |hs| ==> IsRadixDigit(hs[i], true)
    requires |rest| == 0 || !IsHexDigit(rest[0])
    ensures ParseInt(s) == Some(Signed(sg, RadixValue(hs, true)))
  {
    assert ("0" + x + hs + rest)[0] == '0';
    ParseIntSigned(ws, sg, "0" + x + hs + rest);
    MagnitudeHex(x, hs, rest);
  }

  /** With no digit after the white space and the sign, `parseInt` gives `NaN`. */
  lemma ParseIntNaN(s: string, ws: string, sg: string, rest: string)
    requires s == ws + sg + rest
    requires forall i :: 0 <= i < |ws| ==> IsSpace(ws[i])
    requires sg == "" || sg == "+" || sg == "-"
    requires |rest| == 0 || (!IsDigit(rest[0]) && !IsSpace(rest[0]) && rest[0] != '+' && rest[0] != '-')
    ensures ParseInt(s) == None
  {
    ParseIntSigned(ws, sg, rest);
    assert !HexPrefixed(rest);
  }

  /** `!x` for the result of `parseInt`: `NaN` and zero are falsy. */
  predicate Falsy(v: Option<int>) { v.None? || v.value == 0 }

  /** An accepted rank range and the query it leads to. */
  datatype RangeQuery = RangeQuery(minRank: int, maxRank: int, avgRank: int, category: string)

  const RangeError := "Invalid rank range format. Use format: minRank-maxRank (e.g., 1-1000)"

  /** The category of the query: the one given, or "General" when it is
      missing or empty. */
  function SelectedCategory(category: Option<string>): (c: string)
    ensures category.Some? && category.value != "" ==> c == category.value
    ensures category.None? || category.value == "" ==> c == "General"
  {
    match category
    case Some(given) => if given == "" then "General" else given
    case None => "General"
  }

  /** The rank-range endpoint's parse: split on '-', read the first two
      fields with `parseInt`, reject unless both are non-zero numbers with
      the minimum below the maximum, and round the midpoint. */
  function ParseRankRange(rankRange: string, category: Option<string>): (r: Result<RangeQuery, string>)
    ensures r.Failure? ==> r.error == RangeError
    ensures r.Success? ==> 0 < r.value.minRank < r.value.avgRank <= r.value.maxRank
    ensures r.Success? ==> r.value.avgRank == (r.value.minRank + r.value.maxRank + 1) / 2
    ensures r.Success? ==> r.value.category == SelectedCategory(category)
  {
    var fields := Split(rankRange, '-');
    RangeOf(ParseInt(fields[0]), if |fields| > 1 then ParseInt(fields[1]) else None, category)
  }

  /** The check and the query on the two parsed endpoints. */
  function RangeOf(lo: Option<int>, hi: Option<int>, category: Option<string>): (r: Result<RangeQuery, string>)
    ensures r.Failure? ==> r.error == RangeError
    ensures r.Success? <==> lo.Some? && hi.Some? && 0 != lo.value && 0 != hi.value && lo.value < hi.value
    ensures r.Success? ==> r.value.minRank == lo.value && r.value.maxRank == hi.value
    ensures r.Success? ==> r.value.avgRank == (r.value.minRank + r.value.maxRank + 1) / 2
    ensures r.Success? ==> r.value.category == SelectedCategory(category)
  {
    if Falsy(lo) || Falsy(hi) || lo.value >= hi.value then Failure(RangeError)
    else
      var sum := lo.value + hi.value;
      var avg := RoundHalfUp(sum as real / 2.0);
      MidpointRounding(sum);
      Success(RangeQuery(lo.value, hi.value, avg, SelectedCategory(category)))
  }

  lemma MidpointRounding(sum: int)
    ensures RoundHalfUp(sum as real / 2.0) == (sum + 1) / 2
  {
    var h := (sum + 1) / 2;
    assert sum == 2 * h || sum == 2 * h - 1;
  }

  /** The acceptance rule in terms of the two fields' values. */
  lemma RangeFromFields(s: string, category: Option<string>, a: int, b: int)
    requires |Split(s, '-')| >= 2
    requires ParseInt(Split(s, '-')[0]) == Some(a) && ParseInt(Split(s, '-')[1]) == Some(b)
    ensures ParseRankRange(s, category).Success? <==> 0 < a < b
    ensures ParseRankRange(s, category).Success? ==>
              ParseRankRange(s, category).value.minRank == a &&
              ParseRankRange(s, category).value.maxRank == b
  {
  }

  /** Only the first two fields matter. */
  lemma RangeFromFirstTwoFields(s: string, t: string, category: Option<string>)
    requires |Split(s, '-')| >= 2 && |Split(t, '-')| >= 2
    requires Split(s, '-')[0] == Split(t, '-')[0] && Split(s, '-')[1] == Split(t, '-')[1]
    ensures ParseRankRange(s, category) == ParseRankRange(t, category)
  {
  }

  lemma SplitTwo(da: string, db: string, sep: char)
    requires forall j :: 0 <= j < |da| ==> da[j] != sep
    requires forall j :: 0 <= j < |db| ==> db[j] != sep
    ensures Split(da + [sep] + db, sep) == [da, db]
  {
    SplitField(da, db, sep);
    SplitLast(db, sep);
  }

  /** Two decimal numerals joined by '-' are accepted exactly when the first
      is positive and below the second, and are then read as written. */
  lemma RangeOfNumerals(da: string, db: string, category: Option<string>)
    requires |da| > 0 && AllDigits(da) && |db| > 0 && AllDigits(db)
    ensures ParseRankRange(da + "-" + db, category).Success? <==>
            0 < DecimalValue(da) < DecimalValue(db)
    ensures ParseRankRange(da + "-" + db, category).Success? ==>
            ParseRankRange(da + "-" + db, category).value.minRank == DecimalValue(da) &&
            ParseRankRange(da + "-" + db, category).value.maxRank == DecimalValue(db)
  {
    SplitTwo(da, db, '-');
    ParseIntDecimal(da);
    ParseIntDecimal(db);
    RangeFromFields(da + "-" + db, category, DecimalValue(da), DecimalValue(db));
  }

  /** Fields past the second are ignored: "1-1000-5" reads as "1-1000". */
  lemma ExtraFieldsIgnored(da: string, db: string, rest: string, category: Option<string>)
    requires |da| > 0 && AllDigits(da) && |db| > 0 && AllDigits(db)
    ensures ParseRankRange(da + "-" + db + "-" + rest, category) == ParseRankRange(da + "-" + db, category)
  {
    var s := da + "-" + db + "-" + rest;
    assert s == da + ['-'] + (db + ['-'] + rest);
    SplitField(da, db + ['-'] + rest, '-');
    SplitField(db, rest, '-');
    SplitTwo(da, db, '-');
    RangeFromFirstTwoFields(s, da + "-" + db, category);
  }

  /** `parseInt` reads hexadecimal, so "1-0x10" is accepted as 1 to 16. */
  lemma HexMaximumAccepted(s: string)
    requires s == "1-0x10"
    ensures ParseRankRange(s, None) == Success(RangeQuery(1, 16, 9, "General"))
  {
    HexFields(s, "1", "0x10");
    RangeFromFields(s, None, 1, 16);
    var q := ParseRankRange(s, None).value;
    assert q.minRank == 1 && q.maxRank == 16 && q.avgRank == 9 && q.category == "General";
  }

  lemma HexFields(s: string, lo: string, hi: string)
    requires lo == "1" && hi == "0x10" && s == lo + "-" + hi
    ensures |Split(s, '-')| >= 2
    ensures ParseInt(Split(s, '-')[0]) == Some(1) && ParseInt(Split(s, '-')[1]) == Some(16)
  {
    assert forall j :: 0 <= j < |hi| ==> hi[j] != '-';
    SplitTwo(lo, hi, '-');
    HexSixteen(hi);
    ParseIntDecimal(lo);
    assert DecimalValue(lo) == 1 by {
      assert lo[..0] == "";
    }
  }

  lemma HexSixteen(s: string)
    requires s == "0x10"
    ensures ParseInt(s) == Some(16)
  {
    assert s == "" + "" + ("0" + "x" + "10" + "");
    ParseIntHex(s, "", "", "x", "10", "");
    assert RadixValue("10", true) == 16 by {
      assert "10"[..1] == "1";
      assert "1"[..0] == "";
    }
  }

  // ---------------------------------------------------------------------
  // The recent-years window of a trend query
  // ---------------------------------------------------------------------

  function FromYear(startYear: int): Cutoff -> bool
  {
    (c: Cutoff) => c.year >= startYear
  }

  /** `cutoffs.filter(c => c.year >= currentYear - years + 1)`: every
      recent record as often as it occurs, no other, in input order. */
  function TrendWindow(cs: seq<Cutoff>, currentYear: int, years: int): (r: seq<Cutoff>)
    ensures forall i :: 0 <= i < |r| ==> r[i] in cs && r[i].year > currentYear - years
    ensures forall i :: 0 <= i < |cs| && cs[i].year > currentYear - years ==> cs[i] in r
    ensures forall c :: multiset(r)[c] == if c.year > currentYear - years then multiset(cs)[c] else 0
    ensures Seqs.IsSubsequence(r, cs)
  {
    Seqs.FilterExact(cs, FromYear(currentYear - years + 1));
    Seqs.Filter(cs, FromYear(currentYear - years + 1))
  }

  /** The window of a history sorted by year is still sorted by year. */
  lemma TrendWindowKeepsOrder(cs: seq<Cutoff>, currentYear: int, years: int)
    requires Seqs.Ascending(cs, Year)
    ensures Seqs.Ascending(TrendWindow(cs, currentYear, years), Year)
  {
    Seqs.FilterKeepsAscending(cs, FromYear(currentYear - years + 1), Year);
  }

  /** A window that reaches back past the oldest record keeps everything;
      one that starts after the newest keeps nothing. */
  lemma TrendWindowExtremes(cs: seq<Cutoff>, currentYear: int, years: int)
    ensures (forall i :: 0 <= i < |cs| ==> cs[i].year > currentYear - years) ==>
              TrendWindow(cs, currentYear, years) == cs
    ensures (forall i :: 0 <= i < |cs| ==> cs[i].year <= currentYear - years) ==>
              TrendWindow(cs, currentYear, years) == []
  {
    var keep := FromYear(currentYear - years + 1);
    if forall i :: 0 <= i < |cs| ==> cs[i].year > currentYear - years {
      Seqs.FilterKeepsAll(cs, keep);
    }
    if forall i :: 0 <= i < |cs| ==> cs[i].year <= currentYear - years {
      Seqs.FilterKeepsNone(cs, keep);
    }
  }
}

=== FILE: scoring.dfy ===
/** The band classifier and score calculator of the prediction engine
    (`determineBand` and `computeScore`). */
module Scoring {
  import opened Numbers

  /** How a student's rank sits against one cutoff range, best first. */
  datatype Band = Safe | Medium | Reach | Stretch | Out

  /** Ranks past the maximum by at most this much are a reach. */
  const ReachMargin: int := 2000
  /** Ranks past the maximum by at most this much (and more than ReachMargin) are a stretch. */
  const StretchMargin: int := 5000

  /** Position of a band in the order safe, medium, reach, stretch, out. */
  function Severity(b: Band): nat
  {
    match b
    case Safe => 0
    case Medium => 1
    case Reach => 2
    case Stretch => 3
    case Out => 4
  }

  /** `determineBand`: the first rule that applies wins. */
  function DetermineBand(rank: int, minRank: int, maxRank: int): (b: Band)
    ensures b == Safe <==> rank <= minRank
    ensures b == Medium <==> minRank < rank <= maxRank
    ensures b == Reach <==> minRank < rank && maxRank < rank <= maxRank + ReachMargin
    ensures b == Stretch <==> minRank < rank && maxRank + ReachMargin < rank <= maxRank + StretchMargin
    ensures b == Out <==> minRank < rank && maxRank + StretchMargin < rank
  {
    if rank <= minRank then Safe
    else if rank <= maxRank then Medium
    else
      var overshoot := rank - maxRank;
      if overshoot <= ReachMargin then Reach
      else if overshoot <= StretchMargin then Stretch
      else Out
  }

  /** A worse rank never lands in a better band. */
  lemma BandMonotone(rank1: int, rank2: int, minRank: int, maxRank: int)
    requires rank1 <= rank2
    ensures Severity(DetermineBand(rank1, minRank, maxRank)) <= Severity(DetermineBand(rank2, minRank, maxRank))
  {
  }

  /** `NORMALIZED_BONUS`; the out band has no entry and never reaches it. */
  function Bonus(b: Band): real
    requires b != Out
  {
    match b
    case Safe => 1.0
    case Medium => 0.7
    case Reach => 0.4
    case Stretch => 0.1
  }

  /** The display label of a band; "Low" for the out band. */
  function Label(b: Band): string
  {
    match b
    case Safe => "Safe"
    case Medium => "Medium"
    case Reach => "Reach"
    case Stretch => "Stretch"
    case Out => "Low"
  }

  /** The recency weight. A year of 0 stands for any falsy year (0, null or
      absent), which disables the decay. */
  function RecencyWeight(latestYear: int, currentYear: int): real
  {
    if latestYear != 0 && currentYear != 0
    then 1.0 - MinR((currentYear - latestYear) as real * 0.05, 0.3)
    else 1.0
  }

  /** Where the rank sits in [minRank, maxRank], clamped to [0, 1]; the range
      width is floored at 1. */
  function Position(rank: int, minRank: int, maxRank: int): real
  {
    var range := if maxRank - minRank >= 1 then maxRank - minRank else 1;
    MinR(MaxR((rank - minRank) as real / range as real, 0.0), 1.0)
  }

  datatype Score = Score(score: real, probability: string, band: Band)

  /** `computeScore`. */
  function ComputeScore(rank: int, minRank: int, maxRank: int, latestYear: int, currentYear: int): (r: Score)
    ensures r.band == DetermineBand(rank, minRank, maxRank)
    ensures r.probability == Label(r.band)
    ensures r.band == Out ==> r.score == 0.0
  {
    var band := DetermineBand(rank, minRank, maxRank);
    if band == Out then Score(0.0, "Low", Out)
    else
      var baseScore := 1.0 - Position(rank, minRank, maxRank);
      var raw := MaxR(0.0, baseScore * RecencyWeight(latestYear, currentYear) * Bonus(band));
      Score(Round3(raw), Label(band), band)
  }

  /** The weight is 1 without years, lies in [0.7, 1] for data from the
      current year or earlier, and exceeds 1 for data dated in the future. */
  lemma RecencyWeightBounds(latestYear: int, currentYear: int)
    ensures latestYear == 0 || currentYear == 0 ==> RecencyWeight(latestYear, currentYear) == 1.0
    ensures latestYear != 0 && currentYear != 0 && latestYear <= currentYear ==>
      0.7 <= RecencyWeight(latestYear, currentYear) <= 1.0
    ensures latestYear != 0 && currentYear != 0 && latestYear > currentYear ==>
      RecencyWeight(latestYear, currentYear) > 1.0
    ensures RecencyWeight(latestYear, currentYear) >= 0.7
  {
  }

  /** The weight is always a whole number of thousandths. */
  lemma RecencyWeightThousandths(latestYear: int, currentYear: int) returns (n: int)
    ensures RecencyWeight(latestYear, currentYear) == n as real / 1000.0
  {
    if latestYear != 0 && currentYear != 0 {
      var d := currentYear - latestYear;
      if d as real * 0.05 <= 0.3 {
        n := 1000 - 50 * d;
      } else {
        n := 700;
      }
    } else {
      n := 1000;
    }
  }

  /** A safe rank scores exactly its recency weight: the base score is 1, the
      bonus is 1, and rounding to three decimals leaves the weight unchanged. */
  lemma SafeScoreIsRecencyWeight(rank: int, minRank: int, maxRank: int, latestYear: int, currentYear: int)
    requires rank <= minRank
    ensures ComputeScore(rank, minRank, maxRank, latestYear, currentYear).score == RecencyWeight(latestYear, currentYear)
  {
    var w := RecencyWeight(latestYear, currentYear);
    assert Position(rank, minRank, maxRank) == 0.0;
    var n := RecencyWeightThousandths(latestYear, currentYear);
    Round3Exact(n);
  }

  lemma PositionIsOne(rank: int, minRank: int, maxRank: int)
    requires minRank < rank && maxRank <= rank
    ensures Position(rank, minRank, maxRank) == 1.0
  {
    var range := if maxRank - minRank >= 1 then maxRank - minRank else 1;
    assert (rank - minRank) as real >= range as real;
    assert (rank - minRank) as real / range as real >= 1.0;
  }

  /** With integer ranks, every rank at or past the maximum (a medium rank
      equal to maxRank, every reach, stretch and out rank) scores exactly 0:
      the position clamps to 1 and the base score vanishes. */
  lemma ZeroScoreFromMaxRank(rank: int, minRank: int, maxRank: int, latestYear: int, currentYear: int)
    requires minRank < rank && maxRank <= rank
    ensures ComputeScore(rank, minRank, maxRank, latestYear, currentYear).score == 0.0
  {
    if DetermineBand(rank, minRank, maxRank) != Out {
      PositionIsOne(rank, minRank, maxRank);
      assert Round3(0.0) == 0.0 by { RoundHalfUpOfInt(0); }
    }
  }

  /** Only safe ranks and medium ranks strictly inside the range can score
      above 0; every safe rank does. */
  lemma PositiveScoreBands(rank: int, minRank: int, maxRank: int, latestYear: int, currentYear: int)
    ensures var r := ComputeScore(rank, minRank, maxRank, latestYear, currentYear);
      r.score > 0.0 ==> r.band == Safe || (r.band == Medium && rank < maxRank)
    ensures DetermineBand(rank, minRank, maxRank) == Safe ==>
      ComputeScore(rank, minRank, maxRank, latestYear, currentYear).score > 0.0
  {
    if minRank < rank && maxRank <= rank {
      ZeroScoreFromMaxRank(rank, minRank, maxRank, latestYear, currentYear);
    }
    if rank <= minRank {
      SafeScoreIsRecencyWeight(rank, minRank, maxRank, latestYear, currentYear);
      RecencyWeightBounds(latestYear, currentYear);
    }
  }

  lemma MulNonnegative(x: real, y: real)
    requires x >= 0.0 && y >= 0.0
    ensures x * y >= 0.0
  {
  }

  lemma ProductInUnit(a: real, b: real, c: real)
    requires 0.0 <= a <= 1.0 && 0.0 <= b <= 1.0 && 0.0 <= c <= 1.0
    ensures 0.0 <= a * b * c <= 1.0
  {
    MulNonnegative(a, b);
    MulNonnegative(1.0 - a, b);
    MulNonnegative(a * b, c);
    MulNonnegative(1.0 - a * b, c);
  }

  /** Scores lie in [0, 1] whenever the cutoff's year is not in the future. */
  lemma ScoreInUnitInterval(rank: int, minRank: int, maxRank: int, latestYear: int, currentYear: int)
    requires latestYear == 0 || currentYear == 0 || latestYear <= currentYear
    ensures 0.0 <= ComputeScore(rank, minRank, maxRank, latestYear, currentYear).score <= 1.0
  {
    var band := DetermineBand(rank, minRank, maxRank);
    if band != Out {
      ScoreFormula(rank, minRank, maxRank, latestYear, currentYear);
      PositionInUnit(rank, minRank, maxRank);
      RecencyWeightBounds(latestYear, currentYear);
      BonusInUnit(band);
      RoundedProductInUnit(1.0 - Position(rank, minRank, maxRank), RecencyWeight(latestYear, currentYear), Bonus(band));
    }
  }

  /** Outside the out band, the score is the rounded, floored product. */
  lemma ScoreFormula(rank: int, minRank: int, maxRank: int, latestYear: int, currentYear: int)
    requires DetermineBand(rank, minRank, maxRank) != Out
    ensures ComputeScore(rank, minRank, maxRank, latestYear, currentYear).score
         == Round3(MaxR(0.0, (1.0 - Position(rank, minRank, maxRank)) * RecencyWeight(latestYear, currentYear)
                             * Bonus(DetermineBand(rank, minRank, maxRank))))
  {
  }

  lemma BonusInUnit(b: Band)
    requires b != Out
    ensures 0.0 < Bonus(b) <= 1.0
  {
  }

  lemma PositionInUnit(rank: int, minRank: int, maxRank: int)
    ensures 0.0 <= Position(rank, minRank, maxRank) <= 1.0
  {
  }

  /** A product of three factors in [0, 1], floored at 0 and rounded to
      thousandths, stays in [0, 1]. */
  lemma RoundedProductInUnit(a: real, b: real, c: real)
    requires 0.0 <= a <= 1.0 && 0.0 <= b <= 1.0 && 0.0 <= c <= 1.0
    ensures 0.0 <= Round3(MaxR(0.0, a * b * c)) <= 1.0
  {
    ProductInUnit(a, b, c);
    Round3UnitInterval(MaxR(0.0, a * b * c));
  }

  /** Future-dated data lifts a safe rank's score above 1, so the unit-interval
      bound needs the year condition. */
  lemma FutureSafeScoreExceedsOne(rank: int, minRank: int, maxRank: int, latestYear: int, currentYear: int)
    requires rank <= minRank && 0 < currentYear < latestYear
    ensures ComputeScore(rank, minRank, maxRank, latestYear, currentYear).score > 1.0
  {
    SafeScoreIsRecencyWeight(rank, minRank, maxRank, latestYear, currentYear);
    RecencyWeightBounds(latestYear, currentYear);
  }

  /** A medium score stays at or below 0.7 when its data is not future-dated. */
  lemma MediumScoreAtMostSevenTenths(rank: int, minRank: int, maxRank: int, latestYear: int, currentYear: int)
    requires minRank < rank <= maxRank
    requires latestYear == 0 || currentYear == 0 || latestYear <= currentYear
    ensures ComputeScore(rank, minRank, maxRank, latestYear, currentYear).score <= 0.7
  {
    var w := RecencyWeight(latestYear, currentYear);
    RecencyWeightBounds(latestYear, currentYear);
    var baseScore := 1.0 - Position(rank, minRank, maxRank);
    assert 0.0 <= baseScore <= 1.0;
    assert baseScore * w <= 1.0 by { ProductInUnit(baseScore, w, 1.0); }
    var raw := MaxR(0.0, baseScore * w * 0.7);
    assert raw <= 0.7;
    Round3Monotone(raw, 0.7);
    assert Round3(0.7) == 0.7 by { Round3Exact(700); }
  }

  /** Safe outranks medium: for the same student, a safe entry scores at
      least as high as any medium entry whose data is not future-dated. */
  lemma SafeOutranksMedium(rank: int,
                           safeMin: int, safeMax: int, safeYear: int,
                           mediumMin: int, mediumMax: int, mediumYear: int,
                           currentYear: int)
    requires rank <= safeMin
    requires mediumMin < rank <= mediumMax
    requires mediumYear == 0 || currentYear == 0 || mediumYear <= currentYear
    ensures ComputeScore(rank, safeMin, safeMax, safeYear, currentYear).score
         >= ComputeScore(rank, mediumMin, mediumMax, mediumYear, currentYear).score
  {
    SafeScoreIsRecencyWeight(rank, safeMin, safeMax, safeYear, currentYear);
    RecencyWeightBounds(safeYear, currentYear);
    MediumScoreAtMostSevenTenths(rank, mediumMin, mediumMax, mediumYear, currentYear);
  }

  /** Example: rank 100 against 63..284 with 2023 data in 2024 is medium
      and scores 0.554 (position 37/221, weight 0.95, bonus 0.7). */
  lemma InteriorScoreExample()
    ensures ComputeScore(100, 63, 284, 2023, 2024) == Score(0.554, "Medium", Medium)
  {
    assert Position(100, 63, 284) == 37.0 / 221.0;
    assert RecencyWeight(2023, 2024) == 0.95;
    var raw := (1.0 - 37.0 / 221.0) * 0.95 * 0.7;
    assert raw * 1000.0 + 0.5 == 122360.0 / 221.0 + 0.5;
    assert RoundHalfUp(raw * 1000.0) == 554;
  }
}

=== FILE: seqs.dfy ===
/** Sequence operations with the semantics of the JavaScript array methods
    the source relies on: `filter`, `slice` and the stable `sort`. */
module Seqs {

  /** r can be obtained from s by deleting elements: its elements occur in
      s in the same order. */
  predicate IsSubsequence<T(==)>(r: seq<T>, s: seq<T>)
    decreases |s|
  {
    && |r| <= |s|
    && (|r| == 0 || (r[0] == s[0] && IsSubsequence(r[1..], s[1..])) || IsSubsequence(r, s[1..]))
  }

  /** `s.filter(p)`: the elements satisfying p, in their original order. */
  function Filter<T>(s: seq<T>, p: T -> bool): (r: seq<T>)
    ensures |r| <= |s|
    ensures forall i :: 0 <= i < |r| ==> r[i] in s && p(r[i])
    ensures forall i :: 0 <= i < |s| && p(s[i]) ==> s[i] in r
    decreases |s|
  {
    if |s| == 0 then []
    else (if p(s[0]) then [s[0]] else []) + Filter(s[1..], p)
  }

  /** Filtering keeps every element satisfying p as often as it occurs, and
      no other element. */
  lemma {:induction false} FilterCount<T>(s: seq<T>, p: T -> bool, y: T)
    ensures multiset(Filter(s, p))[y] == if p(y) then multiset(s)[y] else 0
    decreases |s|
  {
    if |s| > 0 {
      var x := s[0];
      FilterCount(s[1..], p, y);
      assert s == [x] + s[1..];
      assert multiset(s)[y] == (if x == y then 1 else 0) + multiset(s[1..])[y];
      assert multiset(Filter(s, p))[y] == (if p(x) && x == y then 1 else 0) + multiset(Filter(s[1..], p))[y];
    }
  }

  /** The kept elements appear in s in the order filtering returns them. */
  lemma {:induction false} FilterSubsequence<T>(s: seq<T>, p: T -> bool)
    ensures IsSubsequence(Filter(s, p), s)
    decreases |s|
  {
    if |s| > 0 {
      var t := Filter(s[1..], p);
      FilterSubsequence(s[1..], p);
      var r := Filter(s, p);
      if p(s[0]) {
        assert r == [s[0]] + t;
        assert r[1..] == t && r[0] == s[0];
      } else {
        assert r == t;
      }
      assert IsSubsequence(r, s);
    }
  }

  /** Both facts for every element at once. */
  lemma FilterExact<T>(s: seq<T>, p: T -> bool)
    ensures forall y :: multiset(Filter(s, p))[y] == if p(y) then multiset(s)[y] else 0
    ensures IsSubsequence(Filter(s, p), s)
  {
    forall y ensures multiset(Filter(s, p))[y] == if p(y) then multiset(s)[y] else 0 {
      FilterCount(s, p, y);
    }
    FilterSubsequence(s, p);
  }

  lemma {:induction false} FilterKeepsNone<T>(s: seq<T>, p: T -> bool)
    requires forall i :: 0 <= i < |s| ==> !p(s[i])
    ensures Filter(s, p) == []
    decreases |s|
  {
    if |s| > 0 {
      FilterKeepsNone(s[1..], p);
    }
  }

  lemma {:induction false} FilterKeepsAll<T>(s: seq<T>, p: T -> bool)
    requires forall i :: 0 <= i < |s| ==> p(s[i])
    ensures Filter(s, p) == s
    decreases |s|
  {
    if |s| > 0 {
      assert p(s[0]);
      FilterKeepsAll(s[1..], p);
      assert [s[0]] + s[1..] == s;
    }
  }

  /** Filtering distributes over concatenation. */
  lemma {:induction false} FilterAppend<T>(s: seq<T>, t: seq<T>, p: T -> bool)
    ensures Filter(s + t, p) == Filter(s, p) + Filter(t, p)
    decreases |s|
  {
    if |s| > 0 {
      assert (s + t)[1..] == s[1..] + t;
      FilterAppend(s[1..], t, p);
    } else {
      assert s + t == t;
    }
  }

  predicate Ascending<T>(s: seq<T>, key: T -> int)
  {
    forall i, j :: 0 <= i < j < |s| ==> key(s[i]) <= key(s[j])
  }

  /** Filtering preserves the order of the kept elements: an ordering property
      every adjacent pair of the input has, the output has too. */
  lemma {:induction false} FilterKeepsAscending<T>(s: seq<T>, p: T -> bool, key: T -> int)
    requires Ascending(s, key)
    ensures Ascending(Filter(s, p), key)
    decreases |s|
  {
    if |s| > 0 {
      AscendingTail(s, key);
      FilterKeepsAscending(s[1..], p, key);
      var t := Filter(s[1..], p);
      if p(s[0]) {
        FilterAbove(s[1..], p, key, key(s[0]));
        AscendingCons(s[0], t, key);
        assert Filter(s, p) == [s[0]] + t;
      } else {
        assert Filter(s, p) == t;
      }
    }
  }

  lemma AscendingTail<T>(s: seq<T>, key: T -> int)
    requires |s| > 0 && Ascending(s, key)
    ensures Ascending(s[1..], key)
    ensures forall i :: 0 <= i < |s[1..]| ==> key(s[0]) <= key(s[1..][i])
  {
  }

  lemma AscendingCons<T>(x: T, t: seq<T>, key: T -> int)
    requires Ascending(t, key)
    requires forall i :: 0 <= i < |t| ==> key(x) <= key(t[i])
    ensures Ascending([x] + t, key)
  {
  }

  /** A lower bound on every key survives filtering. */
  lemma {:induction false} FilterAbove<T>(s: seq<T>, p: T -> bool, key: T -> int, b: int)
    requires forall i :: 0 <= i < |s| ==> b <= key(s[i])
    ensures forall i :: 0 <= i < |Filter(s, p)| ==> b <= key(Filter(s, p)[i])
    decreases |s|
  {
    if |s| > 0 {
      FilterAbove(s[1..], p, key, b);
    }
  }

  /** The index `slice` uses for a relative position k into a sequence of
      length n: negative positions count from the end, and the result is
      clamped to [0, n] (ECMAScript's relative-index normalisation). */
  function RelativeIndex(n: nat, k: int): (e: nat)
    ensures e <= n
    ensures 0 <= k ==> e == if k <= n then k else n
    ensures k < 0 ==> e == if n + k <= 0 then 0 else n + k
  {
    if k < 0 then (if n + k <= 0 then 0 else n + k)
    else if k <= n then k else n
  }

  /** `s.slice(0, end)`. */
  function SliceTo<T>(s: seq<T>, end: int): seq<T>
  {
    s[..RelativeIndex(|s|, end)]
  }

  /** `s.slice(start)`. */
  function SliceFrom<T>(s: seq<T>, start: int): seq<T>
  {
    s[RelativeIndex(|s|, start)..]
  }

  predicate SortedDesc<T>(s: seq<T>, key: T -> real)
  {
    forall i, j :: 0 <= i < j < |s| ==> key(s[i]) >= key(s[j])
  }

  /** Inserts x in front of the first element whose key is not larger, so
      that x precedes the elements it ties with. */
  function InsertDesc<T>(x: T, s: seq<T>, key: T -> real): (r: seq<T>)
    requires SortedDesc(s, key)
    ensures SortedDesc(r, key)
    ensures multiset(r) == multiset(s) + multiset{x}
    ensures |r| == |s| + 1
    ensures r[0] == x || (|s| > 0 && r[0] == s[0])
    decreases |s|
  {
    if |s| == 0 || key(x) >= key(s[0]) then [x] + s
    else
      var rest := InsertDesc(x, s[1..], key);
      assert s == [s[0]] + s[1..];
      assert key(rest[0]) <= key(s[0]);
      [s[0]] + rest
  }

  /** `s.sort((a, b) => key(b) - key(a))`: JavaScript's sort is stable, so the
      result is ordered by descending key with ties kept in input order. */
  function SortDesc<T>(s: seq<T>, key: T -> real): (r: seq<T>)
    ensures SortedDesc(r, key)
    ensures multiset(r) == multiset(s)
    ensures |r| == |s|
    decreases |s|
  {
    if |s| == 0 then []
    else
      assert s == [s[0]] + s[1..];
      InsertDesc(s[0], SortDesc(s[1..], key), key)
  }

  /** The elements whose key equals k, in order: the subsequence a stable sort must keep. */
  function WithKey<T>(s: seq<T>, key: T -> real, k: real): seq<T>
    decreases |s|
  {
    if |s| == 0 then []
    else (if key(s[0]) == k then [s[0]] else []) + WithKey(s[1..], key, k)
  }

  lemma {:induction false} InsertDescStable<T>(x: T, s: seq<T>, key: T -> real, k: real)
    requires SortedDesc(s, key)
    ensures WithKey(InsertDesc(x, s, key), key, k) == WithKey([x] + s, key, k)
    decreases |s|
  {
    if |s| == 0 || key(x) >= key(s[0]) {
    } else {
      var rest := InsertDesc(x, s[1..], key);
      InsertDescStable(x, s[1..], key, k);
      assert ([s[0]] + rest)[1..] == rest;
      assert ([x] + s[1..])[1..] == s[1..];
      assert ([x] + s)[1..] == s;
      assert s[1..] == s[1..];
      calc {
        WithKey(InsertDesc(x, s, key), key, k);
        WithKey([s[0]] + rest, key, k);
        (if key(s[0]) == k then [s[0]] else []) + WithKey(rest, key, k);
        (if key(s[0]) == k then [s[0]] else []) + WithKey([x] + s[1..], key, k);
        (if key(s[0]) == k then [s[0]] else []) + ((if key(x) == k then [x] else []) + WithKey(s[1..], key, k));
        (if key(x) == k then [x] else []) + ((if key(s[0]) == k then [s[0]] else []) + WithKey(s[1..], key, k));
        (if key(x) == k then [x] else []) + WithKey(s, key, k);
        WithKey([x] + s, key, k);
      }
    }
  }

  /** Stability: for every key value, the elements carrying it appear in the
      sorted output in exactly the order they had in the input. */
  lemma {:induction false} SortDescStable<T>(s: seq<T>, key: T -> real, k: real)
    ensures WithKey(SortDesc(s, key), key, k) == WithKey(s, key, k)
    decreases |s|
  {
    if |s| > 0 {
      var t := SortDesc(s[1..], key);
      InsertDescStable(s[0], t, key, k);
      SortDescStable(s[1..], key, k);
      assert ([s[0]] + t)[1..] == t;
      assert s == [s[0]] + s[1..];
    }
  }

  /** Stability for every key value at once. */
  lemma SortDescStableAll<T>(s: seq<T>, key: T -> real)
    ensures forall k :: WithKey(SortDesc(s, key), key, k) == WithKey(s, key, k)
  {
    forall k ensures WithKey(SortDesc(s, key), key, k) == WithKey(s, key, k) {
      SortDescStable(s, key, k);
    }
  }

  /** A key's subsequence of a concatenation is the concatenation of its subsequences. */
  lemma {:induction false} WithKeyAppend<T>(a: seq<T>, b: seq<T>, key: T -> real, k: real)
    ensures WithKey(a + b, key, k) == WithKey(a, key, k) + WithKey(b, key, k)
    decreases |a|
  {
    if |a| > 0 {
      assert (a + b)[1..] == a[1..] + b;
      WithKeyAppend(a[1..], b, key, k);
    } else {
      assert a + b == b;
    }
  }

  predicate IsSuffix<T(==)>(a: seq<T>, b: seq<T>)
  {
    |a| <= |b| && b[|b| - |a|..] == a
  }

  /** Dropping a prefix keeps a suffix of each key's subsequence. */
  lemma WithKeyOfSuffix<T>(s: seq<T>, m: nat, key: T -> real, k: real)
    requires m <= |s|
    ensures IsSuffix(WithKey(s[m..], key, k), WithKey(s, key, k))
  {
    assert s == s[..m] + s[m..];
    WithKeyAppend(s[..m], s[m..], key, k);
    var x := WithKey(s[..m], key, k);
    var y := WithKey(s[m..], key, k);
    assert (x + y)[|x + y| - |y|..] == y;
  }

  /** Sorting an already sorted sequence changes nothing, so sorting the same
      array in place twice (as two consecutive callers do) is harmless. */
  lemma {:induction false} SortDescOfSorted<T>(s: seq<T>, key: T -> real)
    requires SortedDesc(s, key)
    ensures SortDesc(s, key) == s
    decreases |s|
  {
    if |s| > 0 {
      SortDescOfSorted(s[1..], key);
      assert s == [s[0]] + s[1..];
    }
  }

  /** Truncating a sequence keeps a prefix of each key's subsequence. */
  lemma {:induction false} WithKeyOfPrefix<T>(s: seq<T>, n: nat, key: T -> real, k: real)
    requires n <= |s|
    ensures WithKey(s[..n], key, k) <= WithKey(s, key, k)
    decreases n
  {
    if n > 0 {
      WithKeyOfPrefix(s[1..], n - 1, key, k);
      assert s[..n][1..] == s[1..][..n - 1];
    }
  }

  /** Filtering out elements whose key differs from k cannot change k's subsequence. */
  lemma {:induction false} WithKeyOfFilter<T>(s: seq<T>, p: T -> bool, key: T -> real, k: real)
    requires forall x :: key(x) == k ==> p(x)
    ensures WithKey(Filter(s, p), key, k) == WithKey(s, key, k)
    decreases |s|
  {
    if |s| > 0 {
      WithKeyOfFilter(s[1..], p, key, k);
      var t := Filter(s[1..], p);
      if p(s[0]) {
        assert Filter(s, p) == [s[0]] + t;
        assert ([s[0]] + t)[1..] == t;
      } else {
        assert Filter(s, p) == t;
        assert key(s[0]) != k;
      }
    }
  }

  lemma SortedDescPrefix<T>(s: seq<T>, n: nat, key: T -> real)
    requires SortedDesc(s, key) && n <= |s|
    ensures SortedDesc(s[..n], key)
  {
  }

  /** A prefix of a descending list holds its top elements: whatever it
      leaves out has a key no larger than any key it keeps. */
  lemma SortedDescPrefixIsTop<T>(s: seq<T>, n: nat, key: T -> real)
    requires SortedDesc(s, key) && n <= |s|
    ensures multiset(s[..n]) <= multiset(s)
    ensures forall x :: multiset(s[..n])[x] < multiset(s)[x] ==>
              forall i :: 0 <= i < n ==> key(x) <= key(s[..n][i])
  {
    assert s == s[..n] + s[n..];
    forall x | multiset(s[..n])[x] < multiset(s)[x]
      ensures forall i :: 0 <= i < n ==> key(x) <= key(s[..n][i])
    {
      assert multiset(s[n..])[x] > 0;
      var j :| 0 <= j < |s[n..]| && s[n..][j] == x;
      assert s[n + j] == x;
    }
  }

  /** The first element of a key's subsequence is the first element carrying that key. */
  lemma {:induction false} WithKeyHead<T>(s: seq<T>, key: T -> real, k: real, i: nat)
    requires i < |s| && key(s[i]) == k
    requires forall j :: 0 <= j < i ==> key(s[j]) != k
    ensures |WithKey(s, key, k)| > 0 && WithKey(s, key, k)[0] == s[i]
    decreases i
  {
    if i > 0 {
      WithKeyHead(s[1..], key, k, i - 1);
    }
  }
}

=== FILE: text.dfy ===
/** Characters and strings as the source's regular expressions and string
    methods see them. Case mapping is ASCII-only (see README). */
module Text {

  /** JavaScript's `\s`, which is also the white space `parseInt` skips:
      the ECMAScript WhiteSpace and LineTerminator code points. */
  predicate IsSpace(c: char)
  {
    || c == ' ' || c == '\t' || c == '\n' || c == '\r' || c == '\U{000B}' || c == '\U{000C}'
    || c == '\U{00A0}' || c == '\U{1680}' || ('\U{2000}' <= c <= '\U{200A}')
    || c == '\U{2028}' || c == '\U{2029}' || c == '\U{202F}' || c == '\U{205F}'
    || c == '\U{3000}' || c == '\U{FEFF}'
  }

  /** JavaScript's `\d`: ASCII decimal digits only. */
  predicate IsDigit(c: char)
  {
    '0' <= c <= '9'
  }

  function DigitValue(c: char): (d: nat)
    requires IsDigit(c)
    ensures d < 10
  {
    (c as int) - ('0' as int)
  }

  function Lower(c: char): char
  {
    if 'A' <= c <= 'Z' then ((c as int) + 32) as char else c
  }

  function Upper(c: char): char
  {
    if 'a' <= c <= 'z' then ((c as int) - 32) as char else c
  }

  /** `s.toLowerCase()`. */
  function ToLower(s: string): (r: string)
    ensures |r| == |s| && forall i :: 0 <= i < |s| ==> r[i] == Lower(s[i])
  {
    seq(|s|, i requires 0 <= i < |s| => Lower(s[i]))
  }

  /** `s.toUpperCase()`. */
  function ToUpper(s: string): (r: string)
    ensures |r| == |s| && forall i :: 0 <= i < |s| ==> r[i] == Upper(s[i])
  {
    seq(|s|, i requires 0 <= i < |s| => Upper(s[i]))
  }

  /** Lower-casing twice is lower-casing once. */
  lemma ToLowerIdempotent(s: string)
    ensures ToLower(ToLower(s)) == ToLower(s)
  {
  }

  /** Lower-casing forgets an earlier upper-casing: the two spellings of a
      message are indistinguishable after normalisation. */
  lemma ToLowerOfUpper(s: string)
    ensures ToLower(ToUpper(s)) == ToLower(s)
  {
  }

  /** sub occurs in s starting at position i. */
  predicate OccursAt(s: string, sub: string, i: nat)
  {
    i + |sub| <= |s| && s[i..i + |sub|] == sub
  }

  /** `s.includes(sub)`. */
  predicate Contains(s: string, sub: string)
  {
    exists i :: 0 <= i <= |s| && OccursAt(s, sub, i)
  }

  /** An upper-cased string holds no lower-case ASCII letter. */
  lemma UpperHasNoLowerCase(s: string, sub: string)
    requires exists k :: 0 <= k < |sub| && 'a' <= sub[k] <= 'z'
    ensures !Contains(ToUpper(s), sub)
  {
    var k :| 0 <= k < |sub| && 'a' <= sub[k] <= 'z';
    var u := ToUpper(s);
    forall i | 0 <= i <= |u| ensures !OccursAt(u, sub, i) {
      if i + |sub| <= |u| {
        assert u[i..i + |sub|][k] == u[i + k];
      }
    }
  }

  /** The first position at or after p that does not hold white space: where `\s*` stops. */
  function SkipSpaces(s: string, p: nat): (q: nat)
    requires p <= |s|
    ensures p <= q <= |s|
    ensures forall i :: p <= i < q ==> IsSpace(s[i])
    ensures q == |s| || !IsSpace(s[q])
    decreases |s| - p
  {
    if p < |s| && IsSpace(s[p]) then SkipSpaces(s, p + 1) else p
  }

  /** How many decimal digits start at p, counting at most cap of them
      (the greedy `\d{1,cap}`). */
  function DigitRun(s: string, p: nat, cap: nat): (k: nat)
    requires p <= |s|
    ensures k <= cap && p + k <= |s|
    ensures forall i :: p <= i < p + k ==> IsDigit(s[i])
    ensures k < cap ==> p + k == |s| || !IsDigit(s[p + k])
    decreases cap
  {
    if cap == 0 || p == |s| || !IsDigit(s[p]) then 0 else 1 + DigitRun(s, p + 1, cap - 1)
  }

  predicate AllDigits(ds: string)
  {
    forall i :: 0 <= i < |ds| ==> IsDigit(ds[i])
  }

  function Pow10(n: nat): (r: nat)
    ensures r >= 1
  {
    if n == 0 then 1 else 10 * Pow10(n - 1)
  }

  /** `Number(ds)` for a string of decimal digits (leading zeros allowed). */
  function DecimalValue(ds: string): (v: nat)
    requires AllDigits(ds)
    ensures v < Pow10(|ds|)
    decreases |ds|
  {
    if |ds| == 0 then 0
    else DecimalValue(ds[..|ds| - 1]) * 10 + DigitValue(ds[|ds| - 1])
  }

  lemma Pow10Monotone(m: nat, n: nat)
    requires m <= n
    ensures Pow10(m) <= Pow10(n)
    decreases n
  {
    if m < n {
      Pow10Monotone(m, n - 1);
    }
  }

  /** At most six digits never spell a number above 999999. */
  lemma SixDigitsBound(ds: string)
    requires AllDigits(ds) && |ds| <= 6
    ensures DecimalValue(ds) <= 999999
  {
    Pow10Monotone(|ds|, 6);
    assert Pow10(6) == 1000000;
  }
}

=== FILE: trends.dfy ===
/** The trend analyzer (`analyzeTrends`) and the next-year forecaster
    (`predictNextYearTrends`), both over one group's cutoff history. */
module Trends {
  import opened Numbers
  import opened Cutoffs
  import Seqs

  datatype Direction = Increasing | Decreasing | Stable

  /** A JavaScript number that may have left the reals: dividing by an
      average rank of 0 gives +Infinity (positive change) or NaN (no change). */
  datatype Percent = Finite(value: real) | PlusInfinity | NotANumber

  /** The result of `analyzeTrends`. The two empty shapes both report a
      `stable` direction and a change of 0. */
  datatype TrendResult =
    | NoData
    | InsufficientData
    | Trend(direction: Direction, changePercent: Percent,
            startYear: nat, endYear: nat, startRank: nat, endRank: nat)

  /** `change / first * 100`, with IEEE division by zero. */
  function ChangePercent(first: nat, last: nat): (p: Percent)
    ensures p.Finite? <==> first > 0
    ensures p.PlusInfinity? <==> first == 0 && last > 0
    ensures p.Finite? ==> (p.value > 0.0 <==> last > first) && (p.value < 0.0 <==> last < first)
  {
    var change := last as int - first as int;
    if first > 0 then
      assert first as real > 0.0;
      Finite(change as real / first as real * 100.0)
    else if change > 0 then PlusInfinity
    else NotANumber
  }

  /** The direction rule: a change of more than 10 percent either way;
      NaN compares false and stays stable. */
  function DirectionOf(p: Percent): Direction
  {
    match p
    case Finite(v) =>
      if (if v < 0.0 then -v else v) > 10.0
      then (if v > 0.0 then Increasing else Decreasing)
      else Stable
    case PlusInfinity => Increasing
    case NotANumber => Stable
  }

  /** `Math.round(p * 10) / 10`: one decimal; the infinities and NaN pass through. */
  function RoundTenth(p: Percent): Percent
  {
    match p
    case Finite(v) => Finite(RoundHalfUp(v * 10.0) as real / 10.0)
    case _ => p
  }

  /** The records the trend looks at: oldest first, the last `years` of them
      (`slice(-years)`, so 0 keeps them all). */
  function Window(cs: seq<Cutoff>, years: int): seq<Cutoff>
  {
    Seqs.SliceFrom(ByYearAsc(cs), -years)
  }

  /** The trend window is the newest records of the history, oldest first. */
  lemma WindowIsNewest(cs: seq<Cutoff>, years: int)
    ensures NewestOldestFirst(Window(cs, years), cs)
  {
    SuffixOfAscIsNewest(cs, Seqs.RelativeIndex(|cs|, -years));
  }

  /** `analyzeTrends`. */
  function AnalyzeTrends(cs: seq<Cutoff>, years: int): (t: TrendResult)
    ensures t.NoData? <==> |cs| == 0
    ensures t.Trend? <==> |cs| > 0 && |Window(cs, years)| >= 2
    ensures t.Trend? ==> (t.startYear == Window(cs, years)[0].year
                          && t.endYear == Window(cs, years)[|Window(cs, years)| - 1].year)
    ensures t.Trend? ==> (t.startRank == Window(cs, years)[0].avgRank
                          && t.endRank == Window(cs, years)[|Window(cs, years)| - 1].avgRank)
  {
    if |cs| == 0 then NoData
    else
      var recent := Window(cs, years);
      if |recent| < 2 then InsufficientData
      else
        var first := recent[0];
        var last := recent[|recent| - 1];
        var p := ChangePercent(first.avgRank, last.avgRank);
        Trend(DirectionOf(p), RoundTenth(p), first.year, last.year, first.avgRank, last.avgRank)
  }

  /** A change of more than a tenth of the starting average rank is a trend:
      upward iff 10 * (end - start) > start, downward iff 10 * (start - end) > start.
      A starting average of 0 is upward iff the end is positive. */
  lemma {:induction false} TrendDirectionRule(cs: seq<Cutoff>, years: int)
    ensures var t := AnalyzeTrends(cs, years);
      t.Trend? ==>
        && (t.direction == Increasing <==>
              (if t.startRank > 0 then 10 * (t.endRank - t.startRank) > t.startRank else t.endRank > 0))
        && (t.direction == Decreasing <==>
              t.startRank > 0 && 10 * (t.startRank - t.endRank) > t.startRank)
  {
    var t := AnalyzeTrends(cs, years);
    if t.Trend? && t.startRank > 0 {
      var first := t.startRank;
      var last := t.endRank;
      var change := last as int - first as int;
      var v := change as real / first as real * 100.0;
      assert ChangePercent(first, last) == Finite(v);
      DirectionThreshold(change, first);
    }
  }

  /** |change / first * 100| > 10 exactly when |10 * change| > first. */
  lemma DirectionThreshold(change: int, first: int)
    requires first > 0
    ensures var v := change as real / first as real * 100.0;
      && (v > 10.0 <==> 10 * change > first)
      && (v < -10.0 <==> 10 * change < -first)
  {
    var c := change as real;
    var f := first as real;
    QuotientThreshold(c, f, 0.1);
    QuotientThreshold(c, f, -0.1);
    assert (10 * change) as real == 10.0 * c;
  }

  /** Comparing a quotient with a threshold is comparing the dividend with
      the threshold times the positive divisor. */
  lemma QuotientThreshold(c: real, f: real, t: real)
    requires f > 0.0
    ensures c / f > t <==> c > t * f
    ensures c / f < t <==> c < t * f
  {
    var q := c / f;
    assert q * f == c;
    ScaleCompare(q, t, f);
    ScaleCompare(t, q, f);
  }

  /** Multiplying both sides by a positive number keeps a strict order. */
  lemma ScaleCompare(a: real, b: real, f: real)
    requires f > 0.0
    ensures a > b <==> a * f > b * f
  {
    if a > b {
      assert (a - b) * f > 0.0;
    }
    if a * f > b * f {
      assert (a - b) * f > 0.0;
    }
  }

  /** In an oldest-first permutation of a history, the last record carries
      the newest year of the history. */
  lemma LastOfAscendingIsNewest(cs: seq<Cutoff>, sorted: seq<Cutoff>)
    requires |sorted| > 0 && Seqs.Ascending(sorted, Year) && multiset(sorted) == multiset(cs)
    ensures forall i :: 0 <= i < |cs| ==> cs[i].year <= sorted[|sorted| - 1].year
  {
    forall i | 0 <= i < |cs| ensures cs[i].year <= sorted[|sorted| - 1].year {
      assert cs[i] in multiset(sorted);
      var j :| 0 <= j < |sorted| && sorted[j] == cs[i];
      assert Year(sorted[j]) <= Year(sorted[|sorted| - 1]);
    }
  }

  /** The trend spans the window oldest to newest: it starts no later than
      it ends, and it ends at the newest year of the whole history. */
  lemma TrendSpansHistory(cs: seq<Cutoff>, years: int)
    ensures var t := AnalyzeTrends(cs, years);
      t.Trend? ==> t.startYear <= t.endYear && forall i :: 0 <= i < |cs| ==> cs[i].year <= t.endYear
  {
    var t := AnalyzeTrends(cs, years);
    if t.Trend? {
      var sorted := ByYearAsc(cs);
      var s := Seqs.RelativeIndex(|sorted|, -years);
      assert Window(cs, years) == sorted[s..];
      assert t.startYear == sorted[s].year && t.endYear == sorted[|sorted| - 1].year;
      assert Year(sorted[s]) <= Year(sorted[|sorted| - 1]);
      LastOfAscendingIsNewest(cs, sorted);
    }
  }

  /** A positive `years` keeps the newest min(years, n) records; 0 keeps
      them all (`slice(-0)` is `slice(0)`). */
  lemma WindowSize(cs: seq<Cutoff>, years: int)
    requires years >= 0
    ensures |Window(cs, years)| == if 0 < years <= |cs| then years else |cs|
  {
  }

  /** The sort inside `analyzeTrends` reorders the caller's array in place;
      sorting the already sorted array again changes nothing, so the
      forecaster called on the same array afterwards sees what it would
      have seen on the original. */
  lemma ResortChangesNothing(cs: seq<Cutoff>)
    ensures ByYearAsc(ByYearAsc(cs)) == ByYearAsc(cs)
  {
    Seqs.SortDescOfSorted(ByYearAsc(cs), NegatedYearKey);
  }

  /** 40 / 300 * 100 = 13.33..., shown with one decimal as 13.3. */
  lemma RoundTenthExample()
    ensures RoundTenth(Finite(40.0 / 300.0 * 100.0)) == Finite(13.3)
  {
    var x := 40.0 / 300.0 * 100.0 * 10.0;
    assert x == 400.0 / 3.0;
    assert RoundHalfUp(x) == 133;
  }

  /** Average ranks 300, 310, 340 over 2021-2023. */
  function ExampleHistory(): seq<Cutoff>
  {
    [Cutoff(2021, "General", 100, 500, 300), Cutoff(2022, "General", 100, 500, 310),
     Cutoff(2023, "General", 100, 500, 340)]
  }

  lemma ExampleHistorySorted()
    ensures ByYearAsc(ExampleHistory()) == ExampleHistory()
  {
    assert Seqs.SortedDesc(ExampleHistory(), NegatedYearKey);
    Seqs.SortDescOfSorted(ExampleHistory(), NegatedYearKey);
  }

  /** The example history trends up by 13.3 percent. */
  lemma TrendExample()
    ensures AnalyzeTrends(ExampleHistory(), 5) == Trend(Increasing, Finite(13.3), 2021, 2023, 300, 340)
  {
    var cs := ExampleHistory();
    ExampleHistorySorted();
    assert Window(cs, 5) == cs;
    var p := ChangePercent(300, 340);
    assert p == Finite(40.0 / 300.0 * 100.0);
    RoundTenthExample();
    DirectionThreshold(40, 300);
  }

  // ---------------------------------------------------------------------
  // Forecast

  datatype Confidence = High | Medium | Low

  /** The result of `predictNextYearTrends`; the insufficient shape has no
      next-year rank and a `low` confidence. */
  datatype Forecast =
    | InsufficientForecast
    | Forecast(direction: Direction, nextYearRank: int, avgChange: int,
               confidence: Confidence, dataPoints: nat)

  function AvgRanks(cs: seq<Cutoff>): (r: seq<int>)
    ensures |r| == |cs| && forall i :: 0 <= i < |cs| ==> r[i] == cs[i].avgRank
  {
    seq(|cs|, i requires 0 <= i < |cs| => cs[i].avgRank as int)
  }

  /** Year-over-year changes: one per consecutive pair. */
  function Deltas(xs: seq<int>): (ds: seq<int>)
    requires |xs| >= 1
    ensures |ds| == |xs| - 1
  {
    seq(|xs| - 1, i requires 0 <= i < |xs| - 1 => xs[i + 1] - xs[i])
  }

  function Sum(xs: seq<int>): int
  {
    if |xs| == 0 then 0 else Sum(xs[..|xs| - 1]) + xs[|xs| - 1]
  }

  /** The changes add up to the whole change from first to last. */
  lemma {:induction false} DeltasTelescope(xs: seq<int>)
    requires |xs| >= 1
    ensures Sum(Deltas(xs)) == xs[|xs| - 1] - xs[0]
    decreases |xs|
  {
    if |xs| > 1 {
      var init := xs[..|xs| - 1];
      DeltasTelescope(init);
      assert Deltas(xs)[..|xs| - 2] == Deltas(init);
    }
  }

  /** Sum of squared deviations from `mean`. */
  function SquaredDeviations(ds: seq<int>, mean: real): (r: real)
    ensures r >= 0.0
  {
    if |ds| == 0 then 0.0
    else
      var e := ds[|ds| - 1] as real - mean;
      SquaredDeviations(ds[..|ds| - 1], mean) + e * e
  }

  function DirectionOfChange(avg: real): Direction
  {
    if avg > 0.0 then Increasing else if avg < 0.0 then Decreasing else Stable
  }

  /** The confidence rule: standard deviation below 50 is high, above 200 is
      low. Compared as variance against 50² and 200², which is the same test. */
  function ConfidenceOf(variance: real): Confidence
  {
    if variance < 2500.0 then High
    else if variance > 40000.0 then Low
    else Medium
  }

  /** The forecast from a window's average ranks, oldest first. */
  function Extrapolate(ranks: seq<int>): (f: Forecast)
    requires |ranks| >= 2
    ensures f.Forecast? && f.dataPoints == |ranks|
  {
    var changes := Deltas(ranks);
    var avg := Sum(changes) as real / |changes| as real;
    var variance := SquaredDeviations(changes, avg) / |changes| as real;
    Forecast(DirectionOfChange(avg), RoundHalfUp(ranks[|ranks| - 1] as real + avg),
             RoundHalfUp(avg), ConfidenceOf(variance), |ranks|)
  }

  /** The records the forecast looks at: the newest three, oldest first. */
  function ForecastWindow(cs: seq<Cutoff>): (w: seq<Cutoff>)
    ensures |w| == if |cs| < 3 then |cs| else 3
    ensures NewestOldestFirst(w, cs)
  {
    SuffixOfAscIsNewest(cs, Seqs.RelativeIndex(|cs|, -3));
    Seqs.SliceFrom(ByYearAsc(cs), -3)
  }

  /** `predictNextYearTrends`: the last three records (or two), their mean
      change, and the population variance of the changes. The second
      length test of the source cannot fail once the first has passed. */
  function PredictNextYearTrends(cs: seq<Cutoff>): (f: Forecast)
    ensures f.InsufficientForecast? <==> |cs| < 2
    ensures f.Forecast? ==> f.dataPoints == if |cs| < 3 then |cs| else 3
  {
    if |cs| < 2 then InsufficientForecast
    else
      var recent := ForecastWindow(cs);
      if |recent| < 2 then InsufficientForecast
      else Extrapolate(AvgRanks(recent))
  }

  /** The forecast is the straight line through the window's first and last
      average ranks, extended by one step: the mean change is
      (last - first) / (points - 1), its sign is the direction, and the
      next-year rank is the last average plus that mean change, rounded. */
  lemma ExtrapolateIsLinear(ranks: seq<int>)
    requires |ranks| >= 2
    ensures var f := Extrapolate(ranks);
      var first := ranks[0];
      var last := ranks[|ranks| - 1];
      var mean := (last - first) as real / (|ranks| - 1) as real;
      && f.nextYearRank == RoundHalfUp(last as real + mean)
      && f.avgChange == RoundHalfUp(mean)
      && (f.direction == Increasing <==> last > first)
      && (f.direction == Decreasing <==> last < first)
  {
    DeltasTelescope(ranks);
    var n := (|ranks| - 1) as real;
    var d := (ranks[|ranks| - 1] - ranks[0]) as real;
    SignOfQuotient(d, n);
  }

  lemma SignOfQuotient(d: real, n: real)
    requires n > 0.0
    ensures d / n > 0.0 <==> d > 0.0
    ensures d / n < 0.0 <==> d < 0.0
  {
    assert (d / n) * n == d;
    if d / n > 0.0 {
      assert (d / n) * n > 0.0;
    }
    if d / n < 0.0 {
      assert (-(d / n)) * n > 0.0;
    }
  }

  /** With two points there is one change and no spread: high confidence. */
  lemma TwoPointsAreConfident(a0: int, a1: int)
    ensures Extrapolate([a0, a1]).confidence == High
  {
    var ds := Deltas([a0, a1]);
    assert ds == [a1 - a0];
    assert ds[..0] == [];
    var avg := Sum(ds) as real / 1.0;
    assert Sum(ds) == a1 - a0;
    assert SquaredDeviations(ds, avg) == 0.0;
  }

  /** With three points the variance is a quarter of the squared difference
      of the two changes. */
  lemma ThreePointVariance(d1: int, d2: int)
    ensures var avg := Sum([d1, d2]) as real / 2.0;
      SquaredDeviations([d1, d2], avg) / 2.0 == ((d1 - d2) * (d1 - d2)) as real / 4.0
  {
    assert [d1, d2][..1] == [d1];
    assert [d1][..0] == [];
    assert Sum([d1]) == d1;
    assert Sum([d1, d2]) == d1 + d2;
    var avg := (d1 + d2) as real / 2.0;
    var e1 := d1 as real - avg;
    var e2 := d2 as real - avg;
    assert e1 == (d1 - d2) as real / 2.0 && e2 == -e1;
    assert SquaredDeviations([d1], avg) == e1 * e1;
    assert SquaredDeviations([d1, d2], avg) == e1 * e1 + e2 * e2;
    assert e1 * e1 == ((d1 - d2) * (d1 - d2)) as real / 4.0;
  }

  /** For integers, x² < t² iff |x| < t, and x² > t² iff |x| > t. */
  lemma SquareCompare(x: int, t: int)
    requires t >= 0
    ensures x * x < t * t <==> -t < x < t
    ensures x * x > t * t <==> x < -t || t < x
  {
    var a := if x < 0 then -x else x;
    assert x * x == a * a;
    if a < t {
      SquareStrict(a, t);
    } else if a > t {
      SquareStrict(t, a);
    }
  }

  /** Squaring is strictly increasing on the naturals. */
  lemma SquareStrict(a: int, b: int)
    requires 0 <= a < b
    ensures a * a < b * b
  {
    MulLeft(a, a, b);
    MulLeftStrict(b, a, b);
  }

  lemma MulLeft(c: int, x: int, y: int)
    requires 0 <= c && x <= y
    ensures c * x <= c * y
  {
  }

  lemma MulLeftStrict(c: int, x: int, y: int)
    requires 0 < c && x < y
    ensures c * x < c * y
  {
  }

  /** With three points the confidence depends only on how much the two
      changes differ, |a0 - 2 a1 + a2|: under 100 is high, over 400 is low,
      otherwise medium. */
  lemma ThreePointConfidence(a0: int, a1: int, a2: int)
    ensures var bend := a0 - 2 * a1 + a2;
      var c := Extrapolate([a0, a1, a2]).confidence;
      && (c == High <==> -100 < bend < 100)
      && (c == Low <==> bend < -400 || 400 < bend)
  {
    var ds := Deltas([a0, a1, a2]);
    assert ds == [a1 - a0, a2 - a1];
    var bend := a0 - 2 * a1 + a2;
    ThreePointVariance(a1 - a0, a2 - a1);
    assert (a1 - a0 - (a2 - a1)) * (a1 - a0 - (a2 - a1)) == bend * bend;
    SquareCompare(bend, 100);
    SquareCompare(bend, 400);
  }

  /** For a history already in year order (as the route's query returns
      it), the forecast extrapolates its last three records, or both of two. */
  lemma ForecastOfSortedHistory(cs: seq<Cutoff>)
    requires |cs| >= 2 && Seqs.Ascending(cs, Year)
    ensures PredictNextYearTrends(cs) == Extrapolate(AvgRanks(cs[|cs| - (if |cs| < 3 then |cs| else 3)..]))
  {
    AscendingIsSorted(cs);
    assert ForecastWindow(cs) == cs[Seqs.RelativeIndex(|cs|, -3)..];
  }

  /** Average ranks 300, 310, 340: changes 10 and 30, next year 360, high
      confidence. */
  lemma ExtrapolateExample()
    ensures Extrapolate([300, 310, 340]) == Forecast(Increasing, 360, 20, High, 3)
  {
    ExtrapolateIsLinear([300, 310, 340]);
    ThreePointConfidence(300, 310, 340);
    assert (340 - 300) as real / 2.0 == 20.0;
    assert RoundHalfUp(20.0) == 20;
    assert RoundHalfUp(340.0 + 20.0) == 360;
  }

  /** Any history whose newest three average ranks are 300, 310, 340
      (the example history, say) forecasts 360 with high confidence. */
  lemma ForecastExample(cs: seq<Cutoff>)
    requires |cs| >= 2 && AvgRanks(ForecastWindow(cs)) == [300, 310, 340]
    ensures PredictNextYearTrends(cs) == Forecast(Increasing, 360, 20, High, 3)
  {
    ExtrapolateExample();
  }
}

=== FILE: wrappers.dfy ===
/** Option and Result, the two failure-carrying shapes the model needs:
    `null` returns of the JavaScript source become `None`, and thrown
    errors or rejected requests become `Failure`. */
module Wrappers {

  datatype Option<+T> = None | Some(value: T) {

    /** The wrapped value, or `default` when there is none (the `x || default` idiom). */
    function GetOr(default: T): T {
      match this
      case Some(v) => v
      case None => default
    }
  }

  datatype Result<+R, +E> = Success(value: R) | Failure(error: E)
}
